=== FILE: README.md ===
# Dairy hardware caching, Calcified actuators and gamepad helpers — a Dafny model

This project models the core of the Dairy libraries for FTC robots. It covers four groups.

**Caching hardware wrappers** (`CachingHardwareDevice` and its subclasses `CachingDcMotorSimple`,
`CachingDcMotor`, `CachingDcMotorEX`, `CachingCRServo`, `CachingServo`). Each wrapper sits in
front of an SDK device. It forwards a setter call only when the new value differs enough from the
last value it forwarded, and it passes every other call straight through. The wrapped device is
`HardwareDevice.Handle`: its current readings plus the log of calls it has received. A wrapper is
one case of the sum type `CachingHardwareDevice.CachingDevice`. Every setter returns the new
wrapper. A setter body is a list of statements (`Step`s). `Exec` runs them in order, and
`ExecUntilRaise` stops at the first call the handle raises on. This shows where the cache is
assigned relative to the forwarded call: before it for `setPower`, after it for
`setTargetPosition` and `setPosition`. `CachingRuns` runs a series of requests against any
wrapper. It proves that each cache always equals the last value of its kind that reached the
device, and that a run of `setPower` requests forwards exactly what an independent reference
filter selects.

**Calcified actuators** (`CalcifiedMotor`, `CalcifiedServo`, `CalcifiedContinuousServo`,
`MotorControllerGroup`). Each actuator keeps a stored value and a caching tolerance. It sends a
Lynx command, recorded in the actuator's command log, only when the corrected value moves far
enough or reaches an end of its range. The hub's API limits (pulse-width and power ranges) are a
parameter, `Calcified.ApiLimits`. A few design points show up in the proofs:
- The motor, the continuous servo and the group have no "move onto 0" case, unlike the caching
  wrappers (`CalcifiedMotor.NoRestCase`).
- The motor's power setter ignores `enabled` (`CalcifiedMotor.SetterIgnoresEnabled`).
- A group's member is modelled as either a hub motor or a continuous servo.

**Gamepad helpers** (`Conditional` with its `DomainClosureBuilder`, `EnhancedNumberSupplier`,
`EnhancedBooleanSupplier.update`).
- `Conditional` turns a chain of `lessThan`/`greaterThan` calls into a list of intervals. Its
  bound supplier is true iff some interval accepts the value.
- `EnhancedNumberSupplier` applies a modifier and a deadzone on each side of 0.
- `EnhancedBooleanSupplier` detects debounced edges and keeps two toggles. The time source is a
  parameter, and so is the input's value at each update. The model proves that each toggle
  flips once per accepted edge of its kind, and that rising and falling edges alternate.

**Telemetry collections** (`LimitedQueue`, `DataLine`, `DataLineArrayList`).
- `LimitedQueue` is a fixed-capacity ring buffer. It is proved to behave as a bounded FIFO
  that drops the oldest element when full. A `poll` on an empty queue returns null but still
  advances the start index, which the ring invariant tolerates.
- `DataLine` formats a labelled line, padded to a column.
- `DataLineArrayList` keeps that column (`labelWidth`) wide enough for every line added. It never
  lowers it: the recomputation after a removal starts from the current width, so removing or
  replacing the widest line keeps the old width (`DataLineArrayList.ReplacingTheWidestKeepsTheWidth`).

Shared modules:
- `Numeric`: clamping, `Int32`/`Int64` and the Kotlin/Java conversions (`toInt()`, `toLong()`
  truncate toward zero and saturate; `Long` subtraction wraps).
- `Optional`: an `Option` type, which also stands in for nullable values and the NaN sentinel.
- `Jvm`: the exceptions an operation can raise (`Outcome`).
- `Sequences`: small lemmas about sequence concatenation.

Some names differ from the source because the source's words are reserved in Dafny. `modify`
becomes `modifier`, `array` becomes `slots`, and `label` becomes `labelText`.

The calcified `Direction` enum is not modelled. FORWARD = 1 and REVERSE = -1 are the
multipliers that FTCLink's `CalcifiedMotor.Direction` declares.

## Model

| member | source | states |
|---|---|---|
| CachingHardwareDevice.GetHardwareDevice | Core/src/main/kotlin/dev/frozenmilk/dairy/core/util/cachinghardwaredevice/CachingHardwareDevice.java:7-13 | `getHardwareDevice` returns exactly the handle the wrapper was built around |
| CachingHardwareDevice.Read | Core/src/main/kotlin/dev/frozenmilk/dairy/core/util/cachinghardwaredevice/CachingHardwareDevice.java:20-54 | every delegating getter (manufacturer, name, connection info, version, and each subclass's uncached getters) returns the handle's own answer |
| CachingHardwareDevice.ReadIgnoresCaches | Core/src/main/kotlin/dev/frozenmilk/dairy/core/util/cachinghardwaredevice/CachingHardwareDevice.java:5-72 | two wrappers with the same caches, or with the same handle, answer every getter alike when their handles report the same readings: no getter reads a cache |
| CachingHardwareDevice.Command | Core/src/main/kotlin/dev/frozenmilk/dairy/core/util/cachinghardwaredevice/CachingHardwareDevice.java:61-71 | a delegating setter hands exactly that one call to the handle and leaves every cache and the threshold as they were |
| CachingHardwareDevice.FacadeLifecycleForwardsOnce | Core/src/main/kotlin/dev/frozenmilk/dairy/core/util/cachinghardwaredevice/CachingHardwareDevice.java:61-71 | `resetDeviceConfigurationForOpMode` and `close` each reach the handle exactly once and change no cache |
| CachingHardwareDevice.Exec | Core/src/main/kotlin/dev/frozenmilk/dairy/core/util/cachinghardwaredevice/CachingDcMotorSimple.java:81-84 | running a setter's statements keeps the class, threshold and device identity, and appends to the handle's history exactly the calls the statements forward, in order |
| CachingHardwareDevice.ExecUntilRaise | Core/src/main/kotlin/dev/frozenmilk/dairy/core/util/cachinghardwaredevice/CachingDcMotor.java:166-169 | if the handle raises on its call, the wrapper is exactly what running the statements before the first forwarded call leaves, and the handle's history is unchanged |
| CachingHardwareDevice.ExecPair | Core/src/main/kotlin/dev/frozenmilk/dairy/core/util/cachinghardwaredevice/CachingServo.java:108-111 | a two-statement body runs as its statements in order; cut short by a raising handle it keeps exactly the statements before the first forward |
| CachingDcMotorSimple.New | Core/src/main/kotlin/dev/frozenmilk/dairy/core/util/cachinghardwaredevice/CachingDcMotorSimple.java:15-17 | the one-argument constructor is the two-argument one with threshold 0.02 |
| CachingDcMotorSimple.NewWithThreshold | Core/src/main/kotlin/dev/frozenmilk/dairy/core/util/cachinghardwaredevice/CachingDcMotorSimple.java:25-30 | a new wrapper around the given handle has `cachedPower` 0 and the given threshold |
| CachingDcMotorSimple.SetPower | Core/src/main/kotlin/dev/frozenmilk/dairy/core/util/cachinghardwaredevice/CachingDcMotorSimple.java:79-85 | `setPower(v)` caches v and forwards exactly one `setPower(v)` iff the hysteresis rule holds (a change of at least the threshold, or a move onto 0, onto >= 1 or onto <= -1 from elsewhere), and otherwise changes nothing; the three boundary moves forward whatever the threshold |
| CachingDcMotorSimple.SetPowerResult | Core/src/main/kotlin/dev/frozenmilk/dairy/core/util/cachinghardwaredevice/CachingDcMotorSimple.java:95-103 | `setPowerResult` has the effect of `setPower` and returns true iff the rule held, which is iff the handle received a call |
| CachingDcMotorSimple.SetChangeThreshold | Core/src/main/kotlin/dev/frozenmilk/dairy/core/util/cachinghardwaredevice/CachingDcMotorSimple.java:37-39 | only the threshold changes; putting the old threshold back gives the old wrapper |
| CachingDcMotorSimple.GetChangeThreshold | Core/src/main/kotlin/dev/frozenmilk/dairy/core/util/cachinghardwaredevice/CachingDcMotorSimple.java:46-48 | returns the current threshold |
| CachingDcMotorSimple.ThresholdTakesEffect | Core/src/main/kotlin/dev/frozenmilk/dairy/core/util/cachinghardwaredevice/CachingDcMotorSimple.java:37-48 | after `setChangeThreshold(t)` the getter returns t, and the next `setPower` reaches the handle iff the rule holds with t |
| CachingDcMotorSimple.RepeatedPowerForwardsAtMostOnce | Core/src/main/kotlin/dev/frozenmilk/dairy/core/util/cachinghardwaredevice/CachingDcMotorSimple.java:81 | with a positive threshold, `setPower(v)` twice is the same as once, so at most one call reaches the handle |
| CachingDcMotorSimple.ZeroThresholdAlwaysForwards | Core/src/main/kotlin/dev/frozenmilk/dairy/core/util/cachinghardwaredevice/CachingDcMotorSimple.java:81 | with a threshold <= 0 every `setPower` is forwarded and cached |
| CachingDcMotorSimple.DefaultThresholdScenarios | Core/src/main/kotlin/dev/frozenmilk/dairy/core/util/cachinghardwaredevice/CachingDcMotorSimple.java:16 | on a fresh wrapper 0.01 is absorbed and 0.03 forwarded and cached; from 0.95, 1.0 is forwarded; `setPowerResult` reports false and true for these |
| CachingDcMotorSimple.RaisingHandleLeavesAttemptCached | Core/src/main/kotlin/dev/frozenmilk/dairy/core/util/cachinghardwaredevice/CachingDcMotorSimple.java:82-83 | the cache is assigned before the handle is called, so a raising handle leaves `cachedPower` at the attempted value while the handle received nothing |
| CachingDcMotorSimple.PowerAndDirectionPassThrough | Core/src/main/kotlin/dev/frozenmilk/dairy/core/util/cachinghardwaredevice/CachingDcMotorSimple.java:57-70 | `getPower` returns the handle's power whatever is cached; `getDirection` is the handle's; `setDirection` forwards once and keeps every cache |
| CachingDcMotor.New | Core/src/main/kotlin/dev/frozenmilk/dairy/core/util/cachinghardwaredevice/CachingDcMotor.java:16-20 | the one-argument constructor uses threshold 0.02 |
| CachingDcMotor.NewWithThreshold | Core/src/main/kotlin/dev/frozenmilk/dairy/core/util/cachinghardwaredevice/CachingDcMotor.java:28-32 | both caches start at 0 and the threshold is the given one |
| CachingDcMotor.SetTargetPosition | Core/src/main/kotlin/dev/frozenmilk/dairy/core/util/cachinghardwaredevice/CachingDcMotor.java:165-170 | `setTargetPosition(p)` forwards p and caches it iff the cached target is at least the threshold away from p, with no boundary case; otherwise nothing changes; the power cache and threshold are never touched |
| CachingDcMotor.SetPowerKeepsTargetCache | Core/src/main/kotlin/dev/frozenmilk/dairy/core/util/cachinghardwaredevice/CachingDcMotor.java:9 | the inherited `setPower` leaves the target cache alone |
| CachingDcMotor.IntegerTargetsForwardIffChanged | Core/src/main/kotlin/dev/frozenmilk/dairy/core/util/cachinghardwaredevice/CachingDcMotor.java:166-168 | with a threshold in (0, 1] and a whole-number cached target, a target is forwarded iff it differs from the cached one |
| CachingDcMotor.DefaultThresholdTargets | Core/src/main/kotlin/dev/frozenmilk/dairy/core/util/cachinghardwaredevice/CachingDcMotor.java:18 | on a fresh wrapper target 0 is absorbed and every other target forwarded; from 100, 101 is forwarded and cached |
| CachingDcMotor.RaisingHandleLeavesTargetCache | Core/src/main/kotlin/dev/frozenmilk/dairy/core/util/cachinghardwaredevice/CachingDcMotor.java:167-168 | the handle is called before the cache is assigned, so a raising handle leaves the wrapper unchanged |
| CachingDcMotor.MotorAccessorsPassThrough | Core/src/main/kotlin/dev/frozenmilk/dairy/core/util/cachinghardwaredevice/CachingDcMotor.java:43-230 | target/current position, busy, mode, motor type, zero-power behaviour, power-float, controller and port getters return the handle's answers; their setters forward once and keep both caches and the threshold |
| CachingDcMotorEX.New | Core/src/main/kotlin/dev/frozenmilk/dairy/core/util/cachinghardwaredevice/CachingDcMotorEX.java:18-21 | the one-argument constructor gives threshold 0.02 and both caches 0 |
| CachingDcMotorEX.NewWithThreshold | Core/src/main/kotlin/dev/frozenmilk/dairy/core/util/cachinghardwaredevice/CachingDcMotorEX.java:29-32 | the two-argument constructor installs the given threshold |
| CachingDcMotorEX.ExtendedSettersForwardOnce | Core/src/main/kotlin/dev/frozenmilk/dairy/core/util/cachinghardwaredevice/CachingDcMotorEX.java:41-272 | every DcMotorEx-only setter (enable, disable, velocities, PID/PIDF, tolerance, current alert) forwards exactly once and keeps both caches and the threshold |
| CachingDcMotorEX.ExtendedGettersPassThrough | Core/src/main/kotlin/dev/frozenmilk/dairy/core/util/cachinghardwaredevice/CachingDcMotorEX.java:63-282 | every DcMotorEx-only getter returns the handle's value for the same unit or mode |
| CachingCRServo.New | Core/src/main/kotlin/dev/frozenmilk/dairy/core/util/cachinghardwaredevice/CachingCRServo.java:15-17 | the one-argument constructor gives threshold 0.02 and `cachedPower` 0 |
| CachingCRServo.NewWithThreshold | Core/src/main/kotlin/dev/frozenmilk/dairy/core/util/cachinghardwaredevice/CachingCRServo.java:25-28 | the two-argument constructor installs the given threshold |
| CachingCRServo.SharesPowerHysteresis | Core/src/main/kotlin/dev/frozenmilk/dairy/core/util/cachinghardwaredevice/CachingCRServo.java:6 | `setPower` and `setPowerResult` on a CR servo act exactly as on a simple motor in the same state |
| CachingCRServo.ControllerAndPortPassThrough | Core/src/main/kotlin/dev/frozenmilk/dairy/core/util/cachinghardwaredevice/CachingCRServo.java:37-50 | controller and port are the handle's |
| CachingServo.New | Core/src/main/kotlin/dev/frozenmilk/dairy/core/util/cachinghardwaredevice/CachingServo.java:16-18 | the one-argument constructor uses threshold 0.01 |
| CachingServo.NewWithThreshold | Core/src/main/kotlin/dev/frozenmilk/dairy/core/util/cachinghardwaredevice/CachingServo.java:26-31 | a new servo wrapper has no cached position (the NaN sentinel) and the given threshold |
| CachingServo.SetPosition | Core/src/main/kotlin/dev/frozenmilk/dairy/core/util/cachinghardwaredevice/CachingServo.java:106-111 | `setPosition(p)` forwards and caches p iff the cache is unset, or p is at least the threshold away, or p moves onto <= 0 or >= 1 from elsewhere; otherwise nothing changes; the first write always forwards, the 0 and 1 boundary moves forward, and a set cache never becomes unset |
| CachingServo.SetChangeThreshold | Core/src/main/kotlin/dev/frozenmilk/dairy/core/util/cachinghardwaredevice/CachingServo.java:38-40 | only the threshold changes |
| CachingServo.GetChangeThreshold | Core/src/main/kotlin/dev/frozenmilk/dairy/core/util/cachinghardwaredevice/CachingServo.java:47-49 | returns the current threshold |
| CachingServo.RepeatedPositionForwardsAtMostOnce | Core/src/main/kotlin/dev/frozenmilk/dairy/core/util/cachinghardwaredevice/CachingServo.java:108 | with a positive threshold a repeated position is absorbed |
| CachingServo.DefaultThresholdScenarios | Core/src/main/kotlin/dev/frozenmilk/dairy/core/util/cachinghardwaredevice/CachingServo.java:17 | the first 0.5 is forwarded; from 0.5, 0.505 is absorbed; from 0.995, 1.0 is forwarded by the boundary case alone; from 0.99, 1.0 is forwarded |
| CachingServo.RaisingHandleLeavesPositionCache | Core/src/main/kotlin/dev/frozenmilk/dairy/core/util/cachinghardwaredevice/CachingServo.java:109-110 | the handle is called before the cache is assigned, so a raising handle leaves the wrapper unchanged |
| CachingServo.ServoAccessorsPassThrough | Core/src/main/kotlin/dev/frozenmilk/dairy/core/util/cachinghardwaredevice/CachingServo.java:58-157 | position, direction, controller and port are the handle's; `scaleRange` and `setDirection` forward once and keep the cache |
| CachingRuns.Perform | Core/src/main/kotlin/dev/frozenmilk/dairy/core/util/cachinghardwaredevice/CachingHardwareDevice.java:6-9 | one request of any kind keeps the wrapper's class and its handle's identity, and adds at most one call to the handle's history |
| CachingRuns.Run | Core/src/main/kotlin/dev/frozenmilk/dairy/core/util/cachinghardwaredevice/CachingHardwareDevice.java:6-13 | over any series of requests `getHardwareDevice` keeps returning the same device and the handle's history only grows, by at most one call per request |
| CachingRuns.PerformCachesFollow | Core/src/main/kotlin/dev/frozenmilk/dairy/core/util/cachinghardwaredevice/CachingDcMotorSimple.java:81-84 | after one request each cache holds the value that request forwarded to its slot, or what it held before if nothing was forwarded there |
| CachingRuns.CachesFollowLastForwarded | Core/src/main/kotlin/dev/frozenmilk/dairy/core/util/cachinghardwaredevice/CachingDcMotor.java:165-170 | over any series of requests each cache (power, target, position) equals the last value of its kind that reached the handle, or its initial value if none did |
| CachingRuns.ServoUnsetUntilFirstWrite | Core/src/main/kotlin/dev/frozenmilk/dairy/core/util/cachinghardwaredevice/CachingServo.java:29 | a new servo wrapper's cache is unset exactly until the first `setPosition` reaches the handle |
| CachingRuns.PowerRunForwardsFiltered | Core/src/main/kotlin/dev/frozenmilk/dairy/core/util/cachinghardwaredevice/CachingDcMotorSimple.java:79-85 | a run of `setPower` requests sends the handle exactly the powers an independent reference filter selects, in order |
| CachingRuns.ForwardedNeverRepeats | Core/src/main/kotlin/dev/frozenmilk/dairy/core/util/cachinghardwaredevice/CachingDcMotorSimple.java:81 | with a positive threshold the first power let through differs from the cached one, and no power is let through twice in a row |
| Calcified.CorrectedPower | Calcified/src/main/kotlin/dev/frozenmilk/dairy/calcified/hardware/CalcifiedMotor.kt:35 | the corrected power is the request clamped to [-1, 1], negated for REVERSE, so it always lies in [-1, 1] |
| Calcified.PulseWidth | Calcified/src/main/kotlin/dev/frozenmilk/dairy/calcified/hardware/servo/CalcifiedServo.kt:38-41 | the pulse width is the scaled value truncated and coerced into the API's legal range: always in range, and unchanged when already in range |
| Calcified.StoredValueNeedsNoWrite | Calcified/src/main/kotlin/dev/frozenmilk/dairy/calcified/hardware/CalcifiedMotor.kt:36 | with a positive tolerance, requesting the stored value again never sends a command |
| CalcifiedMotor.New | Calcified/src/main/kotlin/dev/frozenmilk/dairy/calcified/hardware/CalcifiedMotor.kt:12-32 | a new motor is forward, tolerance 0.005, enabled, floating, with stored power 0 and nothing sent |
| CalcifiedMotor.Power | Calcified/src/main/kotlin/dev/frozenmilk/dairy/calcified/hardware/CalcifiedMotor.kt:33 | the getter is 0 when disabled, else a value that the direction multiplier maps back to the stored field |
| CalcifiedMotor.PowerCommand | Calcified/src/main/kotlin/dev/frozenmilk/dairy/calcified/hardware/CalcifiedMotor.kt:37 | the constant-power command carries the corrected power scaled by `apiPowerLast` and truncated: 0 at rest, `apiPowerLast` at full forward |
| CalcifiedMotor.SetPower | Calcified/src/main/kotlin/dev/frozenmilk/dairy/calcified/hardware/CalcifiedMotor.kt:34-40 | a command is sent and the corrected value stored iff it is at least the tolerance away or moves onto 1 or -1 from elsewhere, with no rest case; otherwise nothing changes; the field stays in [-1, 1] |
| CalcifiedMotor.SetEnabled | Calcified/src/main/kotlin/dev/frozenmilk/dairy/calcified/hardware/CalcifiedMotor.kt:14-21 | the enable command is sent only when the value changes; nothing else changes |
| CalcifiedMotor.SetZeroPowerBehaviourAsWritten | Calcified/src/main/kotlin/dev/frozenmilk/dairy/calcified/hardware/CalcifiedMotor.kt:23-30 | as written: only the field changes and no command is sent |
| CalcifiedMotor.SetZeroPowerBehaviour | Calcified/src/main/kotlin/dev/frozenmilk/dairy/calcified/hardware/CalcifiedMotor.kt:23-30 | as evidently intended: on a change the mode command is sent once; nothing else changes |
| CalcifiedMotor.ZeroPowerBehaviourNeverSent | Calcified/src/main/kotlin/dev/frozenmilk/dairy/calcified/hardware/CalcifiedMotor.kt:27 | as written, switching a fresh motor to BRAKE records BRAKE but sends nothing, while the corrected setter sends one mode command |
| CalcifiedMotor.OperationsKeepValid | Calcified/src/main/kotlin/dev/frozenmilk/dairy/calcified/hardware/CalcifiedMotor.kt:35-38 | every setter keeps the stored power in [-1, 1] |
| CalcifiedMotor.GetterReturnsClampedRequest | Calcified/src/main/kotlin/dev/frozenmilk/dairy/calcified/hardware/CalcifiedMotor.kt:33-38 | after a forwarded write on an enabled motor, reading power gives back the request clamped to [-1, 1], whatever the direction |
| CalcifiedMotor.NoRestCase | Calcified/src/main/kotlin/dev/frozenmilk/dairy/calcified/hardware/CalcifiedMotor.kt:36 | from a stored 0.003 with tolerance 0.005, setting power 0 is absorbed |
| CalcifiedMotor.SetterIgnoresEnabled | Calcified/src/main/kotlin/dev/frozenmilk/dairy/calcified/hardware/CalcifiedMotor.kt:34-40 | the power setter sends and stores the same whether the motor is enabled or not |
| CalcifiedMotor.FullPowerAndRepeats | Calcified/src/main/kotlin/dev/frozenmilk/dairy/calcified/hardware/CalcifiedMotor.kt:36 | full forward from anywhere else sends one command and stores 1; with a positive tolerance a repeated request is absorbed |
| CalcifiedServo.New | Calcified/src/main/kotlin/dev/frozenmilk/dairy/calcified/hardware/servo/CalcifiedServo.kt:13-32 | a new servo is forward, has the default range, tolerance 0.001, is enabled, and has no stored position (NaN) |
| CalcifiedServo.CorrectedPosition | Calcified/src/main/kotlin/dev/frozenmilk/dairy/calcified/hardware/servo/CalcifiedServo.kt:35-36 | the request clamped to [0, 1], mirrored to 1 minus it for REVERSE |
| CalcifiedServo.PulseCommand | Calcified/src/main/kotlin/dev/frozenmilk/dairy/calcified/hardware/servo/CalcifiedServo.kt:38-43 | the pulse width is always in the API range; position 0 and 1 map to the range's lower and upper pulse |
| CalcifiedServo.SetPosition | Calcified/src/main/kotlin/dev/frozenmilk/dairy/calcified/hardware/servo/CalcifiedServo.kt:33-46 | disabled: nothing changes; enabled: one pulse command is sent and the corrected value stored iff the position is unset, at least the tolerance away, or moves onto 0 or 1 from elsewhere; the first write always sends; the stored position stays in [0, 1] |
| CalcifiedServo.ForcePosition | Calcified/src/main/kotlin/dev/frozenmilk/dairy/calcified/hardware/servo/CalcifiedServo.kt:51-56 | when enabled, always sends and stores the corrected value; the tolerance is restored afterwards |
| CalcifiedServo.SetEnabled | Calcified/src/main/kotlin/dev/frozenmilk/dairy/calcified/hardware/servo/CalcifiedServo.kt:24-30 | the enable command is sent only on a change |
| CalcifiedServo.SetPwmRange | Calcified/src/main/kotlin/dev/frozenmilk/dairy/calcified/hardware/servo/CalcifiedServo.kt:15-21 | the new range is always stored; a frame command is sent iff the frame period differs |
| CalcifiedServo.OperationsKeepValid | Calcified/src/main/kotlin/dev/frozenmilk/dairy/calcified/hardware/servo/CalcifiedServo.kt:35-44 | every operation keeps a stored position in [0, 1] |
| CalcifiedServo.PulseWidthsStayInRange | Calcified/src/main/kotlin/dev/frozenmilk/dairy/calcified/hardware/servo/CalcifiedServo.kt:41 | every pulse width ever sent lies in the API range |
| CalcifiedServo.Scenarios | Calcified/src/main/kotlin/dev/frozenmilk/dairy/calcified/hardware/servo/CalcifiedServo.kt:35-37 | a fresh servo sends 0.3 once; a reversed one stores 0.75 for 0.25; from 0.5, 0.5005 is absorbed but `forcePosition(0.5)` sends |
| CalcifiedServo.RepeatedPositionSentAtMostOnce | Calcified/src/main/kotlin/dev/frozenmilk/dairy/calcified/hardware/servo/CalcifiedServo.kt:37 | with a positive tolerance a repeated position is absorbed |
| CalcifiedContinuousServo.DefaultRange | Calcified/src/main/kotlin/dev/frozenmilk/dairy/calcified/hardware/servo/CalcifiedContinuousServo.kt:16 | the default pulse range is 600 to 2400 microseconds |
| CalcifiedContinuousServo.New | Calcified/src/main/kotlin/dev/frozenmilk/dairy/calcified/hardware/servo/CalcifiedContinuousServo.kt:15-33 | a new continuous servo is forward, 600-2400, tolerance 0.005, enabled, at power 0 |
| CalcifiedContinuousServo.Power | Calcified/src/main/kotlin/dev/frozenmilk/dairy/calcified/hardware/servo/CalcifiedContinuousServo.kt:34 | the getter is 0 when disabled, else the field times the direction multiplier |
| CalcifiedContinuousServo.PulseCommand | Calcified/src/main/kotlin/dev/frozenmilk/dairy/calcified/hardware/servo/CalcifiedContinuousServo.kt:39-44 | the pulse width is always in the API range; -1 and 1 map to the lower and upper pulse |
| CalcifiedContinuousServo.SetPower | Calcified/src/main/kotlin/dev/frozenmilk/dairy/calcified/hardware/servo/CalcifiedContinuousServo.kt:35-47 | disabled: nothing changes; enabled: a pulse is sent and the corrected value stored iff the motor hysteresis rule holds, with no rest case; the field stays in [-1, 1] |
| CalcifiedContinuousServo.SetEnabled | Calcified/src/main/kotlin/dev/frozenmilk/dairy/calcified/hardware/servo/CalcifiedContinuousServo.kt:24-31 | the enable command is sent only on a change |
| CalcifiedContinuousServo.SetPwmRange | Calcified/src/main/kotlin/dev/frozenmilk/dairy/calcified/hardware/servo/CalcifiedContinuousServo.kt:16-22 | the new range is always stored; a frame command is sent iff the frame period differs |
| CalcifiedContinuousServo.OperationsKeepValid | Calcified/src/main/kotlin/dev/frozenmilk/dairy/calcified/hardware/servo/CalcifiedContinuousServo.kt:37-45 | every operation keeps the stored power in [-1, 1] |
| CalcifiedContinuousServo.PulseWidthsStayInRange | Calcified/src/main/kotlin/dev/frozenmilk/dairy/calcified/hardware/servo/CalcifiedContinuousServo.kt:42 | every pulse width ever sent lies in the API range |
| CalcifiedContinuousServo.GetterReturnsClampedRequest | Calcified/src/main/kotlin/dev/frozenmilk/dairy/calcified/hardware/servo/CalcifiedContinuousServo.kt:34-45 | after a forwarded write the getter returns the clamped request; when disabled the setter is a no-op and the getter 0 |
| CalcifiedContinuousServo.NoRestCaseAndFullReverse | Calcified/src/main/kotlin/dev/frozenmilk/dairy/calcified/hardware/servo/CalcifiedContinuousServo.kt:38 | from 0.003, setting 0 is absorbed; from -0.998, full reverse sends one pulse and stores -1 |
| MotorControllerGroup.SetMemberPower | Calcified/src/main/kotlin/dev/frozenmilk/dairy/calcified/hardware/MotorControllerGroup.kt:28 | a member's own power setter: its kind, direction, tolerance and enabled flag are kept; when its own rule lets the write through, a motor member stores the corrected value even when disabled, and an enabled servo member stores it too; a disabled servo member is unchanged |
| MotorControllerGroup.ToggleMember | Calcified/src/main/kotlin/dev/frozenmilk/dairy/calcified/hardware/MotorControllerGroup.kt:12-15 | a member's direction is flipped and nothing else changes |
| MotorControllerGroup.ToggleMemberTwice | Calcified/src/main/kotlin/dev/frozenmilk/dairy/calcified/hardware/MotorControllerGroup.kt:12-15 | flipping a member twice restores it |
| MotorControllerGroup.SetAll | Calcified/src/main/kotlin/dev/frozenmilk/dairy/calcified/hardware/MotorControllerGroup.kt:28 | every member receives the same value through its own setter |
| MotorControllerGroup.ToggleAll | Calcified/src/main/kotlin/dev/frozenmilk/dairy/calcified/hardware/MotorControllerGroup.kt:11-16 | every member is flipped once |
| MotorControllerGroup.New | Calcified/src/main/kotlin/dev/frozenmilk/dairy/calcified/hardware/MotorControllerGroup.kt:6-22 | a new group is forward, tolerance 0.005, enabled, at power 0, with the given members |
| MotorControllerGroup.Power | Calcified/src/main/kotlin/dev/frozenmilk/dairy/calcified/hardware/MotorControllerGroup.kt:23 | the getter is 0 when disabled, else the field times the direction multiplier |
| MotorControllerGroup.SetDirection | Calcified/src/main/kotlin/dev/frozenmilk/dairy/calcified/hardware/MotorControllerGroup.kt:9-18 | setting the current direction does nothing; changing it flips every member once |
| MotorControllerGroup.SetPowerAsWritten | Calcified/src/main/kotlin/dev/frozenmilk/dairy/calcified/hardware/MotorControllerGroup.kt:24-31 | as written: disabled does nothing; otherwise, iff the rule holds, every member is given the group-corrected value (already multiplied by the group direction) and the group stores it |
| MotorControllerGroup.SetPower | Calcified/src/main/kotlin/dev/frozenmilk/dairy/calcified/hardware/MotorControllerGroup.kt:24-31 | as evidently intended: the same decision, but the members are given the clamped request and apply the direction themselves |
| MotorControllerGroup.TwoChangesRestoreMembers | Calcified/src/main/kotlin/dev/frozenmilk/dairy/calcified/hardware/MotorControllerGroup.kt:9-18 | changing direction and back restores the group and all members; setting the same direction twice equals once |
| MotorControllerGroup.FreshMembersStartInStep | Calcified/src/main/kotlin/dev/frozenmilk/dairy/calcified/hardware/MotorControllerGroup.kt:6-22 | a group of fresh motors or fresh continuous servos starts with every member agreeing with the group |
| MotorControllerGroup.IntendedSetterKeepsInStep | Calcified/src/main/kotlin/dev/frozenmilk/dairy/calcified/hardware/MotorControllerGroup.kt:8-31 | with the corrected setter, members that agree with the group keep agreeing after any power or direction change |
| MotorControllerGroup.GroupDirectionCancelsAsWritten | Calcified/src/main/kotlin/dev/frozenmilk/dairy/calcified/hardware/MotorControllerGroup.kt:26-28 | as written, a reversed group drives its member exactly as a forward one does (field 0.5 and the same commands); the corrected setter gives 0.5 and -0.5 |
| Conditional.FreshBuilder | Calcified/src/main/kotlin/dev/frozenmilk/dairy/calcified/gamepad/Conditional.kt:89 | a new builder is (-inf, +inf), both ends inclusive |
| Conditional.BuilderApply | Calcified/src/main/kotlin/dev/frozenmilk/dairy/calcified/gamepad/Conditional.kt:91-108 | `lessThan*` replaces only the upper bound and `greaterThan*` only the lower one, with the operation's inclusivity |
| Conditional.AcceptsIsMembership | Calcified/src/main/kotlin/dev/frozenmilk/dairy/calcified/gamepad/Conditional.kt:111-118 | for lower < upper the built check accepts x iff x is in the interval, each end open or closed as given |
| Conditional.DegenerateIntervalAcceptsItsEnd | Calcified/src/main/kotlin/dev/frozenmilk/dairy/calcified/gamepad/Conditional.kt:113-115 | the check (5, 5] accepts 5 though no real lies in it: the inclusive-end test stands alone |
| Conditional.New | Calcified/src/main/kotlin/dev/frozenmilk/dairy/calcified/gamepad/Conditional.kt:7-9 | no checkers, a fresh builder, no previous operation |
| Conditional.HandleBuildState | Calcified/src/main/kotlin/dev/frozenmilk/dairy/calcified/gamepad/Conditional.kt:70-76 | when the operation repeats the previous kind or closes the current bounds, the builder is added to the checkers and replaced by a fresh one; otherwise both are kept; the previous kind becomes this one |
| Conditional.Apply | Calcified/src/main/kotlin/dev/frozenmilk/dairy/calcified/gamepad/Conditional.kt:14-47 | each chained call runs the closure test, then applies its bound to the (possibly fresh) builder |
| Conditional.Chain | Calcified/src/main/kotlin/dev/frozenmilk/dairy/calcified/gamepad/Conditional.kt:14-47 | a chain of calls only appends checkers, at most one per call, ends with the last call's kind and leaves a builder with a finite bound |
| Conditional.Bind | Calcified/src/main/kotlin/dev/frozenmilk/dairy/calcified/gamepad/Conditional.kt:49-53 | `bind` adds the builder iff one of its bounds was ever set |
| Conditional.Evaluate | Calcified/src/main/kotlin/dev/frozenmilk/dairy/calcified/gamepad/Conditional.kt:56-62 | the bound supplier's loop returns true iff some checker accepts the value |
| Conditional.EmptyBindIsAlwaysFalse | Calcified/src/main/kotlin/dev/frozenmilk/dairy/calcified/gamepad/Conditional.kt:50-62 | binding with no operation gives no checkers, so the supplier is always false |
| Conditional.OpenInterval | Calcified/src/main/kotlin/dev/frozenmilk/dairy/calcified/gamepad/Conditional.kt:71 | `greaterThan(a).lessThan(b)` with a < b binds exactly (a, b) |
| Conditional.SameKindTwiceCloses | Calcified/src/main/kotlin/dev/frozenmilk/dairy/calcified/gamepad/Conditional.kt:71-75 | the same operation kind twice in a row closes the current interval and starts a fresh builder |
| Conditional.ExampleChainCheckers | Calcified/src/main/kotlin/dev/frozenmilk/dairy/calcified/gamepad/Conditional.kt:71-73 | `greaterThanEqualTo(-100).lessThan(-10).greaterThan(200)` binds the checkers [-100, -10) and (200, +inf] |
| Conditional.ExampleChain | Calcified/src/main/kotlin/dev/frozenmilk/dairy/calcified/gamepad/Conditional.kt:49-52 | that chain's supplier is true exactly on [-100, -10) and (200, +inf) |
| Conditional.NonEmptyChainBindsBuilder | Calcified/src/main/kotlin/dev/frozenmilk/dairy/calcified/gamepad/Conditional.kt:50-52 | after any non-empty chain `bind` adds the current builder, giving between 1 and one-per-call checkers |
| Conditional.BindInPlace | Calcified/src/main/kotlin/dev/frozenmilk/dairy/calcified/gamepad/Conditional.kt:49-53 | `bind` leaves the added checker in the Conditional's own list, keeps the earlier checkers as a prefix, and resets neither the builder nor the previous kind |
| Conditional.ReboundKeepsEarlierIntervals | Calcified/src/main/kotlin/dev/frozenmilk/dairy/calcified/gamepad/Conditional.kt:49-53 | a Conditional bound, chained further and bound again accepts every value the first bound supplier accepted |
| Conditional.ReusedConditionalRebinds | Calcified/src/main/kotlin/dev/frozenmilk/dairy/calcified/gamepad/Conditional.kt:49-76 | `greaterThan(5).bind()` then `lessThan(10).bind()` on one Conditional binds (5, +inf] and (5, 10) and accepts 20; the same chain bound once gives (5, 10) alone |
| EnhancedNumberSupplier.New | Calcified/src/main/kotlin/dev/frozenmilk/dairy/calcified/gamepad/EnhancedNumberSupplier.kt:6 | the default modifier is the identity and both deadzones are 0 |
| EnhancedNumberSupplier.WithModifier | Calcified/src/main/kotlin/dev/frozenmilk/dairy/calcified/gamepad/EnhancedNumberSupplier.kt:5 | the given modifier, both deadzones 0 |
| EnhancedNumberSupplier.Get | Calcified/src/main/kotlin/dev/frozenmilk/dairy/calcified/gamepad/EnhancedNumberSupplier.kt:8-13 | the result is 0 or the modified reading; with the deadzones on their sides of 0 it is 0 iff the modified reading lies between them, and the reading itself outside them |
| EnhancedNumberSupplier.ApplyDeadzone | Calcified/src/main/kotlin/dev/frozenmilk/dairy/calcified/gamepad/EnhancedNumberSupplier.kt:19 | a new supplier with the same modifier and deadzones -max(d, 0) and max(d, 0) |
| EnhancedNumberSupplier.ApplyDeadzones | Calcified/src/main/kotlin/dev/frozenmilk/dairy/calcified/gamepad/EnhancedNumberSupplier.kt:23 | the lower deadzone forced to <= 0 and the upper to >= 0 |
| EnhancedNumberSupplier.ApplyLowerDeadzone | Calcified/src/main/kotlin/dev/frozenmilk/dairy/calcified/gamepad/EnhancedNumberSupplier.kt:27 | a new lower deadzone, forced to <= 0; modifier and upper deadzone kept |
| EnhancedNumberSupplier.ApplyUpperDeadzone | Calcified/src/main/kotlin/dev/frozenmilk/dairy/calcified/gamepad/EnhancedNumberSupplier.kt:31 | a new upper deadzone, forced to >= 0; modifier and lower deadzone kept |
| EnhancedNumberSupplier.DefaultDeadzonesAreIdentity | Calcified/src/main/kotlin/dev/frozenmilk/dairy/calcified/gamepad/EnhancedNumberSupplier.kt:5-13 | with the default deadzones `get` is the modified reading |
| EnhancedNumberSupplier.SymmetricDeadzone | Calcified/src/main/kotlin/dev/frozenmilk/dairy/calcified/gamepad/EnhancedNumberSupplier.kt:19 | for d >= 0 the result is 0 iff the modified reading r has -d <= r <= d, and r otherwise; a negative d acts as 0 |
| EnhancedNumberSupplier.OneSidedDeadzonesKeepTheOtherSide | Calcified/src/main/kotlin/dev/frozenmilk/dairy/calcified/gamepad/EnhancedNumberSupplier.kt:27-31 | a one-sided change does not affect readings on the other side of 0 |
| EnhancedNumberSupplier.WrongSignedDeadzonesAreIgnored | Calcified/src/main/kotlin/dev/frozenmilk/dairy/calcified/gamepad/EnhancedNumberSupplier.kt:23 | deadzones given with the wrong signs silence nothing but 0 |
| EnhancedBooleanSupplier.New | Calcified/src/main/kotlin/dev/frozenmilk/dairy/calcified/gamepad/EnhancedBooleanSupplier.kt:22-29 | previous, current and both toggles start at the first reading, the time marker at 0; neither edge flag is set |
| EnhancedBooleanSupplier.Update | Calcified/src/main/kotlin/dev/frozenmilk/dairy/calcified/gamepad/EnhancedBooleanSupplier.kt:30-44 | an accepted rising edge (low, input high, more than the rising debounce since the marker, on wrapping `Long` subtraction) sets current, clears previous, marks the time and flips `toggleTrue`; the falling edge mirrors it; otherwise nothing changes; current changes iff an edge is accepted |
| EnhancedBooleanSupplier.Nanoseconds | Calcified/src/main/kotlin/dev/frozenmilk/dairy/calcified/gamepad/EnhancedBooleanSupplier.kt:55 | seconds times 1e9, truncated toward zero, within one nanosecond below the exact value when in range |
| EnhancedBooleanSupplier.Debounce | Calcified/src/main/kotlin/dev/frozenmilk/dairy/calcified/gamepad/EnhancedBooleanSupplier.kt:55 | a new supplier with both debounces d seconds in nanoseconds, reading the input afresh |
| EnhancedBooleanSupplier.DebounceEach | Calcified/src/main/kotlin/dev/frozenmilk/dairy/calcified/gamepad/EnhancedBooleanSupplier.kt:63 | a new supplier with the rising and falling debounces given |
| EnhancedBooleanSupplier.DebounceRisingEdge | Calcified/src/main/kotlin/dev/frozenmilk/dairy/calcified/gamepad/EnhancedBooleanSupplier.kt:70 | a new rising debounce; the falling debounce is the receiver's |
| EnhancedBooleanSupplier.DebounceFallingEdge | Calcified/src/main/kotlin/dev/frozenmilk/dairy/calcified/gamepad/EnhancedBooleanSupplier.kt:77 | a new falling debounce; the rising debounce is the receiver's |
| EnhancedBooleanSupplier.DebounceInNanoseconds | Calcified/src/main/kotlin/dev/frozenmilk/dairy/calcified/gamepad/EnhancedBooleanSupplier.kt:55-77 | 1.5 s becomes 1.5e9 ns; the one-edge variants keep the other edge's debounce |
| EnhancedBooleanSupplier.SteadyInputChangesNothing | Calcified/src/main/kotlin/dev/frozenmilk/dairy/calcified/gamepad/EnhancedBooleanSupplier.kt:32-38 | an input equal to the debounced value changes no state |
| EnhancedBooleanSupplier.EdgesExclusive | Calcified/src/main/kotlin/dev/frozenmilk/dairy/calcified/gamepad/EnhancedBooleanSupplier.kt:47-48 | `whenTrue` and `whenFalse` are never both true |
| EnhancedBooleanSupplier.Run | Calcified/src/main/kotlin/dev/frozenmilk/dairy/calcified/gamepad/EnhancedBooleanSupplier.kt:30-44 | any series of updates keeps both debounces |
| EnhancedBooleanSupplier.TogglesCountEdges | Calcified/src/main/kotlin/dev/frozenmilk/dairy/calcified/gamepad/EnhancedBooleanSupplier.kt:32-43 | over any series of updates each toggle has flipped once per accepted edge of its kind, the edges alternate, and current is the start value flipped once per edge |
| EnhancedBooleanSupplier.ToggleTrueCountsRisingEdges | Calcified/src/main/kotlin/dev/frozenmilk/dairy/calcified/gamepad/EnhancedBooleanSupplier.kt:36 | `toggleTrue` is the start value flipped once per accepted rising edge |
| EnhancedBooleanSupplier.ToggleFalseCountsFallingEdges | Calcified/src/main/kotlin/dev/frozenmilk/dairy/calcified/gamepad/EnhancedBooleanSupplier.kt:42 | `toggleFalse` is the start value flipped once per accepted falling edge |
| EnhancedBooleanSupplier.EdgesAlternate | Calcified/src/main/kotlin/dev/frozenmilk/dairy/calcified/gamepad/EnhancedBooleanSupplier.kt:32-43 | rising and falling edges alternate, starting with the one away from the start value |
| EnhancedBooleanSupplier.WhenTrueLastsUntilFallingEdge | Calcified/src/main/kotlin/dev/frozenmilk/dairy/calcified/gamepad/EnhancedBooleanSupplier.kt:47 | once `whenTrue` holds it holds, and the state stays put, through every update that accepts no falling edge |
| EnhancedBooleanSupplier.PressAndBounce | Calcified/src/main/kotlin/dev/frozenmilk/dairy/calcified/gamepad/EnhancedBooleanSupplier.kt:30-44 | with 100 ns debounces a press at 150 is accepted, a release at 200 is not, a release at 300 is |
| LimitedQueue.Contents | DataCarton/src/main/kotlin/collections/LimitedQueue.kt:9-11 | the live window read oldest first: slot (start + k) mod capacity holds element k |
| LimitedQueue.New | DataCarton/src/main/kotlin/collections/LimitedQueue.kt:13-16 | a negative capacity raises; otherwise all slots empty, length 0, start 0, and the ring invariant holds |
| LimitedQueue.Size | DataCarton/src/main/kotlin/collections/LimitedQueue.kt:29-30 | `size` is the number of elements in the window, between 0 and the capacity |
| LimitedQueue.Offer | DataCarton/src/main/kotlin/collections/LimitedQueue.kt:32-42 | null is refused with false and no change; with no slots the index arithmetic divides by zero; otherwise true |
| LimitedQueue.Poll | DataCarton/src/main/kotlin/collections/LimitedQueue.kt:44-52 | with no slots raises; otherwise returns the start slot's content |
| LimitedQueue.Peek | DataCarton/src/main/kotlin/collections/LimitedQueue.kt:54-56 | with no slots raises; otherwise the start slot's content, nothing changed |
| LimitedQueue.OfferIsFifo | DataCarton/src/main/kotlin/collections/LimitedQueue.kt:32-42 | `offer` keeps the ring invariant and acts on the contents as the reference bounded FIFO: append, dropping the oldest when full |
| LimitedQueue.OfferIntoSpace | DataCarton/src/main/kotlin/collections/LimitedQueue.kt:34-35 | with room, the element is appended |
| LimitedQueue.OfferWhenFull | DataCarton/src/main/kotlin/collections/LimitedQueue.kt:36-40 | when full, the oldest element is dropped and the new one appended |
| LimitedQueue.PollIsFifo | DataCarton/src/main/kotlin/collections/LimitedQueue.kt:44-56 | `poll` keeps the ring invariant and removes and returns the oldest element (null when empty); `peek` returns the same element |
| LimitedQueue.PollEmpty | DataCarton/src/main/kotlin/collections/LimitedQueue.kt:47-50 | on an empty queue `poll` returns null, and the queue stays empty and keeps the ring invariant |
| LimitedQueue.PollNonEmpty | DataCarton/src/main/kotlin/collections/LimitedQueue.kt:45-50 | on a non-empty queue `poll` returns the oldest element and leaves the rest |
| LimitedQueue.RunQueue | DataCarton/src/main/kotlin/collections/LimitedQueue.kt:32-52 | any series of offers and polls keeps the ring invariant and the capacity |
| LimitedQueue.QueueIsBoundedFifo | DataCarton/src/main/kotlin/collections/LimitedQueue.kt:32-52 | any series of offers and polls leaves the queue holding what the reference bounded FIFO holds |
| LimitedQueue.RefusalsAndFaults | DataCarton/src/main/kotlin/collections/LimitedQueue.kt:26-33 | offering null changes nothing; with no slots offer, poll and peek all raise |
| LimitedQueue.DropsOldest | DataCarton/src/main/kotlin/collections/LimitedQueue.kt:36-40 | a queue of two offered 1, 2, 3 holds 2 and 3 and polls 2 |
| DataLine.LabelWidth | DataCarton/src/main/kotlin/datacarton/DataLine.kt:16-17 | the label's length |
| DataLine.Grouped | DataCarton/src/main/kotlin/datacarton/DataLine.kt:19-27 | the label, spaces up to column max(w, label length), then " | " and the contents |
| DataLine.GroupToOutput | DataCarton/src/main/kotlin/datacarton/DataLine.kt:19-27 | the padding loop builds exactly that string |
| DataLine.ToString | DataCarton/src/main/kotlin/datacarton/DataLine.kt:29-33 | `label: contents`, or the contents alone when the label is empty |
| DataLine.NoPaddingWhenNarrow | DataCarton/src/main/kotlin/datacarton/DataLine.kt:21-23 | a width at or below the label's length adds no padding |
| DataLine.SeparatorsAlign | DataCarton/src/main/kotlin/datacarton/DataLine.kt:19-27 | lines grouped to a width no label exceeds put their separators in the same column |
| DataLineArrayList.Empty | Core/src/main/kotlin/collections/DataLineArrayList.kt:12 | no elements, width 0, covered |
| DataLineArrayList.WithCapacity | Core/src/main/kotlin/collections/DataLineArrayList.kt:11 | a negative capacity raises; otherwise an empty list |
| DataLineArrayList.FromCollection | Core/src/main/kotlin/collections/DataLineArrayList.kt:13 | the elements copied, width left at 0 |
| DataLineArrayList.FindLabelWidth | Core/src/main/kotlin/collections/DataLineArrayList.kt:15-21 | the width raised to cover every non-null line: at least the old width, at least every line's width, and equal to the old width or to some line's |
| DataLineArrayList.SafeAdd | Core/src/main/kotlin/collections/DataLineArrayList.kt:23-27 | raised to a non-null incoming line's width; a null leaves it |
| DataLineArrayList.SafeRemove | Core/src/main/kotlin/collections/DataLineArrayList.kt:29-33 | recomputed (from the current width) only when the outgoing line was exactly as wide as the column |
| DataLineArrayList.Set | Core/src/main/kotlin/collections/DataLineArrayList.kt:35-41 | a bad index raises before anything changes; otherwise the slot is replaced, the old line returned, the width never lowered and wide enough for the new line; coverage is kept |
| DataLineArrayList.Add | Core/src/main/kotlin/collections/DataLineArrayList.kt:43-46 | appended, true returned, width raised for the line; coverage kept |
| DataLineArrayList.AddAt | Core/src/main/kotlin/collections/DataLineArrayList.kt:48-51 | the width is raised first, so a bad index raises with the width already grown; otherwise inserted |
| DataLineArrayList.AddAll | Core/src/main/kotlin/collections/DataLineArrayList.kt:53-57 | appended, true iff anything was added, width recomputed so every line is covered |
| DataLineArrayList.AddAllAt | Core/src/main/kotlin/collections/DataLineArrayList.kt:59-63 | a bad index raises before anything changes; otherwise inserted and covered |
| DataLineArrayList.RemoveRange | Core/src/main/kotlin/collections/DataLineArrayList.kt:65-68 | a range outside the list raises before anything changes; otherwise removed and covered |
| DataLineArrayList.Perform | Core/src/main/kotlin/collections/DataLineArrayList.kt:35-68 | no operation lowers the width, and each keeps a covered list covered |
| DataLineArrayList.RunsKeepTheColumn | Core/src/main/kotlin/collections/DataLineArrayList.kt:8-9 | over any series of calls the width never decreases and coverage is kept |
| DataLineArrayList.DefaultListsStayCovered | Core/src/main/kotlin/collections/DataLineArrayList.kt:11-12 | lists built by either default constructor stay covered under any calls |
| DataLineArrayList.CollectionConstructorLeavesZero | Core/src/main/kotlin/collections/DataLineArrayList.kt:13 | built from a collection with a wide line, the width is 0 and the list is not covered |
| DataLineArrayList.ReplacingTheWidestKeepsTheWidth | Core/src/main/kotlin/collections/DataLineArrayList.kt:29-33 | replacing the widest line by a narrower one keeps the old width |
| DataLineArrayList.BadInsertStillWidens | Core/src/main/kotlin/collections/DataLineArrayList.kt:48-51 | a bad-index insert raises but the width has already grown |

## Left out

- Iterators of `LimitedQueue` (`iterator()` and its inner classes): queue contents are modelled as a sequence, and iteration order is `LimitedQueue.Contents`.
- Thread safety and concurrency: every operation is a single atomic step.
- SDK device behaviour behind the caching wrappers (what a motor does with a call): the handle records calls and answers queries from given readings.
- Lynx command transport and responses: a command is appended to the actuator's log, and sending cannot fail.
- `CalcifiedMotor.getCurrent`: it reads the ADC over the hub, which is I/O.
- The Lynx API constants (pulse-width and power ranges) are the parameter `Calcified.ApiLimits` rather than fixed numbers, because their definitions are not part of this model.
- The default `PwmRange` frame of the servos is a parameter: its constant is not part of this model.
- `Range.scale` is modelled as the linear map `Calcified.Scale`.
- NaN and infinite doubles as inputs: reals have neither. The one NaN the source uses on purpose (the servo cache's "unset") is `None`.
- Double rounding: every `double` is an exact real. Where a difference lands within rounding of its threshold or tolerance, a hysteresis decision can differ from the JVM's. For example, a cached power of 0.28 with threshold 0.02 forwards `setPower(0.3)` here, but in doubles |0.3 - 0.28| is just below 0.02, so nothing is forwarded. The affected tests are the caching wrappers' `setPower`, `setTargetPosition` and `setPosition` and the Calcified tolerance tests. Values that are scaled and then truncated can also differ by one unit: `Range.scale` for pulse widths, `power * apiPowerLast`, and `seconds * 1E9` in the debounce constructors.
- Groups nested inside groups: members are hub motors or continuous servos only.
- MotorControllerGroup members: the group holds its motors by value, not by reference. A motor listed twice, a motor shared with the caller or with another group, and a collection changed after construction are not modelled. A duplicated motor would be toggled twice by the direction setter and written twice. `TwoChangesRestoreMembers`, `InStep` and `IntendedSetterKeepsInStep` are about distinct, unshared members.
- Module and port identity: a port is a plain integer and the hub is not modelled.
- `EnhancedBooleanSupplier` combinators (`and`, `or`, `xor`, `not`) and feature registration: they build new suppliers or touch the runtime and are not part of the modelled core.
- `EnhancedBooleanSupplier.New`: the source constructor reads the input four times, once each for `previous`, `current`, `toggleTrue` and `toggleFalse`. The model uses one reading for all four, which differs only if the input changes between those reads.
- `Conditional.Evaluate`: the supplier that `bind()` returns reads the value once per checker, because its `or` does not short-circuit. The model tests every checker against one reading, which differs only if the value changes during one evaluation.
- `Conditional` hands its own checker list to the supplier `bind` builds, so checkers added by later chained calls also appear in suppliers bound earlier. The model returns the list by value: `Conditional.BindInPlace` gives the Conditional after `bind` (checker kept, builder and previous kind not reset), but a supplier already bound does not see later additions.
- The supplier inside `EnhancedNumberSupplier` and the `modify` function are parameters: the reading is passed in, and the modifier is a total function on reals.
- `DataLine` contents supplier: the current contents string is a parameter.
- DataLine.LabelWidth: counts the label's characters (Unicode scalar values). Kotlin's `label.length` counts UTF-16 code units, so a label with a character outside the Basic Multilingual Plane is one narrower here per such character. The padding in `Grouped` and `GroupToOutput` and the widths `DataLineArrayList` keeps follow the same count.
- The JDK's own bounds checks behind `removeRange`, `set` and the indexed `add` and `addAll` are modelled as one plain index or range check each, raising `IndexOutOfBoundsException`.
- EnhancedBooleanSupplier.Nanoseconds: states the conversion only when seconds × 1e9 fits in a `Long` and is non-negative; the saturating and negative cases are computed but not described.
- CalcifiedServo.PulseCommand: states that the pulse is in the API range and what the two end positions give, not the linear interpolation in between.
- CalcifiedContinuousServo.PulseCommand: states that the pulse is in the API range and what full reverse and full forward give, not the interpolation in between.
- CalcifiedMotor.PowerCommand: states the command for rest and full forward only, not the general scaling.
- Calcified.PulseWidth: states the range and that in-range values pass unchanged; the direction of coercion out of range is not stated.

## Findings

| source | as written | input that shows it | evidently intended | confidence | as-written member | corrected member |
|---|---|---|---|---|---|---|
| Calcified/src/main/kotlin/dev/frozenmilk/dairy/calcified/hardware/CalcifiedMotor.kt:27 | the zero-power-behaviour setter builds the channel-mode command but never sends it | a new motor on any port, then `zeroPowerBehaviour = BRAKE`: the field is BRAKE and no command is sent | send the mode command when the behaviour changes | not executed | CalcifiedMotor.SetZeroPowerBehaviourAsWritten | CalcifiedMotor.SetZeroPowerBehaviour |
| Calcified/src/main/kotlin/dev/frozenmilk/dairy/calcified/hardware/MotorControllerGroup.kt:26-28 | members are given the group's direction-corrected power, and the group's direction setter also reverses every member, so the two reversals cancel | a one-motor group given power 0.5, forward and then reversed: the member stores 0.5 and sends the same command both times | give members the clamped request, so each member's own (toggled) direction reverses it once | not executed | MotorControllerGroup.SetPowerAsWritten | MotorControllerGroup.SetPower |

=== FILE: caching_cr_servo.dfy ===
/** CachingCRServo: a continuous-rotation servo with the simple motor's power cache and no
    caching logic of its own. */
module CachingCRServo {

  import HW = HardwareDevice
  import opened CachingHardwareDevice
  import Simple = CachingDcMotorSimple

  /** The one-argument constructor: threshold 0.02, power cache 0.0. */
  function New(h: HW.Handle): (w: CachingDevice)
    ensures w == NewWithThreshold(h, Simple.DefaultChangeThreshold)
    ensures w.changeThreshold == 0.02 && w.cachedPower == 0.0
  {
    NewWithThreshold(h, Simple.DefaultChangeThreshold)
  }

  /** The two-argument constructor installs the given threshold. */
  function NewWithThreshold(h: HW.Handle, changeThreshold: real): (w: CachingDevice)
    ensures w.CRServo? && GetHardwareDevice(w) == h
    ensures w.cachedPower == 0.0 && w.changeThreshold == changeThreshold
  {
    CRServo(h, 0.0, changeThreshold)
  }

  /** The inherited power cache: a continuous servo forwards exactly the writes a simple motor
      with the same cache and threshold would forward. */
  lemma SharesPowerHysteresis(h: HW.Handle, cached: real, t: real, power: real)
    ensures var servo := Simple.SetPower(CRServo(h, cached, t), power);
            var motor := Simple.SetPower(DcMotorSimple(h, cached, t), power);
            servo.device == motor.device && servo.cachedPower == motor.cachedPower
    ensures Simple.SetPowerResult(CRServo(h, cached, t), power).1 == Simple.SetPowerResult(DcMotorSimple(h, cached, t), power).1
  {
  }

  /** `getController` and `getPortNumber` report the handle's values and leave the cache alone. */
  lemma ControllerAndPortPassThrough(w: CachingDevice)
    requires w.CRServo?
    ensures Read(w, HW.GetController) == HW.Object(w.device.readings.controller)
    ensures Read(w, HW.GetPortNumber) == HW.Whole(w.device.readings.portNumber)
  {
  }
}

=== FILE: caching_dc_motor.dfy ===
/** CachingDcMotor: adds a cache of the integer target position on top of the power cache.
    The target is compared against the same threshold as power, with no boundary cases. */
module CachingDcMotor {

  import opened Numeric
  import HW = HardwareDevice
  import opened CachingHardwareDevice
  import Simple = CachingDcMotorSimple

  /** The one-argument constructor (through the simple motor's default threshold). */
  function New(h: HW.Handle): (w: CachingDevice)
    ensures w == NewWithThreshold(h, Simple.DefaultChangeThreshold)
  {
    NewWithThreshold(h, Simple.DefaultChangeThreshold)
  }

  /** The two-argument constructor: both caches start at 0.0. */
  function NewWithThreshold(h: HW.Handle, changeThreshold: real): (w: CachingDevice)
    ensures w.DcMotor? && GetHardwareDevice(w) == h
    ensures w.cachedPower == 0.0 && w.cachedTargetPosition == 0.0 && w.changeThreshold == changeThreshold
  {
    DcMotor(h, 0.0, changeThreshold, 0.0)
  }

  /** The rule of `setTargetPosition`: the magnitude test alone. */
  predicate TargetWriteNeeded(cached: real, target: Int32, threshold: real) {
    Abs(cached - target as real) >= threshold
  }

  /** The statements `setTargetPosition` executes: the handle is called BEFORE the cache is assigned. */
  function SetTargetPositionSteps(w: CachingDevice, target: Int32): (steps: seq<Step>)
    requires w.HasTargetCache()
    ensures AdmitsAll(w.Kind(), steps)
  {
    if TargetWriteNeeded(w.cachedTargetPosition, target, w.changeThreshold)
    then [Forward(HW.SetTargetPosition(target)), StoreTarget(target as real)]
    else []
  }

  /** `setTargetPosition`: forwards the target and caches it exactly when it differs from the
      cached target by at least the threshold; otherwise nothing changes. The power cache is
      never touched. */
  function SetTargetPosition(w: CachingDevice, target: Int32): (r: CachingDevice)
    requires w.HasTargetCache()
    ensures TargetWriteNeeded(w.cachedTargetPosition, target, w.changeThreshold) ==>
              r == WithDevice(WithTarget(w, target as real), HW.Receive(w.device, HW.SetTargetPosition(target)))
    ensures !TargetWriteNeeded(w.cachedTargetPosition, target, w.changeThreshold) ==> r == w
    ensures r.HasTargetCache() && r.cachedPower == w.cachedPower && r.changeThreshold == w.changeThreshold
  {
    if TargetWriteNeeded(w.cachedTargetPosition, target, w.changeThreshold) then
      ExecPair(w, Forward(HW.SetTargetPosition(target)), StoreTarget(target as real));
      Exec(w, SetTargetPositionSteps(w, target))
    else
      Exec(w, SetTargetPositionSteps(w, target))
  }

  /** The two caches are independent: `setPower` leaves the target cache alone. */
  lemma SetPowerKeepsTargetCache(w: CachingDevice, power: real)
    requires w.HasTargetCache()
    ensures Simple.SetPower(w, power).HasTargetCache()
    ensures Simple.SetPower(w, power).cachedTargetPosition == w.cachedTargetPosition
  {
  }

  /** An integer-valued cache and a threshold in (0, 1]: every change of target is
      forwarded and every repeat is suppressed. */
  lemma IntegerTargetsForwardIffChanged(w: CachingDevice, target: Int32)
    requires w.HasTargetCache() && 0.0 < w.changeThreshold <= 1.0
    requires w.cachedTargetPosition == w.cachedTargetPosition.Floor as real
    ensures SetTargetPosition(w, target) != w <==> w.cachedTargetPosition != target as real
  {
    var c := w.cachedTargetPosition.Floor;
    if c != target as int {
      assert c - target >= 1 || target - c >= 1;
      assert Abs(w.cachedTargetPosition - target as real) == Abs((c - target) as real);
      assert Abs((c - target) as real) >= 1.0;
      assert SetTargetPosition(w, target).device.log == w.device.log + [HW.SetTargetPosition(target)];
    }
  }

  /** On a fresh wrapper with the default threshold, target 0 is suppressed while every
      other target is forwarded; from a cached 100, target 101 is forwarded. */
  lemma DefaultThresholdTargets(h: HW.Handle, target: Int32)
    ensures SetTargetPosition(New(h), 0) == New(h)
    ensures target != 0 ==> SetTargetPosition(New(h), target).device.log == h.log + [HW.SetTargetPosition(target)]
    ensures SetTargetPosition(DcMotor(h, 0.0, 0.02, 100.0), 101).cachedTargetPosition == 101.0
  {
    if target != 0 {
      IntegerTargetsForwardIffChanged(New(h), target);
    }
  }

  /** Because the handle is called before the cache is assigned, a handle that raises leaves
      the wrapper exactly as it was. */
  lemma RaisingHandleLeavesTargetCache(w: CachingDevice, target: Int32)
    requires w.HasTargetCache()
    ensures ExecUntilRaise(w, SetTargetPositionSteps(w, target)) == w
  {
    if TargetWriteNeeded(w.cachedTargetPosition, target, w.changeThreshold) {
      ExecPair(w, Forward(HW.SetTargetPosition(target)), StoreTarget(target as real));
    }
  }

  /** The motor accessors (target position, busy flag, encoder, run mode, motor type,
      zero-power behaviour, power float, controller, port) delegate, and the motor setters
      forward once and touch neither cache. */
  lemma MotorAccessorsPassThrough(w: CachingDevice, q: HW.Query, c: HW.Call)
    requires w.HasTargetCache()
    requires q.GetTargetPosition? || q.IsBusy? || q.GetCurrentPosition? || q.GetMode? || q.GetMotorType?
          || q.GetZeroPowerBehavior? || q.GetPowerFloat? || q.GetController? || q.GetPortNumber?
    requires c.SetMode? || c.SetMotorType? || c.SetZeroPowerBehavior? || c.SetPowerFloat?
    ensures Read(w, q) == HW.Answer(w.device.readings, q)
    ensures Command(w, c).device.log == w.device.log + [c]
    ensures Command(w, c).cachedPower == w.cachedPower
    ensures Command(w, c).cachedTargetPosition == w.cachedTargetPosition
    ensures Command(w, c).changeThreshold == w.changeThreshold
  {
  }
}

=== FILE: caching_dc_motor_ex.dfy ===
/** CachingDcMotorEX: the extended motor. Power and target position are cached exactly as
    for CachingDcMotor; velocity, PID/PIDF, tolerance, current and enable calls all delegate. */
module CachingDcMotorEX {

  import HW = HardwareDevice
  import opened CachingHardwareDevice
  import Simple = CachingDcMotorSimple

  /** The one-argument constructor: threshold 0.02, both caches 0.0. */
  function New(h: HW.Handle): (w: CachingDevice)
    ensures w == NewWithThreshold(h, Simple.DefaultChangeThreshold)
    ensures w.changeThreshold == 0.02
  {
    NewWithThreshold(h, Simple.DefaultChangeThreshold)
  }

  /** The two-argument constructor installs the given threshold. */
  function NewWithThreshold(h: HW.Handle, changeThreshold: real): (w: CachingDevice)
    ensures w.DcMotorEx? && GetHardwareDevice(w) == h
    ensures w.cachedPower == 0.0 && w.cachedTargetPosition == 0.0 && w.changeThreshold == changeThreshold
  {
    DcMotorEx(h, 0.0, changeThreshold, 0.0)
  }

  /** The setters only the extended motor has. */
  predicate ExtendedCall(c: HW.Call) {
    Forwards(MotorExKind, c) && !Forwards(MotorKind, c)
  }

  /** The getters only the extended motor has. */
  predicate ExtendedQuery(q: HW.Query) {
    Answers(MotorExKind, q) && !Answers(MotorKind, q)
  }

  /** Enable/disable, both velocity setters, the PID and PIDF setters, the tolerance and the
      current alert each forward their arguments exactly once, unconditionally, and change
      neither cache nor the threshold. */
  lemma ExtendedSettersForwardOnce(w: CachingDevice, c: HW.Call)
    requires w.DcMotorEx? && ExtendedCall(c)
    ensures Command(w, c).device.log == w.device.log + [c]
    ensures Command(w, c).DcMotorEx?
    ensures Command(w, c).cachedPower == w.cachedPower
    ensures Command(w, c).cachedTargetPosition == w.cachedTargetPosition
    ensures Command(w, c).changeThreshold == w.changeThreshold
  {
  }

  /** The enabled query, velocity, PID/PIDF, tolerance, current, current-alert and
      over-current getters return the handle's values for every unit and run mode. */
  lemma ExtendedGettersPassThrough(w: CachingDevice, q: HW.Query)
    requires w.DcMotorEx? && ExtendedQuery(q)
    ensures q.GetVelocity? ==> Read(w, q) == HW.Fraction(w.device.readings.velocity)
    ensures q.GetTargetPositionTolerance? ==> Read(w, q) == HW.Whole(w.device.readings.targetPositionTolerance)
    ensures q.GetVelocityIn? ==> Read(w, q) == HW.Fraction(w.device.readings.velocityIn.At(q.angleUnit))
    ensures q.GetCurrent? ==> Read(w, q) == HW.Fraction(w.device.readings.current.At(q.currentUnit))
    ensures q.GetCurrentAlert? ==> Read(w, q) == HW.Fraction(w.device.readings.currentAlert.At(q.currentUnit))
    ensures q.GetPIDFCoefficients? ==> Read(w, q) == HW.PIDFValue(w.device.readings.pidf.At(q.mode))
    ensures q.GetPIDCoefficients? ==> Read(w, q) == HW.PIDValue(w.device.readings.pid.At(q.mode))
    ensures q.IsMotorEnabled? ==> Read(w, q) == HW.Flag(w.device.readings.motorEnabled)
    ensures q.IsOverCurrent? ==> Read(w, q) == HW.Flag(w.device.readings.overCurrent)
  {
  }
}

=== FILE: caching_dc_motor_simple.dfy ===
/** CachingDcMotorSimple: the power cache shared by simple motors, full motors and
    continuous-rotation servos. A `setPower` call reaches the wrapped handle only when the
    hysteresis rule fires against the last forwarded power. */
module CachingDcMotorSimple {

  import opened Numeric
  import HW = HardwareDevice
  import opened CachingHardwareDevice

  const DefaultChangeThreshold: real := 0.02

  /** The one-argument constructor: threshold 0.02. */
  function New(h: HW.Handle): (w: CachingDevice)
    ensures w == NewWithThreshold(h, DefaultChangeThreshold)
    ensures w.changeThreshold == 0.02
  {
    NewWithThreshold(h, DefaultChangeThreshold)
  }

  /** The two-argument constructor: the given threshold, and a cache already "at rest". */
  function NewWithThreshold(h: HW.Handle, changeThreshold: real): (w: CachingDevice)
    ensures w.DcMotorSimple? && GetHardwareDevice(w) == h
    ensures w.cachedPower == 0.0 && w.changeThreshold == changeThreshold
  {
    DcMotorSimple(h, 0.0, changeThreshold)
  }

  /** The hysteresis rule of `setPower`: a large enough change, or a request for rest, full
      forward or full reverse that the cache is not already at. */
  predicate PowerWriteNeeded(cached: real, power: real, threshold: real) {
    || Abs(power - cached) >= threshold
    || (power == 0.0 && !(cached == 0.0))
    || (power >= 1.0 && !(cached >= 1.0))
    || (power <= -1.0 && !(cached <= -1.0))
  }

  /** The statements `setPower` executes: the cache is assigned BEFORE the handle is called. */
  function SetPowerSteps(w: CachingDevice, power: real): (steps: seq<Step>)
    requires w.HasPowerCache()
    ensures AdmitsAll(w.Kind(), steps)
  {
    if PowerWriteNeeded(w.cachedPower, power, w.changeThreshold)
    then [StorePower(power), Forward(HW.SetPower(power))]
    else []
  }

  /** `setPower`: forwards `power` and caches it exactly when the hysteresis rule fires;
      otherwise the wrapper, cache and handle alike, is left as it was. Whatever the
      threshold, a request for a boundary value the cache is not at goes through. */
  function SetPower(w: CachingDevice, power: real): (r: CachingDevice)
    requires w.HasPowerCache()
    ensures PowerWriteNeeded(w.cachedPower, power, w.changeThreshold) ==>
              r == WithDevice(WithPower(w, power), HW.Receive(w.device, HW.SetPower(power)))
    ensures !PowerWriteNeeded(w.cachedPower, power, w.changeThreshold) ==> r == w
    ensures power == 0.0 && w.cachedPower != 0.0 ==> r.cachedPower == 0.0 && r.device.log == w.device.log + [HW.SetPower(0.0)]
    ensures power >= 1.0 && w.cachedPower < 1.0 ==> r.cachedPower == power && r.device.log == w.device.log + [HW.SetPower(power)]
    ensures power <= -1.0 && w.cachedPower > -1.0 ==> r.cachedPower == power && r.device.log == w.device.log + [HW.SetPower(power)]
  {
    if PowerWriteNeeded(w.cachedPower, power, w.changeThreshold) then
      ExecPair(w, StorePower(power), Forward(HW.SetPower(power)));
      Exec(w, SetPowerSteps(w, power))
    else
      Exec(w, SetPowerSteps(w, power))
  }

  /** `setPowerResult`: the same effect as `setPower`, reporting whether a write reached the handle. */
  function SetPowerResult(w: CachingDevice, power: real): (r: (CachingDevice, bool))
    requires w.HasPowerCache()
    ensures r.0 == SetPower(w, power)
    ensures r.1 <==> PowerWriteNeeded(w.cachedPower, power, w.changeThreshold)
    ensures r.1 <==> r.0.device.log != w.device.log
  {
    var steps := SetPowerSteps(w, power);
    (Exec(w, steps), steps != [])
  }

  /** `setChangeThreshold`: only the threshold changes. */
  function SetChangeThreshold(w: CachingDevice, changeThreshold: real): (r: CachingDevice)
    requires w.HasPowerCache()
    ensures r.changeThreshold == changeThreshold
    ensures WithThreshold(r, w.changeThreshold) == w
  {
    WithThreshold(w, changeThreshold)
  }

  /** `getChangeThreshold`. */
  function GetChangeThreshold(w: CachingDevice): (t: real)
    requires w.HasPowerCache()
    ensures t == w.changeThreshold
  {
    w.changeThreshold
  }

  /** A new threshold is what the getter reports and what the next `setPower` compares against. */
  lemma ThresholdTakesEffect(w: CachingDevice, t: real, power: real)
    requires w.HasPowerCache()
    ensures GetChangeThreshold(SetChangeThreshold(w, t)) == t
    ensures var r := SetPower(SetChangeThreshold(w, t), power);
            r.device.log != w.device.log <==> PowerWriteNeeded(w.cachedPower, power, t)
  {
  }

  /** With a positive threshold, repeating a request changes nothing the second time: two
      consecutive identical calls forward at most once. */
  lemma RepeatedPowerForwardsAtMostOnce(w: CachingDevice, power: real)
    requires w.HasPowerCache() && w.changeThreshold > 0.0
    ensures SetPower(SetPower(w, power), power) == SetPower(w, power)
    ensures |SetPower(SetPower(w, power), power).device.log| <= |w.device.log| + 1
  {
    var once := SetPower(w, power);
    if PowerWriteNeeded(w.cachedPower, power, w.changeThreshold) {
      assert once.cachedPower == power && once.changeThreshold == w.changeThreshold;
      assert !PowerWriteNeeded(once.cachedPower, power, once.changeThreshold);
    }
  }

  /** With a zero (or negative) threshold every call forwards, since |v - c| >= 0 always holds. */
  lemma ZeroThresholdAlwaysForwards(w: CachingDevice, power: real)
    requires w.HasPowerCache() && w.changeThreshold <= 0.0
    ensures SetPower(w, power).device.log == w.device.log + [HW.SetPower(power)]
    ensures SetPower(w, power).cachedPower == power
  {
  }

  /** The threshold scenarios on a fresh wrapper with the default threshold, and the
      full-power boundary from 0.95. */
  lemma DefaultThresholdScenarios(h: HW.Handle)
    ensures SetPower(New(h), 0.01) == New(h)
    ensures SetPower(New(h), 0.03).cachedPower == 0.03
    ensures SetPower(New(h), 0.03).device.log == h.log + [HW.SetPower(0.03)]
    ensures SetPower(DcMotorSimple(h, 0.95, DefaultChangeThreshold), 1.0).device.log == h.log + [HW.SetPower(1.0)]
    ensures SetPowerResult(New(h), 0.01).1 == false && SetPowerResult(New(h), 0.03).1 == true
  {
  }

  /** Because the cache is assigned before the handle is called, a handle that raises
      leaves the cache holding the attempted power, out of step with the hardware. */
  lemma RaisingHandleLeavesAttemptCached(w: CachingDevice, power: real)
    requires w.HasPowerCache() && PowerWriteNeeded(w.cachedPower, power, w.changeThreshold)
    ensures ExecUntilRaise(w, SetPowerSteps(w, power)).cachedPower == power
    ensures ExecUntilRaise(w, SetPowerSteps(w, power)).device == w.device
  {
    var steps := SetPowerSteps(w, power);
    var stored := Apply(w, steps[0]);
    assert steps[1..][0].Forward?;
    assert ExecUntilRaise(w, steps) == ExecUntilRaise(stored, steps[1..]) == stored;
  }

  /** `getPower` and `getDirection` report the handle's values, never the cache, and
      `setDirection` forwards unchanged without touching the cache or threshold. */
  lemma PowerAndDirectionPassThrough(w: CachingDevice, cached: real, d: HW.Direction)
    requires w.HasPowerCache()
    ensures Read(w, HW.GetPower) == HW.Fraction(w.device.readings.power)
    ensures Read(WithPower(w, cached), HW.GetPower) == Read(w, HW.GetPower)
    ensures Read(w, HW.GetDirection) == HW.DirectionValue(w.device.readings.direction)
    ensures Command(w, HW.SetDirection(d)).device.log == w.device.log + [HW.SetDirection(d)]
    ensures SameCaches(w, Command(w, HW.SetDirection(d)))
  {
  }
}

=== FILE: caching_hardware_device.dfy ===
/** The caching decorators around an SDK actuator handle, and the device facade they share.

    The Java classes form a hierarchy (CachingHardwareDevice <- CachingDcMotorSimple <-
    CachingDcMotor <- CachingDcMotorEX, CachingDcMotorSimple <- CachingCRServo,
    CachingHardwareDevice <- CachingServo). Here each concrete class is one constructor of a
    sum type holding the wrapped handle plus the cached fields that class has. */
module CachingHardwareDevice {

  import opened Optional
  import opened HardwareDevice
  import Sequences

  datatype Kind = SimpleKind | CRServoKind | MotorKind | MotorExKind | ServoKind

  datatype CachingDevice =
    | DcMotorSimple(device: Handle, cachedPower: real, changeThreshold: real)
    | CRServo(device: Handle, cachedPower: real, changeThreshold: real)
    | DcMotor(device: Handle, cachedPower: real, changeThreshold: real, cachedTargetPosition: real)
    | DcMotorEx(device: Handle, cachedPower: real, changeThreshold: real, cachedTargetPosition: real)
    | Servo(device: Handle, cachedPosition: Option<real>, changeThreshold: real)
  {
    function Kind(): Kind {
      match this
      case DcMotorSimple(_, _, _) => SimpleKind
      case CRServo(_, _, _) => CRServoKind
      case DcMotor(_, _, _, _) => MotorKind
      case DcMotorEx(_, _, _, _) => MotorExKind
      case Servo(_, _, _) => ServoKind
    }

    /** The classes derived from CachingDcMotorSimple carry `cachedPower`. */
    predicate HasPowerCache() { !Servo? }

    /** The classes derived from CachingDcMotor carry `cachedTargetPosition`. */
    predicate HasTargetCache() { DcMotor? || DcMotorEx? }
  }

  /** The wrapper around another state of the same handle. */
  function WithDevice(w: CachingDevice, h: Handle): (r: CachingDevice)
    ensures r.Kind() == w.Kind() && r.device == h
  {
    match w
    case DcMotorSimple(_, c, t) => DcMotorSimple(h, c, t)
    case CRServo(_, c, t) => CRServo(h, c, t)
    case DcMotor(_, c, t, p) => DcMotor(h, c, t, p)
    case DcMotorEx(_, c, t, p) => DcMotorEx(h, c, t, p)
    case Servo(_, p, t) => Servo(h, p, t)
  }

  function WithPower(w: CachingDevice, power: real): (r: CachingDevice)
    requires w.HasPowerCache()
    ensures r.Kind() == w.Kind() && r.device == w.device && r.cachedPower == power
  {
    match w
    case DcMotorSimple(h, _, t) => DcMotorSimple(h, power, t)
    case CRServo(h, _, t) => CRServo(h, power, t)
    case DcMotor(h, _, t, p) => DcMotor(h, power, t, p)
    case DcMotorEx(h, _, t, p) => DcMotorEx(h, power, t, p)
  }

  function WithTarget(w: CachingDevice, target: real): (r: CachingDevice)
    requires w.HasTargetCache()
    ensures r.Kind() == w.Kind() && r.device == w.device && r.cachedTargetPosition == target
  {
    match w
    case DcMotor(h, c, t, _) => DcMotor(h, c, t, target)
    case DcMotorEx(h, c, t, _) => DcMotorEx(h, c, t, target)
  }

  function WithPosition(w: CachingDevice, position: real): (r: CachingDevice)
    requires w.Servo?
    ensures r.Kind() == w.Kind() && r.device == w.device && r.cachedPosition == Some(position)
  {
    match w
    case Servo(h, _, t) => Servo(h, Some(position), t)
  }

  function WithThreshold(w: CachingDevice, threshold: real): (r: CachingDevice)
    ensures r.Kind() == w.Kind() && r.device == w.device && r.changeThreshold == threshold
  {
    match w
    case DcMotorSimple(h, c, _) => DcMotorSimple(h, c, threshold)
    case CRServo(h, c, _) => CRServo(h, c, threshold)
    case DcMotor(h, c, _, p) => DcMotor(h, c, threshold, p)
    case DcMotorEx(h, c, _, p) => DcMotorEx(h, c, threshold, p)
    case Servo(h, p, _) => Servo(h, p, threshold)
  }

  /** `a` and `b` are the same wrapper except, possibly, for the state of the wrapped handle. */
  predicate SameCaches(a: CachingDevice, b: CachingDevice) {
    WithDevice(a, b.device) == b
  }

  /** The getters each class exposes by pure delegation. */
  predicate Answers(k: Kind, q: Query) {
    match q
    case GetManufacturer | GetDeviceName | GetConnectionInfo | GetVersion => true
    case GetDirection => true
    case GetPower => k != ServoKind
    case GetController | GetPortNumber => k != SimpleKind
    case GetMotorType | GetZeroPowerBehavior | GetPowerFloat | GetTargetPosition | IsBusy
      | GetCurrentPosition | GetMode => k == MotorKind || k == MotorExKind
    case IsMotorEnabled | GetVelocity | GetVelocityIn(_) | GetPIDCoefficients(_) | GetPIDFCoefficients(_)
      | GetTargetPositionTolerance | GetCurrent(_) | GetCurrentAlert(_) | IsOverCurrent => k == MotorExKind
    case GetPosition => k == ServoKind
  }

  /** The setters each class forwards unconditionally; the cached setters
      (`setPower`, `setTargetPosition`, `setPosition`) are not among them. */
  predicate Forwards(k: Kind, c: Call) {
    match c
    case ResetDeviceConfigurationForOpMode | Close => true
    case SetDirection(_) => true
    case SetMotorType(_) | SetZeroPowerBehavior(_) | SetPowerFloat | SetMode(_) => k == MotorKind || k == MotorExKind
    case SetMotorEnable | SetMotorDisable | SetVelocity(_) | SetVelocityIn(_, _) | SetPIDCoefficients(_, _)
      | SetPIDFCoefficients(_, _) | SetVelocityPIDFCoefficients(_, _, _, _) | SetPositionPIDFCoefficients(_)
      | SetTargetPositionTolerance(_) | SetCurrentAlert(_, _) => k == MotorExKind
    case ScaleRange(_, _) => k == ServoKind
    case SetPower(_) | SetTargetPosition(_) | SetPosition(_) => false
  }

  /** `getHardwareDevice`: the handle given to the constructor. */
  function GetHardwareDevice(w: CachingDevice): (h: Handle)
    ensures h == w.device
  {
    w.device
  }

  /** Every delegating getter: the wrapped handle's answer, never a cached field. */
  function Read(w: CachingDevice, q: Query): (v: Value)
    requires Answers(w.Kind(), q)
    ensures v == Answer(w.device.readings, q)
  {
    Answer(w.device.readings, q)
  }

  /** Every delegating setter: exactly one call reaches the handle and no cached field or
      threshold changes. */
  function Command(w: CachingDevice, c: Call): (r: CachingDevice)
    requires Forwards(w.Kind(), c)
    ensures r.device == Receive(w.device, c)
    ensures SameCaches(w, r)
  {
    WithDevice(w, Receive(w.device, c))
  }

  /** A getter's answer depends on the handle alone: two wrappers around the same handle
      answer alike whatever their caches hold. */
  lemma ReadIgnoresCaches(a: CachingDevice, b: CachingDevice, q: Query)
    requires SameCaches(a, b) || a.device == b.device
    requires Answers(a.Kind(), q) && Answers(b.Kind(), q)
    ensures a.device.readings == b.device.readings ==> Read(a, q) == Read(b, q)
  {
  }

  /** `resetDeviceConfigurationForOpMode` and `close` each forward exactly one call. */
  lemma FacadeLifecycleForwardsOnce(w: CachingDevice)
    ensures Command(w, ResetDeviceConfigurationForOpMode).device.log == w.device.log + [ResetDeviceConfigurationForOpMode]
    ensures Command(w, Close).device.log == w.device.log + [Close]
    ensures SameCaches(w, Command(w, ResetDeviceConfigurationForOpMode)) && SameCaches(w, Command(w, Close))
  {
  }

  // ---------------------------------------------------------------------------------------
  // The cached setters, as the sequence of statements they execute.

  /** One statement of a cached setter: assign a cached field, or call the wrapped handle. */
  datatype Step = StorePower(power: real) | StoreTarget(target: real) | StorePosition(position: real) | Forward(call: Call)

  predicate Admits(k: Kind, s: Step) {
    match s
    case StorePower(_) => k != ServoKind
    case StoreTarget(_) => k == MotorKind || k == MotorExKind
    case StorePosition(_) => k == ServoKind
    case Forward(_) => true
  }

  predicate AdmitsAll(k: Kind, steps: seq<Step>) {
    forall i :: 0 <= i < |steps| ==> Admits(k, steps[i])
  }

  /** The downstream calls among `steps`, in order. */
  function Calls(steps: seq<Step>): (cs: seq<Call>)
    ensures |cs| <= |steps|
    ensures cs == [] <==> forall i | 0 <= i < |steps| :: !steps[i].Forward?
    ensures forall j | 0 <= j < |cs| :: Step.Forward(cs[j]) in steps
  {
    if steps == [] then []
    else (if steps[0].Forward? then [steps[0].call] else []) + Calls(steps[1..])
  }

  function Apply(w: CachingDevice, s: Step): (r: CachingDevice)
    requires Admits(w.Kind(), s)
    ensures r.Kind() == w.Kind() && r.changeThreshold == w.changeThreshold
    ensures s.Forward? ==> r.device == Receive(w.device, s.call)
    ensures !s.Forward? ==> r.device == w.device
  {
    match s
    case StorePower(v) => WithPower(w, v)
    case StoreTarget(p) => WithTarget(w, p)
    case StorePosition(p) => WithPosition(w, p)
    case Forward(c) => WithDevice(w, Receive(w.device, c))
  }

  /** Runs every statement: the setter completes. */
  function Exec(w: CachingDevice, steps: seq<Step>): (r: CachingDevice)
    requires AdmitsAll(w.Kind(), steps)
    ensures r.Kind() == w.Kind() && r.changeThreshold == w.changeThreshold
    ensures r.device.id == w.device.id && r.device.readings == w.device.readings
    ensures r.device.log == w.device.log + Calls(steps)
    decreases |steps|
  {
    if steps == [] then w
    else
      var next := Apply(w, steps[0]);
      assert AdmitsAll(next.Kind(), steps[1..]) by {
        forall i | 0 <= i < |steps[1..]| ensures Admits(next.Kind(), steps[1..][i]) {
          assert steps[1..][i] == steps[i + 1];
        }
      }
      var r := Exec(next, steps[1..]);
      var first := if steps[0].Forward? then [steps[0].call] else [];
      assert Calls(steps) == first + Calls(steps[1..]);
      assert next.device.log == w.device.log + first;
      Sequences.AppendAssociates(w.device.log, first, Calls(steps[1..]));
      r
  }

  /** The index of the first downstream call among `steps`, or `|steps|` when there is none. */
  function FirstForward(steps: seq<Step>): (n: nat)
    ensures n <= |steps|
    ensures forall i | 0 <= i < n :: !steps[i].Forward?
    ensures n < |steps| ==> steps[n].Forward?
    decreases |steps|
  {
    if steps == [] || steps[0].Forward? then 0
    else
      var n := 1 + FirstForward(steps[1..]);
      assert forall i | 1 <= i < n :: steps[i] == steps[1..][i - 1];
      n
  }

  /** Runs the statements up to the first downstream call, which raises: the state an
      exception from the wrapped handle leaves behind (the raising call is not logged). It is
      exactly the state after the statements before that call. */
  function ExecUntilRaise(w: CachingDevice, steps: seq<Step>): (r: CachingDevice)
    requires AdmitsAll(w.Kind(), steps)
    ensures r.Kind() == w.Kind() && r.changeThreshold == w.changeThreshold
    ensures r.device == w.device
    ensures r == Exec(w, steps[..FirstForward(steps)])
    decreases |steps|
  {
    if steps == [] || steps[0].Forward? then
      assert steps[..FirstForward(steps)] == [];
      w
    else
      var next := Apply(w, steps[0]);
      assert AdmitsAll(next.Kind(), steps[1..]) by {
        forall i | 0 <= i < |steps[1..]| ensures Admits(next.Kind(), steps[1..][i]) {
          assert steps[1..][i] == steps[i + 1];
        }
      }
      var n := FirstForward(steps);
      assert steps[..n][0] == steps[0];
      assert steps[..n][1..] == steps[1..][..n - 1];
      ExecUntilRaise(next, steps[1..])
  }

  /** Running a store followed by a downstream call, or a call followed by a store. */
  lemma ExecPair(w: CachingDevice, first: Step, second: Step)
    requires Admits(w.Kind(), first) && Admits(w.Kind(), second)
    ensures Exec(w, [first, second]) == Apply(Apply(w, first), second)
    ensures ExecUntilRaise(w, [first, second]) ==
              if first.Forward? then w else if second.Forward? then Apply(w, first) else Apply(Apply(w, first), second)
  {
    var once := Apply(w, first);
    assert [first, second][1..] == [second];
    assert [second][1..] == [];
    assert Exec(once, [second]) == Exec(Apply(once, second), []);
    if !first.Forward? {
      assert ExecUntilRaise(w, [first, second]) == ExecUntilRaise(once, [second]);
      if !second.Forward? {
        assert ExecUntilRaise(once, [second]) == ExecUntilRaise(Apply(once, second), []);
      }
    }
  }
}

=== FILE: caching_runs.dfy ===
/** Sequences of calls on one caching wrapper: what the wrapper keeps across many calls.
    Every cache holds the value of the last write of its kind that reached the handle (or its
    initial value if none did), the handle stays the same device, and a run of `setPower`
    requests forwards exactly the subsequence a reference filter selects. */
module CachingRuns {

  import opened Optional
  import opened Numeric
  import HW = HardwareDevice
  import opened CachingHardwareDevice
  import Simple = CachingDcMotorSimple
  import Motor = CachingDcMotor
  import ServoCache = CachingServo
  import Sequences

  /** One call from user code into the wrapper. */
  datatype Request =
    | PowerRequest(power: real)
    | TargetRequest(target: Int32)
    | PositionRequest(position: real)
    | ThresholdRequest(threshold: real)
    | PassThrough(call: HW.Call)

  /** The requests each wrapper class offers. */
  predicate Accepts(k: Kind, req: Request) {
    match req
    case PowerRequest(_) => k != ServoKind
    case TargetRequest(_) => k == MotorKind || k == MotorExKind
    case PositionRequest(_) => k == ServoKind
    case ThresholdRequest(_) => true
    case PassThrough(c) => Forwards(k, c)
  }

  predicate AcceptsAll(k: Kind, reqs: seq<Request>) {
    forall i | 0 <= i < |reqs| :: Accepts(k, reqs[i])
  }

  /** A single request. Whatever it is, the wrapper keeps its class and its handle's
      identity, and the handle receives at most one new call. */
  function Perform(w: CachingDevice, req: Request): (r: CachingDevice)
    requires Accepts(w.Kind(), req)
    ensures r.Kind() == w.Kind()
    ensures r.device.id == w.device.id && r.device.readings == w.device.readings
    ensures |w.device.log| <= |r.device.log| <= |w.device.log| + 1
    ensures r.device.log[..|w.device.log|] == w.device.log
  {
    match req
    case PowerRequest(p) => Simple.SetPower(w, p)
    case TargetRequest(t) => Motor.SetTargetPosition(w, t)
    case PositionRequest(p) => ServoCache.SetPosition(w, p)
    case ThresholdRequest(t) =>
      if w.Servo? then ServoCache.SetChangeThreshold(w, t) else Simple.SetChangeThreshold(w, t)
    case PassThrough(c) => Command(w, c)
  }

  /** Requests in order. The wrapper keeps its class, `getHardwareDevice` keeps returning the
      same device, and the handle's history only grows, by at most one call per request. */
  function Run(w: CachingDevice, reqs: seq<Request>): (r: CachingDevice)
    requires AcceptsAll(w.Kind(), reqs)
    ensures r.Kind() == w.Kind()
    ensures GetHardwareDevice(r).id == GetHardwareDevice(w).id
    ensures r.device.readings == w.device.readings
    ensures |w.device.log| <= |r.device.log| <= |w.device.log| + |reqs|
    ensures r.device.log[..|w.device.log|] == w.device.log
    decreases |reqs|
  {
    if reqs == [] then w
    else
      var next := Perform(w, reqs[0]);
      assert AcceptsAll(next.Kind(), reqs[1..]) by {
        forall i | 0 <= i < |reqs[1..]| ensures Accepts(next.Kind(), reqs[1..][i]) {
          assert reqs[1..][i] == reqs[i + 1];
        }
      }
      var r := Run(next, reqs[1..]);
      assert r.device.log[..|w.device.log|] == r.device.log[..|next.device.log|][..|w.device.log|];
      r
  }

  /** The three caches. */
  datatype Cache = PowerCache | TargetCache | PositionCache

  /** The value a downstream call writes into the given cache's slot of the hardware, if any. */
  function Payload(cache: Cache, c: HW.Call): Option<real> {
    match c
    case SetPower(p) => if cache == PowerCache then Some(p) else None
    case SetTargetPosition(t) => if cache == TargetCache then Some(t as real) else None
    case SetPosition(p) => if cache == PositionCache then Some(p) else None
    case _ => None
  }

  /** The value the last call of `log` writing into `cache` wrote, or `init` if none did.
      The result is `None` exactly when `init` is and no call of `log` writes that cache. */
  function LastForwarded(cache: Cache, log: seq<HW.Call>, init: Option<real>): (r: Option<real>)
    ensures r.None? <==> init.None? && forall i | 0 <= i < |log| :: Payload(cache, log[i]).None?
    decreases |log|
  {
    if log == [] then init
    else
      match Payload(cache, log[|log| - 1])
      case Some(v) => Some(v)
      case None =>
        var r := LastForwarded(cache, log[..|log| - 1], init);
        assert forall i | 0 <= i < |log| - 1 :: log[..|log| - 1][i] == log[i];
        r
  }

  /** Splitting a history: the last write in `a + b` is the last in `b`, starting from the last in `a`. */
  lemma {:induction false} LastForwardedAppend(cache: Cache, a: seq<HW.Call>, b: seq<HW.Call>, init: Option<real>)
    ensures LastForwarded(cache, a + b, init) == LastForwarded(cache, b, LastForwarded(cache, a, init))
    decreases |b|
  {
    if b == [] {
      assert a + b == a;
    } else {
      var ab := a + b;
      assert ab[|ab| - 1] == b[|b| - 1];
      assert ab[..|ab| - 1] == a + b[..|b| - 1];
      LastForwardedAppend(cache, a, b[..|b| - 1], init);
    }
  }

  /** The calls one request added to the handle's history. */
  function Sent(before: CachingDevice, after: CachingDevice): (s: seq<HW.Call>)
    requires |before.device.log| <= |after.device.log|
    ensures |s| == |after.device.log| - |before.device.log|
  {
    after.device.log[|before.device.log|..]
  }

  /** What a cache holds after some calls: the last value forwarded to that slot. */
  predicate CachesFollow(w: CachingDevice, r: CachingDevice, sent: seq<HW.Call>) {
    && (w.HasPowerCache() && r.HasPowerCache() ==>
          Some(r.cachedPower) == LastForwarded(PowerCache, sent, Some(w.cachedPower)))
    && (w.HasTargetCache() && r.HasTargetCache() ==>
          Some(r.cachedTargetPosition) == LastForwarded(TargetCache, sent, Some(w.cachedTargetPosition)))
    && (w.Servo? && r.Servo? ==>
          r.cachedPosition == LastForwarded(PositionCache, sent, w.cachedPosition))
  }

  /** One request: each cache moves exactly to the value the request forwarded to its slot. */
  lemma PerformCachesFollow(w: CachingDevice, req: Request)
    requires Accepts(w.Kind(), req)
    ensures CachesFollow(w, Perform(w, req), Sent(w, Perform(w, req)))
  {
    match req
    case PowerRequest(p) => PowerRequestFollows(w, p);
    case TargetRequest(t) => TargetRequestFollows(w, t);
    case PositionRequest(p) => PositionRequestFollows(w, p);
    case ThresholdRequest(t) => ThresholdRequestFollows(w, t);
    case PassThrough(c) => PassThroughFollows(w, c);
  }

  /** A history of one call moves a cache only when that call writes its slot. */
  lemma LastForwardedSingle(cache: Cache, c: HW.Call, init: Option<real>)
    ensures LastForwarded(cache, [c], init) == if Payload(cache, c).Some? then Payload(cache, c) else init
  {
    assert [c][..0] == [];
  }

  /** A wrapper that sent nothing and kept its caches follows the empty history. */
  lemma SilentFollows(w: CachingDevice, r: CachingDevice)
    requires r.device.log == w.device.log && SameCaches(w, r)
    ensures CachesFollow(w, r, Sent(w, r))
  {
    assert Sent(w, r) == [];
  }

  lemma PowerRequestFollows(w: CachingDevice, p: real)
    requires w.HasPowerCache()
    ensures CachesFollow(w, Simple.SetPower(w, p), Sent(w, Simple.SetPower(w, p)))
  {
    if Simple.PowerWriteNeeded(w.cachedPower, p, w.changeThreshold) {
      PowerWriteFollows(w, p);
    } else {
      SilentFollows(w, w);
    }
  }

  /** A forwarded power write: the power cache takes the written value, the others stay. */
  lemma PowerWriteFollows(w: CachingDevice, p: real)
    requires w.HasPowerCache()
    ensures var r := WithDevice(WithPower(w, p), HW.Receive(w.device, HW.SetPower(p)));
            CachesFollow(w, r, Sent(w, r))
  {
    Sequences.AppendedSuffix(w.device.log, [HW.SetPower(p)]);
    LastForwardedSingle(PowerCache, HW.SetPower(p), Some(w.cachedPower));
    if w.HasTargetCache() {
      LastForwardedSingle(TargetCache, HW.SetPower(p), Some(w.cachedTargetPosition));
    }
  }

  lemma TargetRequestFollows(w: CachingDevice, t: Int32)
    requires w.HasTargetCache()
    ensures CachesFollow(w, Motor.SetTargetPosition(w, t), Sent(w, Motor.SetTargetPosition(w, t)))
  {
    if Motor.TargetWriteNeeded(w.cachedTargetPosition, t, w.changeThreshold) {
      TargetWriteFollows(w, t);
    } else {
      SilentFollows(w, w);
    }
  }

  /** A forwarded target write: the target cache takes the written value, the power cache stays. */
  lemma TargetWriteFollows(w: CachingDevice, t: Int32)
    requires w.HasTargetCache()
    ensures var r := WithDevice(WithTarget(w, t as real), HW.Receive(w.device, HW.SetTargetPosition(t)));
            CachesFollow(w, r, Sent(w, r))
  {
    Sequences.AppendedSuffix(w.device.log, [HW.SetTargetPosition(t)]);
    LastForwardedSingle(PowerCache, HW.SetTargetPosition(t), Some(w.cachedPower));
    LastForwardedSingle(TargetCache, HW.SetTargetPosition(t), Some(w.cachedTargetPosition));
  }

  lemma PositionRequestFollows(w: CachingDevice, p: real)
    requires w.Servo?
    ensures CachesFollow(w, ServoCache.SetPosition(w, p), Sent(w, ServoCache.SetPosition(w, p)))
  {
    if ServoCache.PositionWriteNeeded(w.cachedPosition, p, w.changeThreshold) {
      PositionWriteFollows(w, p);
    } else {
      SilentFollows(w, w);
    }
  }

  /** A forwarded position write: the position cache takes the written value. */
  lemma PositionWriteFollows(w: CachingDevice, p: real)
    requires w.Servo?
    ensures var r := WithDevice(WithPosition(w, p), HW.Receive(w.device, HW.SetPosition(p)));
            CachesFollow(w, r, Sent(w, r))
  {
    Sequences.AppendedSuffix(w.device.log, [HW.SetPosition(p)]);
    LastForwardedSingle(PositionCache, HW.SetPosition(p), w.cachedPosition);
  }

  lemma ThresholdRequestFollows(w: CachingDevice, t: real)
    ensures var r := if w.Servo? then ServoCache.SetChangeThreshold(w, t) else Simple.SetChangeThreshold(w, t);
            CachesFollow(w, r, Sent(w, r))
  {
    var r := if w.Servo? then ServoCache.SetChangeThreshold(w, t) else Simple.SetChangeThreshold(w, t);
    assert Sent(w, r) == [];
  }

  lemma PassThroughFollows(w: CachingDevice, c: HW.Call)
    requires Forwards(w.Kind(), c)
    ensures CachesFollow(w, Command(w, c), Sent(w, Command(w, c)))
  {
    Sequences.AppendedSuffix(w.device.log, [c]);
    if w.HasPowerCache() {
      LastForwardedSingle(PowerCache, c, Some(w.cachedPower));
    }
    if w.HasTargetCache() {
      LastForwardedSingle(TargetCache, c, Some(w.cachedTargetPosition));
    }
    if w.Servo? {
      LastForwardedSingle(PositionCache, c, w.cachedPosition);
    }
  }

  /** Across any run of requests, each cache holds the last value that reached the handle for
      its slot, or its initial value if nothing did: the cache never drifts from the hardware
      except through the handle's own behaviour. */
  lemma {:induction false} CachesFollowLastForwarded(w: CachingDevice, reqs: seq<Request>)
    requires AcceptsAll(w.Kind(), reqs)
    ensures CachesFollow(w, Run(w, reqs), Sent(w, Run(w, reqs)))
    decreases |reqs|
  {
    if reqs == [] {
      assert Sent(w, w) == [];
    } else {
      var next := Perform(w, reqs[0]);
      assert AcceptsAll(next.Kind(), reqs[1..]) by {
        forall i | 0 <= i < |reqs[1..]| ensures Accepts(next.Kind(), reqs[1..][i]) {
          assert reqs[1..][i] == reqs[i + 1];
        }
      }
      var r := Run(next, reqs[1..]);
      assert r == Run(w, reqs);
      PerformCachesFollow(w, reqs[0]);
      CachesFollowLastForwarded(next, reqs[1..]);
      var first := Sent(w, next);
      var rest := Sent(next, r);
      Sequences.SuffixSplits(w.device.log, next.device.log, r.device.log);
      CachesFollowCompose(w, next, r, first, rest);
    }
  }

  /** Two stretches of history compose: the caches follow the calls of both. */
  lemma CachesFollowCompose(w: CachingDevice, next: CachingDevice, r: CachingDevice, first: seq<HW.Call>, rest: seq<HW.Call>)
    requires w.Kind() == next.Kind() == r.Kind()
    requires CachesFollow(w, next, first) && CachesFollow(next, r, rest)
    ensures CachesFollow(w, r, first + rest)
  {
    if w.HasPowerCache() {
      LastForwardedAppend(PowerCache, first, rest, Some(w.cachedPower));
    }
    if w.HasTargetCache() {
      LastForwardedAppend(TargetCache, first, rest, Some(w.cachedTargetPosition));
    }
    if w.Servo? {
      LastForwardedAppend(PositionCache, first, rest, w.cachedPosition);
    }
  }

  /** A servo wrapper's cache stays unset until the first position reaches the handle, and
      is set from then on. */
  lemma ServoUnsetUntilFirstWrite(h: HW.Handle, reqs: seq<Request>)
    requires AcceptsAll(ServoKind, reqs)
    ensures var r := Run(ServoCache.New(h), reqs);
            r.cachedPosition.None? <==> forall i | |h.log| <= i < |r.device.log| :: !r.device.log[i].SetPosition?
  {
    var w := ServoCache.New(h);
    var r := Run(w, reqs);
    CachesFollowLastForwarded(w, reqs);
    var sent := Sent(w, r);
    assert forall i | |h.log| <= i < |r.device.log| :: r.device.log[i] == sent[i - |h.log|];
    assert forall j | 0 <= j < |sent| :: sent[j] == r.device.log[j + |h.log|];
  }

  /** `setPower` requests for each value in turn. */
  function PowerRequests(vs: seq<real>): (reqs: seq<Request>)
    ensures |reqs| == |vs| && forall i | 0 <= i < |vs| :: reqs[i] == PowerRequest(vs[i])
  {
    if vs == [] then [] else [PowerRequest(vs[0])] + PowerRequests(vs[1..])
  }

  /** The downstream `setPower` calls for each value in turn. */
  function SetPowerCalls(ps: seq<real>): (cs: seq<HW.Call>)
    ensures |cs| == |ps|
  {
    if ps == [] then [] else [HW.SetPower(ps[0])] + SetPowerCalls(ps[1..])
  }

  lemma SetPowerCallsCons(p: real, ps: seq<real>)
    ensures SetPowerCalls([p] + ps) == [HW.SetPower(p)] + SetPowerCalls(ps)
  {
    assert ([p] + ps)[1..] == ps;
  }

  /** Reference filter: the powers a power cache starting at `cached` lets through, each
      judged against the last one let through. */
  function Forwarded(cached: real, threshold: real, vs: seq<real>): (f: seq<real>)
    ensures |f| <= |vs|
    decreases |vs|
  {
    if vs == [] then []
    else if Simple.PowerWriteNeeded(cached, vs[0], threshold) then [vs[0]] + Forwarded(vs[0], threshold, vs[1..])
    else Forwarded(cached, threshold, vs[1..])
  }

  /** The first request of a power run is one `setPower`. */
  lemma PowerRunUnfold(w: CachingDevice, vs: seq<real>)
    requires w.HasPowerCache() && vs != []
    ensures AcceptsAll(w.Kind(), PowerRequests(vs))
    ensures Simple.SetPower(w, vs[0]).HasPowerCache()
    ensures AcceptsAll(Simple.SetPower(w, vs[0]).Kind(), PowerRequests(vs[1..]))
    ensures Run(w, PowerRequests(vs)) == Run(Simple.SetPower(w, vs[0]), PowerRequests(vs[1..]))
  {
    var reqs := PowerRequests(vs);
    assert reqs[1..] == PowerRequests(vs[1..]);
    assert Simple.SetPower(w, vs[0]) == Perform(w, reqs[0]);
  }

  /** The first value of a power run is forwarded exactly when the filter keeps it. */
  lemma PowerFilterStep(w: CachingDevice, vs: seq<real>)
    requires w.HasPowerCache() && vs != []
    ensures var next := Simple.SetPower(w, vs[0]);
            next.device.log + SetPowerCalls(Forwarded(next.cachedPower, next.changeThreshold, vs[1..])) ==
            w.device.log + SetPowerCalls(Forwarded(w.cachedPower, w.changeThreshold, vs))
  {
    if Simple.PowerWriteNeeded(w.cachedPower, vs[0], w.changeThreshold) {
      PowerFilterKeeps(w, vs);
    } else {
      assert Simple.SetPower(w, vs[0]) == w;
    }
  }

  /** A power write that passes the rule appends one `setPower` and caches the value. */
  lemma ForwardedPowerWrite(w: CachingDevice, v: real)
    requires w.HasPowerCache() && Simple.PowerWriteNeeded(w.cachedPower, v, w.changeThreshold)
    ensures var next := Simple.SetPower(w, v);
            next.HasPowerCache() && next.cachedPower == v && next.changeThreshold == w.changeThreshold
            && next.device.log == w.device.log + [HW.SetPower(v)]
  {
  }

  lemma PowerFilterKeeps(w: CachingDevice, vs: seq<real>)
    requires w.HasPowerCache() && vs != []
    requires Simple.PowerWriteNeeded(w.cachedPower, vs[0], w.changeThreshold)
    ensures var next := Simple.SetPower(w, vs[0]);
            next.device.log + SetPowerCalls(Forwarded(next.cachedPower, next.changeThreshold, vs[1..])) ==
            w.device.log + SetPowerCalls(Forwarded(w.cachedPower, w.changeThreshold, vs))
  {
    ForwardedPowerWrite(w, vs[0]);
    var next := Simple.SetPower(w, vs[0]);
    KeptPowerExtendsLog(w.device.log, next.device.log, w.cachedPower, w.changeThreshold, vs);
  }

  /** The same step on bare histories: a kept value is one `setPower` ahead of the rest. */
  lemma KeptPowerExtendsLog(log: seq<HW.Call>, log': seq<HW.Call>, cached: real, threshold: real, vs: seq<real>)
    requires vs != [] && Simple.PowerWriteNeeded(cached, vs[0], threshold)
    requires log' == log + [HW.SetPower(vs[0])]
    ensures log' + SetPowerCalls(Forwarded(vs[0], threshold, vs[1..])) ==
            log + SetPowerCalls(Forwarded(cached, threshold, vs))
  {
    var g := Forwarded(vs[0], threshold, vs[1..]);
    assert Forwarded(cached, threshold, vs) == [vs[0]] + g;
    SetPowerCallsCons(vs[0], g);
    Sequences.AppendAssociates(log, [HW.SetPower(vs[0])], SetPowerCalls(g));
  }

  /** A run of `setPower` requests sends the handle exactly the filtered powers, in order. */
  lemma {:induction false} PowerRunForwardsFiltered(w: CachingDevice, vs: seq<real>)
    requires w.HasPowerCache()
    ensures AcceptsAll(w.Kind(), PowerRequests(vs))
    ensures Run(w, PowerRequests(vs)).device.log ==
              w.device.log + SetPowerCalls(Forwarded(w.cachedPower, w.changeThreshold, vs))
    decreases |vs|
  {
    if vs != [] {
      PowerRunUnfold(w, vs);
      PowerRunForwardsFiltered(Simple.SetPower(w, vs[0]), vs[1..]);
      PowerFilterStep(w, vs);
    }
  }

  /** With a positive threshold the filter never passes the cached value itself, so the handle
      never receives the same power twice in a row. */
  lemma {:induction false} ForwardedNeverRepeats(cached: real, threshold: real, vs: seq<real>)
    requires threshold > 0.0
    ensures var f := Forwarded(cached, threshold, vs);
            (|f| > 0 ==> f[0] != cached) && forall i | 0 <= i < |f| - 1 :: f[i] != f[i + 1]
    decreases |vs|
  {
    if vs != [] {
      ForwardedNeverRepeats(vs[0], threshold, vs[1..]);
      ForwardedNeverRepeats(cached, threshold, vs[1..]);
      var f := Forwarded(cached, threshold, vs);
      if Simple.PowerWriteNeeded(cached, vs[0], threshold) {
        var g := Forwarded(vs[0], threshold, vs[1..]);
        assert f == [vs[0]] + g;
        assert forall i | 1 <= i < |f| :: f[i] == g[i - 1];
      }
    }
  }
}

=== FILE: caching_servo.dfy ===
/** CachingServo: caches the last forwarded position of a position servo. The cache starts
    "never written" (the source's NaN, here `None`), so the first command always goes
    through; the extremes 0 and 1 are forced through as well. */
module CachingServo {

  import opened Optional
  import opened Numeric
  import HW = HardwareDevice
  import opened CachingHardwareDevice

  const DefaultChangeThreshold: real := 0.01

  /** The one-argument constructor: threshold 0.01. */
  function New(h: HW.Handle): (w: CachingDevice)
    ensures w == NewWithThreshold(h, DefaultChangeThreshold)
    ensures w.changeThreshold == 0.01
  {
    NewWithThreshold(h, DefaultChangeThreshold)
  }

  /** The two-argument constructor: the given threshold and an unset cache. */
  function NewWithThreshold(h: HW.Handle, changeThreshold: real): (w: CachingDevice)
    ensures w.Servo? && GetHardwareDevice(w) == h
    ensures w.cachedPosition == None && w.changeThreshold == changeThreshold
  {
    Servo(h, None, changeThreshold)
  }

  /** The rule of `setPosition`: never written, a large enough change, or an extreme the
      cache is not already at. */
  predicate PositionWriteNeeded(cached: Option<real>, position: real, threshold: real) {
    match cached
    case None => true
    case Some(c) =>
      || Abs(c - position) >= threshold
      || (position <= 0.0 && !(c <= 0.0))
      || (position >= 1.0 && !(c >= 1.0))
  }

  /** The statements `setPosition` executes: the handle is called BEFORE the cache is assigned. */
  function SetPositionSteps(w: CachingDevice, position: real): (steps: seq<Step>)
    requires w.Servo?
    ensures AdmitsAll(w.Kind(), steps)
  {
    if PositionWriteNeeded(w.cachedPosition, position, w.changeThreshold)
    then [Forward(HW.SetPosition(position)), StorePosition(position)]
    else []
  }

  /** `setPosition`: forwards and caches the position exactly when the rule fires; otherwise
      nothing changes. The first write always goes through, from above 0 a request for 0
      goes through, from below 1 a request for 1 goes through, and a set cache stays set. */
  function SetPosition(w: CachingDevice, position: real): (r: CachingDevice)
    requires w.Servo?
    ensures PositionWriteNeeded(w.cachedPosition, position, w.changeThreshold) ==>
              r == WithDevice(WithPosition(w, position), HW.Receive(w.device, HW.SetPosition(position)))
    ensures !PositionWriteNeeded(w.cachedPosition, position, w.changeThreshold) ==> r == w
    ensures r.Servo? && r.changeThreshold == w.changeThreshold
    ensures w.cachedPosition == None ==> r.cachedPosition == Some(position) && r.device.log == w.device.log + [HW.SetPosition(position)]
    ensures w.cachedPosition.Some? && w.cachedPosition.value > 0.0 && position == 0.0 ==>
              r.cachedPosition == Some(0.0) && r.device.log == w.device.log + [HW.SetPosition(0.0)]
    ensures w.cachedPosition.Some? && w.cachedPosition.value < 1.0 && position == 1.0 ==>
              r.cachedPosition == Some(1.0) && r.device.log == w.device.log + [HW.SetPosition(1.0)]
    ensures w.cachedPosition.Some? ==> r.cachedPosition.Some?
  {
    if PositionWriteNeeded(w.cachedPosition, position, w.changeThreshold) then
      ExecPair(w, Forward(HW.SetPosition(position)), StorePosition(position));
      Exec(w, SetPositionSteps(w, position))
    else
      Exec(w, SetPositionSteps(w, position))
  }

  /** `setChangeThreshold`: only the threshold changes. */
  function SetChangeThreshold(w: CachingDevice, changeThreshold: real): (r: CachingDevice)
    requires w.Servo?
    ensures r.Servo? && r.changeThreshold == changeThreshold
    ensures WithThreshold(r, w.changeThreshold) == w
  {
    WithThreshold(w, changeThreshold)
  }

  /** `getChangeThreshold`. */
  function GetChangeThreshold(w: CachingDevice): (t: real)
    requires w.Servo?
    ensures t == w.changeThreshold
  {
    w.changeThreshold
  }

  /** With a positive threshold, a repeated position is forwarded at most once. */
  lemma RepeatedPositionForwardsAtMostOnce(w: CachingDevice, position: real)
    requires w.Servo? && w.changeThreshold > 0.0
    ensures SetPosition(SetPosition(w, position), position) == SetPosition(w, position)
  {
    if PositionWriteNeeded(w.cachedPosition, position, w.changeThreshold) {
      var once := SetPosition(w, position);
      assert once.cachedPosition == Some(position);
      assert !PositionWriteNeeded(once.cachedPosition, position, once.changeThreshold);
    }
  }

  /** The scenarios with the default threshold 0.01: the first write of 0.5 goes through;
      from 0.5, 0.505 is suppressed; from 0.995, 1.0 goes through on the boundary rule alone;
      from 0.99 both the magnitude and the boundary rule fire. */
  lemma DefaultThresholdScenarios(h: HW.Handle)
    ensures SetPosition(New(h), 0.5).cachedPosition == Some(0.5)
    ensures SetPosition(New(h), 0.5).device.log == h.log + [HW.SetPosition(0.5)]
    ensures SetPosition(Servo(h, Some(0.5), DefaultChangeThreshold), 0.505) == Servo(h, Some(0.5), DefaultChangeThreshold)
    ensures Abs(0.995 - 1.0) < DefaultChangeThreshold
    ensures SetPosition(Servo(h, Some(0.995), DefaultChangeThreshold), 1.0).device.log == h.log + [HW.SetPosition(1.0)]
    ensures Abs(0.99 - 1.0) >= DefaultChangeThreshold
    ensures SetPosition(Servo(h, Some(0.99), DefaultChangeThreshold), 1.0).cachedPosition == Some(1.0)
  {
  }

  /** Because the handle is called before the cache is assigned, a handle that raises leaves
      the wrapper exactly as it was (a never-written cache stays unset). */
  lemma RaisingHandleLeavesPositionCache(w: CachingDevice, position: real)
    requires w.Servo?
    ensures ExecUntilRaise(w, SetPositionSteps(w, position)) == w
  {
    if PositionWriteNeeded(w.cachedPosition, position, w.changeThreshold) {
      ExecPair(w, Forward(HW.SetPosition(position)), StorePosition(position));
    }
  }

  /** `getPosition`, `scaleRange`, direction, controller and port delegate; `scaleRange` and
      `setDirection` forward once and leave the cached position alone. */
  lemma ServoAccessorsPassThrough(w: CachingDevice, min: real, max: real, d: HW.Direction)
    requires w.Servo?
    ensures Read(w, HW.GetPosition) == HW.Fraction(w.device.readings.position)
    ensures Read(w, HW.GetDirection) == HW.DirectionValue(w.device.readings.direction)
    ensures Read(w, HW.GetController) == HW.Object(w.device.readings.controller)
    ensures Read(w, HW.GetPortNumber) == HW.Whole(w.device.readings.portNumber)
    ensures Command(w, HW.ScaleRange(min, max)).device.log == w.device.log + [HW.ScaleRange(min, max)]
    ensures Command(w, HW.ScaleRange(min, max)).cachedPosition == w.cachedPosition
    ensures Command(w, HW.SetDirection(d)).device.log == w.device.log + [HW.SetDirection(d)]
    ensures Command(w, HW.SetDirection(d)).cachedPosition == w.cachedPosition
  {
  }
}

=== FILE: calcified.dfy ===
/** What the Calcified actuators share: the direction sign, the PWM range, the Lynx commands
    they send (recorded, in order, in a write log), the SDK's linear `Range.scale`, and the
    power hysteresis rule used by motors, continuous servos and motor groups. */
module Calcified {

  import opened Numeric

  /** The direction enum: a sign of +1 or -1. */
  datatype Direction = Forward | Reverse {
    function Multiplier(): (m: real)
      ensures m == 1.0 || m == -1.0
      ensures Forward? <==> m == 1.0
    {
      if Forward? then 1.0 else -1.0
    }

    function Toggled(): (d: Direction)
      ensures d != this
      ensures d.Forward? <==> Reverse?
    {
      if Forward? then Reverse else Forward
    }
  }

  datatype ZeroPowerBehaviour = Brake | Float

  /** An SDK pulse-width range in microseconds: lower and upper pulse, and frame period. */
  datatype PwmRange = PwmRange(usPulseLower: real, usPulseUpper: real, usFrame: real)

  /** The SDK's command limits: the full-scale motor power and the legal pulse widths. */
  datatype ApiLimits = ApiLimits(powerLast: int, pulseWidthFirst: int, pulseWidthLast: int) {
    /** `coerceIn(first, last)` raises unless first <= last. */
    predicate Valid() { pulseWidthFirst <= pulseWidthLast }
  }

  /** The Lynx hub commands the actuators send; the module is implicit, the port explicit. */
  datatype LynxCommand =
    | SetMotorChannelEnable(port: int, enable: bool)
    | SetMotorChannelMode(port: int, behaviour: ZeroPowerBehaviour)
    | SetMotorConstantPower(port: int, power: Int32)
    | SetPWMConfiguration(port: int, framePeriod: Int32)
    | SetServoEnable(port: int, enable: bool)
    | SetServoPulseWidth(port: int, width: int)

  /** The SDK's `Range.scale`: the straight line through (x1, y1) and (x2, y2), evaluated at n. */
  function Scale(n: real, x1: real, x2: real, y1: real, y2: real): (r: real)
    requires x1 != x2
    ensures n == x1 ==> r == y1
    ensures n == x2 ==> r == y2
  {
    var a := (y1 - y2) / (x1 - x2);
    var b := y1 - x1 * a;
    assert a * (x1 - x2) == y1 - y2;
    assert a * x2 + b == y1 - a * (x1 - x2) == y2;
    a * n + b
  }

  /** The pulse width sent for a scaled position: truncated like Kotlin's `toInt` and
      clamped to the API's legal widths. */
  function PulseWidth(scaled: real, limits: ApiLimits): (pwm: int)
    requires limits.Valid()
    ensures limits.pulseWidthFirst <= pwm <= limits.pulseWidthLast
    ensures limits.pulseWidthFirst <= ToInt32(scaled) <= limits.pulseWidthLast ==> pwm == ToInt32(scaled)
  {
    ClampInt(ToInt32(scaled), limits.pulseWidthFirst, limits.pulseWidthLast)
  }

  /** The hysteresis rule of motor-like power setters, on the corrected (clamped and signed)
      value: a large enough change, or full power in either direction that the stored value
      is not exactly at. Unlike the caching wrappers there is no rest case. */
  predicate PowerWriteNeeded(field: real, corrected: real, tolerance: real) {
    || Abs(field - corrected) >= tolerance
    || (corrected >= 1.0 && field != 1.0)
    || (corrected <= -1.0 && field != -1.0)
  }

  /** The request clamped to [-1, 1] and multiplied by the direction sign. */
  function CorrectedPower(value: real, direction: Direction): (c: real)
    ensures -1.0 <= c <= 1.0
    ensures direction.Forward? ==> c == Clamp(value, -1.0, 1.0)
    ensures direction.Reverse? ==> c == -Clamp(value, -1.0, 1.0)
  {
    Clamp(value, -1.0, 1.0) * direction.Multiplier()
  }

  /** With a positive tolerance, a stored value in [-1, 1] never needs a write to itself. */
  lemma StoredValueNeedsNoWrite(field: real, tolerance: real)
    requires tolerance > 0.0 && -1.0 <= field <= 1.0
    ensures !PowerWriteNeeded(field, field, tolerance)
  {
  }
}

=== FILE: calcified_continuous_servo.dfy ===
/** CalcifiedContinuousServo: a continuous-rotation servo port on a Lynx hub, driven like a
    motor (power in [-1, 1]) but through pulse widths. */
module CalcifiedContinuousServo {

  import opened Numeric
  import opened Calcified

  const DefaultCachingTolerance: real := 0.005

  datatype ContinuousServo = ContinuousServo(
    port: int,
    direction: Direction,
    pwmRange: PwmRange,
    cachingTolerance: real,
    enabled: bool,
    field: real,
    log: seq<LynxCommand>)

  /** The pulse range 600-2400 us, with the SDK's default frame period. */
  function DefaultRange(defaultFrame: real): (range: PwmRange)
    ensures range.usPulseLower == 600.0 && range.usPulseUpper == 2400.0 && range.usFrame == defaultFrame
  {
    PwmRange(600.0, 2400.0, defaultFrame)
  }

  /** A continuous servo as the hub hands it out: forward, tolerance 0.005, enabled, at rest. */
  function New(port: int, defaultFrame: real): (s: ContinuousServo)
    ensures s.direction == Forward && s.pwmRange == DefaultRange(defaultFrame)
    ensures s.cachingTolerance == 0.005 && s.enabled && s.field == 0.0 && s.log == [] && s.port == port
    ensures Power(s) == 0.0
  {
    ContinuousServo(port, Forward, DefaultRange(defaultFrame), DefaultCachingTolerance, true, 0.0, [])
  }

  /** The `power` getter: the stored value in the user's frame, or 0 while disabled. */
  function Power(s: ContinuousServo): (p: real)
    ensures !s.enabled ==> p == 0.0
    ensures s.enabled && s.direction.Forward? ==> p == s.field
    ensures s.enabled && s.direction.Reverse? ==> p == -s.field
  {
    if s.enabled then s.field * s.direction.Multiplier() else 0.0
  }

  /** The pulse-width command for a corrected power: [-1, 1] scaled onto the pulse range,
      truncated, and clamped to the API's legal widths. */
  function PulseCommand(s: ContinuousServo, corrected: real, limits: ApiLimits): (cmd: LynxCommand)
    requires limits.Valid()
    ensures cmd.SetServoPulseWidth? && cmd.port == s.port
    ensures limits.pulseWidthFirst <= cmd.width <= limits.pulseWidthLast
    ensures corrected == -1.0 ==> cmd.width == PulseWidth(s.pwmRange.usPulseLower, limits)
    ensures corrected == 1.0 ==> cmd.width == PulseWidth(s.pwmRange.usPulseUpper, limits)
  {
    SetServoPulseWidth(s.port, PulseWidth(Scale(corrected, -1.0, 1.0, s.pwmRange.usPulseLower, s.pwmRange.usPulseUpper), limits))
  }

  /** The `power` setter: nothing at all while disabled; otherwise the request is clamped and
      signed, and a pulse-width command is sent and the corrected value stored exactly when
      the motor hysteresis rule fires. */
  function SetPower(s: ContinuousServo, value: real, limits: ApiLimits): (r: ContinuousServo)
    requires limits.Valid()
    ensures !s.enabled ==> r == s
    ensures var c := CorrectedPower(value, s.direction);
            s.enabled && PowerWriteNeeded(s.field, c, s.cachingTolerance) ==>
              r == s.(field := c, log := s.log + [PulseCommand(s, c, limits)])
    ensures !PowerWriteNeeded(s.field, CorrectedPower(value, s.direction), s.cachingTolerance) ==> r == s
    ensures -1.0 <= s.field <= 1.0 ==> -1.0 <= r.field <= 1.0
  {
    if !s.enabled then s
    else
      var c := CorrectedPower(value, s.direction);
      if PowerWriteNeeded(s.field, c, s.cachingTolerance) then
        s.(field := c, log := s.log + [PulseCommand(s, c, limits)])
      else s
  }

  /** The `enabled` setter: a servo-enable command goes out only when the value changes. */
  function SetEnabled(s: ContinuousServo, value: bool): (r: ContinuousServo)
    ensures r.enabled == value
    ensures s.enabled != value ==> r.log == s.log + [SetServoEnable(s.port, value)]
    ensures s.enabled == value ==> r == s
    ensures r.(enabled := s.enabled, log := s.log) == s
  {
    if s.enabled != value then s.(enabled := value, log := s.log + [SetServoEnable(s.port, value)])
    else s
  }

  /** The `pwmRange` setter: a frame-period command goes out only when the frame changes, but
      the new range is stored either way. */
  function SetPwmRange(s: ContinuousServo, range: PwmRange): (r: ContinuousServo)
    ensures r.pwmRange == range
    ensures range.usFrame != s.pwmRange.usFrame ==> r.log == s.log + [SetPWMConfiguration(s.port, ToInt32(range.usFrame))]
    ensures range.usFrame == s.pwmRange.usFrame ==> r.log == s.log
    ensures r.(pwmRange := s.pwmRange, log := s.log) == s
  {
    var log := if range.usFrame != s.pwmRange.usFrame then s.log + [SetPWMConfiguration(s.port, ToInt32(range.usFrame))] else s.log;
    s.(pwmRange := range, log := log)
  }

  /** The stored power stays in [-1, 1]. */
  predicate Valid(s: ContinuousServo) { -1.0 <= s.field <= 1.0 }

  lemma OperationsKeepValid(s: ContinuousServo, value: real, limits: ApiLimits, e: bool, range: PwmRange)
    requires Valid(s) && limits.Valid()
    ensures Valid(SetPower(s, value, limits)) && Valid(SetEnabled(s, e)) && Valid(SetPwmRange(s, range))
  {
  }

  /** Every pulse width any setter sends lies within the API's legal widths. */
  predicate PulsesInRange(s: ContinuousServo, limits: ApiLimits) {
    forall i | 0 <= i < |s.log| :: s.log[i].SetServoPulseWidth? ==>
      limits.pulseWidthFirst <= s.log[i].width <= limits.pulseWidthLast
  }

  lemma PulseWidthsStayInRange(s: ContinuousServo, value: real, limits: ApiLimits, e: bool, range: PwmRange)
    requires limits.Valid() && PulsesInRange(s, limits)
    ensures PulsesInRange(SetPower(s, value, limits), limits)
    ensures PulsesInRange(SetEnabled(s, e), limits)
    ensures PulsesInRange(SetPwmRange(s, range), limits)
  {
  }

  /** After a write that went out, the getter returns the clamped request; while disabled the
      getter reads 0 and the setter does nothing. */
  lemma GetterReturnsClampedRequest(s: ContinuousServo, value: real, limits: ApiLimits)
    requires limits.Valid()
    ensures s.enabled && PowerWriteNeeded(s.field, CorrectedPower(value, s.direction), s.cachingTolerance) ==>
              Power(SetPower(s, value, limits)) == Clamp(value, -1.0, 1.0)
    ensures !s.enabled ==> Power(SetPower(s, value, limits)) == 0.0 && SetPower(s, value, limits) == s
  {
  }

  /** No rest case: from a stored 0.003 a request for 0 is suppressed; and full reverse is
      forced through from anywhere short of it. */
  lemma NoRestCaseAndFullReverse(port: int, frame: real, limits: ApiLimits)
    requires limits.Valid()
    ensures var s := New(port, frame).(field := 0.003);
            SetPower(s, 0.0, limits) == s
    ensures var s := New(port, frame).(field := -0.998);
            SetPower(s, -1.0, limits).field == -1.0 && |SetPower(s, -1.0, limits).log| == 1
  {
  }
}

=== FILE: calcified_motor.dfy ===
/** CalcifiedMotor: a motor port on a Lynx hub, driven by direct hub commands. The stored
    power is the last corrected value sent; the getter reports it back in the user's frame. */
module CalcifiedMotor {

  import opened Numeric
  import opened Calcified

  const DefaultCachingTolerance: real := 0.005

  /** `field` is the backing field of `power`: the last corrected value sent. */
  datatype Motor = Motor(
    port: int,
    direction: Direction,
    cachingTolerance: real,
    enabled: bool,
    zeroPowerBehaviour: ZeroPowerBehaviour,
    field: real,
    log: seq<LynxCommand>)

  /** A motor as the hub hands it out: forward, tolerance 0.005, enabled, floating, at rest. */
  function New(port: int): (m: Motor)
    ensures m.direction == Forward && m.cachingTolerance == 0.005 && m.enabled
    ensures m.zeroPowerBehaviour == Float && m.field == 0.0 && m.log == [] && m.port == port
    ensures Power(m) == 0.0
  {
    Motor(port, Forward, DefaultCachingTolerance, true, Float, 0.0, [])
  }

  /** The `power` getter: the stored value in the user's frame, or 0 while disabled. */
  function Power(m: Motor): (p: real)
    ensures !m.enabled ==> p == 0.0
    ensures m.enabled ==> p * m.direction.Multiplier() == m.field
  {
    if m.enabled then m.field * m.direction.Multiplier() else 0.0
  }

  /** The constant-power command for a corrected value: scaled to the API's full range and
      truncated like Kotlin's `toInt`. */
  function PowerCommand(port: int, corrected: real, limits: ApiLimits): (cmd: LynxCommand)
    ensures cmd.SetMotorConstantPower? && cmd.port == port
    ensures corrected == 0.0 ==> cmd.power == 0
    ensures corrected == 1.0 && 0 <= limits.powerLast <= Int32Max ==> cmd.power == limits.powerLast
  {
    SetMotorConstantPower(port, ToInt32(corrected * limits.powerLast as real))
  }

  /** The `power` setter. The request is clamped and signed; a constant-power command is sent
      and the corrected value stored exactly when the hysteresis rule fires, and otherwise
      nothing changes. The setter does not look at `enabled`. */
  function SetPower(m: Motor, value: real, limits: ApiLimits): (r: Motor)
    ensures var c := CorrectedPower(value, m.direction);
            PowerWriteNeeded(m.field, c, m.cachingTolerance) ==>
              r == m.(field := c, log := m.log + [PowerCommand(m.port, c, limits)])
    ensures !PowerWriteNeeded(m.field, CorrectedPower(value, m.direction), m.cachingTolerance) ==> r == m
    ensures -1.0 <= m.field <= 1.0 ==> -1.0 <= r.field <= 1.0
  {
    var c := CorrectedPower(value, m.direction);
    if PowerWriteNeeded(m.field, c, m.cachingTolerance) then
      m.(field := c, log := m.log + [PowerCommand(m.port, c, limits)])
    else m
  }

  /** The `enabled` setter: an enable command goes out only when the value changes. */
  function SetEnabled(m: Motor, value: bool): (r: Motor)
    ensures r.enabled == value
    ensures m.enabled != value ==> r.log == m.log + [SetMotorChannelEnable(m.port, value)]
    ensures m.enabled == value ==> r == m
    ensures r.(enabled := m.enabled, log := m.log) == m
  {
    if m.enabled != value then m.(enabled := value, log := m.log + [SetMotorChannelEnable(m.port, value)])
    else m
  }

  /** The `zeroPowerBehaviour` setter as written: the mode command is built but never sent, so
      only the stored field changes and the hub keeps its old behaviour. */
  function SetZeroPowerBehaviourAsWritten(m: Motor, value: ZeroPowerBehaviour): (r: Motor)
    ensures r.zeroPowerBehaviour == value
    ensures r.(zeroPowerBehaviour := m.zeroPowerBehaviour) == m
  {
    if m.zeroPowerBehaviour != value then m.(zeroPowerBehaviour := value) else m
  }

  /** The `zeroPowerBehaviour` setter as evidently intended: like the `enabled` setter, the
      mode command goes out exactly when the value changes. */
  function SetZeroPowerBehaviour(m: Motor, value: ZeroPowerBehaviour): (r: Motor)
    ensures r.zeroPowerBehaviour == value
    ensures m.zeroPowerBehaviour != value ==> r.log == m.log + [SetMotorChannelMode(m.port, value)]
    ensures m.zeroPowerBehaviour == value ==> r == m
    ensures r.(zeroPowerBehaviour := m.zeroPowerBehaviour, log := m.log) == m
  {
    if m.zeroPowerBehaviour != value
    then m.(zeroPowerBehaviour := value, log := m.log + [SetMotorChannelMode(m.port, value)])
    else m
  }

  /** The discrepancy: switching a fresh motor to braking changes what the motor reports but
      tells the hub nothing, while the intended setter sends one mode command. */
  lemma ZeroPowerBehaviourNeverSent(port: int)
    ensures SetZeroPowerBehaviourAsWritten(New(port), Brake).zeroPowerBehaviour == Brake
    ensures SetZeroPowerBehaviourAsWritten(New(port), Brake).log == []
    ensures SetZeroPowerBehaviour(New(port), Brake).log == [SetMotorChannelMode(port, Brake)]
  {
  }

  /** The stored power stays in [-1, 1] however the setters are called. */
  predicate Valid(m: Motor) { -1.0 <= m.field <= 1.0 }

  lemma OperationsKeepValid(m: Motor, value: real, limits: ApiLimits, e: bool, z: ZeroPowerBehaviour)
    requires Valid(m)
    ensures Valid(SetPower(m, value, limits)) && Valid(SetEnabled(m, e))
    ensures Valid(SetZeroPowerBehaviour(m, z)) && Valid(SetZeroPowerBehaviourAsWritten(m, z))
  {
  }

  /** After a write that went out while enabled, the getter returns the clamped request,
      whichever the direction. */
  lemma GetterReturnsClampedRequest(m: Motor, value: real, limits: ApiLimits)
    requires m.enabled && PowerWriteNeeded(m.field, CorrectedPower(value, m.direction), m.cachingTolerance)
    ensures Power(SetPower(m, value, limits)) == Clamp(value, -1.0, 1.0)
  {
    var c := CorrectedPower(value, m.direction);
    var mult := m.direction.Multiplier();
    assert Power(SetPower(m, value, limits)) == c * mult;
  }

  /** No rest case: from a stored 0.003 with the default tolerance, a request for 0 is
      suppressed, and the motor keeps its small power. */
  lemma NoRestCase(port: int, limits: ApiLimits)
    ensures var m := New(port).(field := 0.003);
            SetPower(m, 0.0, limits) == m
  {
  }

  /** The setter ignores `enabled`: a disabled motor sends exactly what an enabled one would. */
  lemma SetterIgnoresEnabled(m: Motor, value: real, limits: ApiLimits)
    ensures SetPower(m.(enabled := false), value, limits).log == SetPower(m.(enabled := true), value, limits).log
    ensures SetPower(m.(enabled := false), value, limits).field == SetPower(m.(enabled := true), value, limits).field
  {
  }

  /** Full power is always forced through from anywhere short of it, and with a positive
      tolerance a repeated request is sent at most once. */
  lemma FullPowerAndRepeats(m: Motor, value: real, limits: ApiLimits)
    ensures m.direction == Forward && value >= 1.0 && m.field != 1.0 ==>
              SetPower(m, value, limits).field == 1.0 && |SetPower(m, value, limits).log| == |m.log| + 1
    ensures m.cachingTolerance > 0.0 ==>
              SetPower(SetPower(m, value, limits), value, limits) == SetPower(m, value, limits)
  {
    if m.cachingTolerance > 0.0 {
      var once := SetPower(m, value, limits);
      if once != m {
        StoredValueNeedsNoWrite(once.field, once.cachingTolerance);
      }
    }
  }
}

=== FILE: calcified_servo.dfy ===
/** CalcifiedServo: a position servo port on a Lynx hub. The stored position is the last
    corrected position sent, and starts "never sent" (the source's NaN, here `None`). */
module CalcifiedServo {

  import opened Optional
  import opened Numeric
  import opened Calcified

  const DefaultCachingTolerance: real := 0.001

  datatype Servo = Servo(
    port: int,
    direction: Direction,
    pwmRange: PwmRange,
    cachingTolerance: real,
    enabled: bool,
    position: Option<real>,
    log: seq<LynxCommand>)

  /** A servo as the hub hands it out, with the SDK's default PWM range. */
  function New(port: int, defaultRange: PwmRange): (s: Servo)
    ensures s.direction == Forward && s.pwmRange == defaultRange && s.cachingTolerance == 0.001
    ensures s.enabled && s.position == None && s.log == [] && s.port == port
  {
    Servo(port, Forward, defaultRange, DefaultCachingTolerance, true, None, [])
  }

  /** The request clamped to [0, 1] and mirrored when the servo is reversed. */
  function CorrectedPosition(value: real, direction: Direction): (c: real)
    ensures 0.0 <= c <= 1.0
    ensures direction.Forward? ==> c == Clamp(value, 0.0, 1.0)
    ensures direction.Reverse? ==> c == 1.0 - Clamp(value, 0.0, 1.0)
  {
    var c := Clamp(value, 0.0, 1.0);
    if direction == Reverse then 1.0 - c else c
  }

  /** The rule of the `position` setter: never sent, a large enough change, or an end of
      travel the stored position is not exactly at. */
  predicate PositionWriteNeeded(field: Option<real>, corrected: real, tolerance: real) {
    match field
    case None => true
    case Some(f) =>
      || Abs(f - corrected) >= tolerance
      || (corrected == 0.0 && f != 0.0)
      || (corrected == 1.0 && f != 1.0)
  }

  /** The pulse-width command for a corrected position: scaled onto the pulse range, truncated,
      and clamped to the API's legal widths. */
  function PulseCommand(s: Servo, corrected: real, limits: ApiLimits): (cmd: LynxCommand)
    requires limits.Valid()
    ensures cmd.SetServoPulseWidth? && cmd.port == s.port
    ensures limits.pulseWidthFirst <= cmd.width <= limits.pulseWidthLast
    ensures corrected == 0.0 ==> cmd.width == PulseWidth(s.pwmRange.usPulseLower, limits)
    ensures corrected == 1.0 ==> cmd.width == PulseWidth(s.pwmRange.usPulseUpper, limits)
  {
    SetServoPulseWidth(s.port, PulseWidth(Scale(corrected, 0.0, 1.0, s.pwmRange.usPulseLower, s.pwmRange.usPulseUpper), limits))
  }

  /** The `position` setter: nothing at all while disabled; otherwise a pulse-width command is
      sent and the corrected position stored exactly when the rule fires. */
  function SetPosition(s: Servo, value: real, limits: ApiLimits): (r: Servo)
    requires limits.Valid()
    ensures !s.enabled ==> r == s
    ensures var c := CorrectedPosition(value, s.direction);
            s.enabled && PositionWriteNeeded(s.position, c, s.cachingTolerance) ==>
              r == s.(position := Some(c), log := s.log + [PulseCommand(s, c, limits)])
    ensures !PositionWriteNeeded(s.position, CorrectedPosition(value, s.direction), s.cachingTolerance) ==> r == s
    ensures s.enabled && s.position == None ==> r.position == Some(CorrectedPosition(value, s.direction))
    ensures r.position.Some? ==> 0.0 <= r.position.value <= 1.0 || r.position == s.position
  {
    if !s.enabled then s
    else
      var c := CorrectedPosition(value, s.direction);
      if PositionWriteNeeded(s.position, c, s.cachingTolerance) then
        s.(position := Some(c), log := s.log + [PulseCommand(s, c, limits)])
      else s
  }

  /** `forcePosition`: the setter run with tolerance 0, after which the previous tolerance is
      restored. While enabled it always sends, since every difference is at least 0. */
  function ForcePosition(s: Servo, value: real, limits: ApiLimits): (r: Servo)
    requires limits.Valid()
    ensures r.cachingTolerance == s.cachingTolerance
    ensures !s.enabled ==> r == s
    ensures var c := CorrectedPosition(value, s.direction);
            s.enabled ==> r == s.(position := Some(c), log := s.log + [PulseCommand(s, c, limits)])
  {
    var tolerance := s.cachingTolerance;
    var zero := s.(cachingTolerance := 0.0);
    var written := SetPosition(zero, value, limits);
    written.(cachingTolerance := tolerance)
  }

  /** The `enabled` setter: a servo-enable command goes out only when the value changes. */
  function SetEnabled(s: Servo, value: bool): (r: Servo)
    ensures r.enabled == value
    ensures s.enabled != value ==> r.log == s.log + [SetServoEnable(s.port, value)]
    ensures s.enabled == value ==> r == s
    ensures r.(enabled := s.enabled, log := s.log) == s
  {
    if s.enabled != value then s.(enabled := value, log := s.log + [SetServoEnable(s.port, value)])
    else s
  }

  /** The `pwmRange` setter: a frame-period command goes out only when the frame changes, but
      the new range is stored either way. */
  function SetPwmRange(s: Servo, range: PwmRange): (r: Servo)
    ensures r.pwmRange == range
    ensures range.usFrame != s.pwmRange.usFrame ==> r.log == s.log + [SetPWMConfiguration(s.port, ToInt32(range.usFrame))]
    ensures range.usFrame == s.pwmRange.usFrame ==> r.log == s.log
    ensures r.(pwmRange := s.pwmRange, log := s.log) == s
  {
    var log := if range.usFrame != s.pwmRange.usFrame then s.log + [SetPWMConfiguration(s.port, ToInt32(range.usFrame))] else s.log;
    s.(pwmRange := range, log := log)
  }

  /** The stored position, once sent, lies in [0, 1]. */
  predicate Valid(s: Servo) {
    s.position.Some? ==> 0.0 <= s.position.value <= 1.0
  }

  lemma OperationsKeepValid(s: Servo, value: real, limits: ApiLimits, e: bool, range: PwmRange)
    requires Valid(s) && limits.Valid()
    ensures Valid(SetPosition(s, value, limits)) && Valid(ForcePosition(s, value, limits))
    ensures Valid(SetEnabled(s, e)) && Valid(SetPwmRange(s, range))
  {
  }

  /** Every pulse width any setter sends lies within the API's legal widths. */
  predicate PulsesInRange(s: Servo, limits: ApiLimits) {
    forall i | 0 <= i < |s.log| :: s.log[i].SetServoPulseWidth? ==>
      limits.pulseWidthFirst <= s.log[i].width <= limits.pulseWidthLast
  }

  lemma PulseWidthsStayInRange(s: Servo, value: real, limits: ApiLimits, e: bool, range: PwmRange)
    requires limits.Valid() && PulsesInRange(s, limits)
    ensures PulsesInRange(SetPosition(s, value, limits), limits)
    ensures PulsesInRange(ForcePosition(s, value, limits), limits)
    ensures PulsesInRange(SetEnabled(s, e), limits)
    ensures PulsesInRange(SetPwmRange(s, range), limits)
  {
  }

  /** The first position while enabled always goes out; a reversed servo asked for 0.25 is
      sent to 0.75; from 0.5 with the default tolerance 0.5005 is suppressed, and a forced
      write of the same value goes out anyway. */
  lemma Scenarios(port: int, range: PwmRange, limits: ApiLimits)
    requires limits.Valid()
    ensures SetPosition(New(port, range), 0.3, limits).position == Some(0.3)
    ensures |SetPosition(New(port, range), 0.3, limits).log| == 1
    ensures SetPosition(New(port, range).(direction := Reverse), 0.25, limits).position == Some(0.75)
    ensures var s := New(port, range).(position := Some(0.5));
            SetPosition(s, 0.5005, limits) == s && |ForcePosition(s, 0.5, limits).log| == 1
  {
  }

  /** With a positive tolerance, a repeated request is sent at most once. */
  lemma RepeatedPositionSentAtMostOnce(s: Servo, value: real, limits: ApiLimits)
    requires limits.Valid() && s.cachingTolerance > 0.0
    ensures SetPosition(SetPosition(s, value, limits), value, limits) == SetPosition(s, value, limits)
  {
  }
}

=== FILE: conditional.dfy ===
/** Conditional: turns a chain of `<`, `<=`, `>`, `>=` calls on a number supplier into a
    union of intervals. A `DomainClosureBuilder` holds the interval being built; an operation
    of the same kind as the previous one, or one that cannot close the current interval,
    first closes it into the list of checkers and starts a fresh unbounded builder. */
module Conditional {

  import opened Optional

  /** A double bound: the infinities and the finite values (NaN is not modelled). */
  datatype Bound = NegInf | Finite(value: real) | PosInf

  /** `a < b` on doubles. */
  predicate BoundLess(a: Bound, b: Bound) {
    match (a, b)
    case (NegInf, NegInf) => false
    case (NegInf, _) => true
    case (Finite(x), Finite(y)) => x < y
    case (Finite(_), PosInf) => true
    case (_, _) => false
  }

  /** `a <= b` on doubles. */
  predicate BoundLessEq(a: Bound, b: Bound) {
    BoundLess(a, b) || a == b
  }

  /** The interval under construction; the defaults are (-inf, +inf), both "inclusive". */
  datatype Builder = Builder(lower: Bound, lowerInclusive: bool, upper: Bound, upperInclusive: bool)

  function FreshBuilder(): (b: Builder)
    ensures b.lower == NegInf && b.upper == PosInf && b.lowerInclusive && b.upperInclusive
  {
    Builder(NegInf, true, PosInf, true)
  }

  datatype OperationType = Less | Greater

  /** One chained call, with its kind and inclusivity. */
  datatype Operation = LessThan(value: real) | LessThanEqualTo(value: real) | GreaterThan(value: real) | GreaterThanEqualTo(value: real) {
    function Kind(): OperationType {
      if LessThan? || LessThanEqualTo? then Less else Greater
    }

    predicate Inclusive() { LessThanEqualTo? || GreaterThanEqualTo? }
  }

  /** The builder's four operations: each returns a new builder; a `Less` operation replaces
      only the upper bound and its inclusivity, a `Greater` one only the lower. */
  function BuilderApply(b: Builder, op: Operation): (r: Builder)
    ensures op.Kind() == Less ==>
              r.lower == b.lower && r.lowerInclusive == b.lowerInclusive
              && r.upper == Finite(op.value) && r.upperInclusive == op.Inclusive()
    ensures op.Kind() == Greater ==>
              r.upper == b.upper && r.upperInclusive == b.upperInclusive
              && r.lower == Finite(op.value) && r.lowerInclusive == op.Inclusive()
  {
    match op
    case LessThan(v) => Builder(b.lower, b.lowerInclusive, Finite(v), false)
    case LessThanEqualTo(v) => Builder(b.lower, b.lowerInclusive, Finite(v), true)
    case GreaterThan(v) => Builder(Finite(v), false, b.upper, b.upperInclusive)
    case GreaterThanEqualTo(v) => Builder(Finite(v), true, b.upper, b.upperInclusive)
  }

  /** The check `build()` produces: strictly inside, or equal to an inclusive bound. */
  predicate Accepts(b: Builder, x: real) {
    || (BoundLess(b.lower, Finite(x)) && BoundLess(Finite(x), b.upper))
    || (b.lowerInclusive && b.lower == Finite(x))
    || (b.upperInclusive && b.upper == Finite(x))
  }

  /** Ordinary interval membership, each end open or closed. */
  predicate InInterval(b: Builder, x: real) {
    && (if b.lowerInclusive then BoundLessEq(b.lower, Finite(x)) else BoundLess(b.lower, Finite(x)))
    && (if b.upperInclusive then BoundLessEq(Finite(x), b.upper) else BoundLess(Finite(x), b.upper))
  }

  /** For a proper interval (lower below upper), the built check is exactly interval membership. */
  lemma AcceptsIsMembership(b: Builder, x: real)
    requires BoundLess(b.lower, b.upper)
    ensures Accepts(b, x) <==> InInterval(b, x)
  {
  }

  /** For a degenerate interval the check is not membership: (5, 5] accepts 5. */
  lemma DegenerateIntervalAcceptsItsEnd()
    ensures Accepts(Builder(Finite(5.0), false, Finite(5.0), true), 5.0)
    ensures !InInterval(Builder(Finite(5.0), false, Finite(5.0), true), 5.0)
  {
  }

  /** The builder state: the closed checkers, the interval being built, and the kind of the
      previous operation. */
  datatype Conditional = Conditional(checkers: seq<Builder>, builder: Builder, previous: Option<OperationType>)

  function New(): (c: Conditional)
    ensures c.checkers == [] && c.builder == FreshBuilder() && c.previous == None
  {
    Conditional([], FreshBuilder(), None)
  }

  /** `handleBuildState`'s test: the same kind as last time, or a new bound on the wrong side
      of the opposite bound (so that it could not close the current interval). */
  predicate ClosesCurrent(c: Conditional, op: Operation) {
    var b := c.builder;
    var v := Finite(op.value);
    || c.previous == Some(op.Kind())
    || (op.Kind() == Less && ((BoundLess(v, b.lower) && op.Inclusive()) || (BoundLessEq(v, b.lower) && !op.Inclusive())))
    || (op.Kind() == Greater && ((BoundLess(b.upper, v) && op.Inclusive()) || (BoundLessEq(b.upper, v) && !op.Inclusive())))
  }

  /** `handleBuildState`: closes the current interval into the checkers when the test holds,
      and records the operation's kind. */
  function HandleBuildState(c: Conditional, op: Operation): (r: Conditional)
    ensures r.previous == Some(op.Kind())
    ensures ClosesCurrent(c, op) ==> r.checkers == c.checkers + [c.builder] && r.builder == FreshBuilder()
    ensures !ClosesCurrent(c, op) ==> r.checkers == c.checkers && r.builder == c.builder
  {
    if ClosesCurrent(c, op) then Conditional(c.checkers + [c.builder], FreshBuilder(), Some(op.Kind()))
    else c.(previous := Some(op.Kind()))
  }

  /** One chained call: `handleBuildState`, then the builder operation. */
  function Apply(c: Conditional, op: Operation): (r: Conditional)
    ensures r.previous == Some(op.Kind())
    ensures r.checkers == c.checkers || r.checkers == c.checkers + [c.builder]
    ensures r.builder == BuilderApply(if ClosesCurrent(c, op) then FreshBuilder() else c.builder, op)
  {
    var h := HandleBuildState(c, op);
    h.(builder := BuilderApply(h.builder, op))
  }

  /** A chain of calls, left to right. */
  function Chain(c: Conditional, ops: seq<Operation>): (r: Conditional)
    ensures |c.checkers| <= |r.checkers| <= |c.checkers| + |ops|
    ensures r.checkers[..|c.checkers|] == c.checkers
    ensures ops != [] ==> r.previous == Some(ops[|ops| - 1].Kind())
    ensures ops != [] ==> r.builder.lower.Finite? || r.builder.upper.Finite?
    ensures ops == [] ==> r == c
    decreases |ops|
  {
    if ops == [] then c
    else
      var next := Apply(c, ops[0]);
      var r := Chain(next, ops[1..]);
      assert r.checkers[..|c.checkers|] == r.checkers[..|next.checkers|][..|c.checkers|];
      r
  }

  /** `bind()`: the checkers, plus the current interval if it has any bound set. */
  function Bind(c: Conditional): (checkers: seq<Builder>)
    ensures c.builder.lower != NegInf || c.builder.upper != PosInf ==> checkers == c.checkers + [c.builder]
    ensures c.builder.lower == NegInf && c.builder.upper == PosInf ==> checkers == c.checkers
  {
    if c.builder.lower != NegInf || c.builder.upper != PosInf then c.checkers + [c.builder] else c.checkers
  }

  /** `bind()`'s effect on the Conditional itself: the checker it adds stays in the
      Conditional's own list, and neither the builder nor the previous kind is reset, so a
      Conditional chained and bound again re-binds every interval bound before. */
  function BindInPlace(c: Conditional): (r: Conditional)
    ensures r.checkers == Bind(c) && r.builder == c.builder && r.previous == c.previous
    ensures |c.checkers| <= |r.checkers| <= |c.checkers| + 1 && r.checkers[..|c.checkers|] == c.checkers
  {
    c.(checkers := Bind(c))
  }

  /** What the bound supplier means: some checker accepts the value. */
  predicate AnyAccepts(checkers: seq<Builder>, x: real) {
    exists i | 0 <= i < |checkers| :: Accepts(checkers[i], x)
  }

  /** The bound supplier's body: OR over every checker, in a loop. */
  method Evaluate(checkers: seq<Builder>, x: real) returns (result: bool)
    ensures result <==> AnyAccepts(checkers, x)
  {
    result := false;
    var i := 0;
    while i < |checkers|
      invariant 0 <= i <= |checkers|
      invariant result <==> exists j | 0 <= j < i :: Accepts(checkers[j], x)
    {
      result := result || Accepts(checkers[i], x);
      i := i + 1;
    }
  }

  /** Binding before any call gives a supplier that is always false. */
  lemma EmptyBindIsAlwaysFalse(x: real)
    ensures Bind(New()) == []
    ensures !AnyAccepts(Bind(New()), x)
  {
  }

  /** Re-using a Conditional after `bind()`: whatever the first supplier accepted, the supplier
      bound after any further chain accepts too, because the earlier checkers are kept. */
  lemma ReboundKeepsEarlierIntervals(c: Conditional, ops: seq<Operation>, x: real)
    requires AnyAccepts(Bind(c), x)
    ensures AnyAccepts(Bind(Chain(BindInPlace(c), ops)), x)
  {
    var first := Bind(c);
    var i :| 0 <= i < |first| && Accepts(first[i], x);
    var later := Chain(BindInPlace(c), ops);
    assert later.checkers[..|first|] == first;
    assert Bind(later)[i] == later.checkers[i] == first[i];
  }

  /** `greaterThan(5).bind()`, then `lessThan(10).bind()` on the same Conditional: the second
      supplier holds (5, +inf] and (5, 10), so it accepts 20, while binding the same chain
      without the first `bind()` gives (5, 10) alone. */
  lemma ReusedConditionalRebinds()
    ensures var once := BindInPlace(Chain(New(), [GreaterThan(5.0)]));
            var checkers := Bind(Chain(once, [LessThan(10.0)]));
            checkers == [Builder(Finite(5.0), false, PosInf, true), Builder(Finite(5.0), false, Finite(10.0), false)]
            && AnyAccepts(checkers, 20.0)
    ensures Bind(Chain(Chain(New(), [GreaterThan(5.0)]), [LessThan(10.0)])) == [Builder(Finite(5.0), false, Finite(10.0), false)]
    ensures !AnyAccepts(Bind(Chain(Chain(New(), [GreaterThan(5.0)]), [LessThan(10.0)])), 20.0)
  {
    var c1 := Apply(New(), GreaterThan(5.0));
    assert [GreaterThan(5.0)][1..] == [];
    assert Chain(New(), [GreaterThan(5.0)]) == Chain(c1, []) == c1;
    var once := BindInPlace(c1);
    var c2 := Apply(once, LessThan(10.0));
    assert [LessThan(10.0)][1..] == [];
    assert Chain(once, [LessThan(10.0)]) == Chain(c2, []) == c2;
    var d2 := Apply(c1, LessThan(10.0));
    assert Chain(c1, [LessThan(10.0)]) == Chain(d2, []) == d2;
    var checkers := Bind(c2);
    assert Accepts(checkers[0], 20.0);
  }

  /** `greaterThan(a).lessThan(b)` with a < b binds exactly the open interval (a, b). */
  lemma OpenInterval(a: real, b: real, x: real)
    requires a < b
    ensures var checkers := Bind(Chain(New(), [GreaterThan(a), LessThan(b)]));
            checkers == [Builder(Finite(a), false, Finite(b), false)]
            && (AnyAccepts(checkers, x) <==> a < x < b)
  {
    var ops := [GreaterThan(a), LessThan(b)];
    var c1 := Apply(New(), ops[0]);
    var c2 := Apply(c1, ops[1]);
    assert ops[1..] == [ops[1]];
    assert [ops[1]][1..] == [];
    assert Chain(New(), ops) == Chain(c1, [ops[1]]) == Chain(c2, []) == c2;
    var checkers := Bind(c2);
    if a < x < b {
      assert Accepts(checkers[0], x);
    }
  }

  /** The same kind twice in a row closes the current interval and starts from a fresh
      builder: `lessThan(5).lessThan(3)` means `x < 5 || x < 3`. */
  lemma SameKindTwiceCloses(c: Conditional, first: Operation, second: Operation)
    requires first.Kind() == second.Kind()
    ensures var once := Apply(c, first);
            var twice := Apply(once, second);
            twice.checkers == once.checkers + [once.builder]
            && twice.builder == BuilderApply(FreshBuilder(), second)
  {
  }

  /** `greaterThanEqualTo(-100).lessThan(-10).greaterThan(200)` binds [-100, -10) and (200, +inf). */
  lemma ExampleChain(x: real)
    ensures var checkers := Bind(Chain(New(), [GreaterThanEqualTo(-100.0), LessThan(-10.0), GreaterThan(200.0)]));
            checkers == [Builder(Finite(-100.0), true, Finite(-10.0), false), Builder(Finite(200.0), false, PosInf, true)]
            && (AnyAccepts(checkers, x) <==> (-100.0 <= x < -10.0 || 200.0 < x))
  {
    ExampleChainCheckers();
    var a := Builder(Finite(-100.0), true, Finite(-10.0), false);
    var b := Builder(Finite(200.0), false, PosInf, true);
    AnyOfTwo(a, b, x);
    assert Accepts(a, x) <==> -100.0 <= x < -10.0;
    assert Accepts(b, x) <==> 200.0 < x;
  }

  lemma AnyOfTwo(a: Builder, b: Builder, x: real)
    ensures AnyAccepts([a, b], x) <==> Accepts(a, x) || Accepts(b, x)
  {
    if Accepts(a, x) {
      assert [a, b][0] == a;
    } else if Accepts(b, x) {
      assert [a, b][1] == b;
    }
  }

  /** The intervals the example chain binds. */
  lemma ExampleChainCheckers()
    ensures Bind(Chain(New(), [GreaterThanEqualTo(-100.0), LessThan(-10.0), GreaterThan(200.0)])) ==
            [Builder(Finite(-100.0), true, Finite(-10.0), false), Builder(Finite(200.0), false, PosInf, true)]
  {
    var ops := [GreaterThanEqualTo(-100.0), LessThan(-10.0), GreaterThan(200.0)];
    var c1 := Apply(New(), ops[0]);
    var c2 := Apply(c1, ops[1]);
    var c3 := Apply(c2, ops[2]);
    assert ops[1..] == [ops[1], ops[2]];
    assert ops[1..][1..] == [ops[2]];
    assert [ops[2]][1..] == [];
    assert Chain(New(), ops) == Chain(c1, ops[1..]) == Chain(c2, [ops[2]]) == Chain(c3, []) == c3;
  }

  /** After any non-empty chain the current interval has a finite bound, so `bind()` always
      adds it after the closed ones. */
  lemma NonEmptyChainBindsBuilder(ops: seq<Operation>)
    requires ops != []
    ensures var c := Chain(New(), ops);
            Bind(c) == c.checkers + [c.builder] && 1 <= |Bind(c)| <= |ops|
  {
  }
}

=== FILE: data_line.dfy ===
/** DataLine: a labelled line of telemetry. The contents supplier's current string is a
    parameter of the formatting operations. */
module DataLine {

  import opened Numeric

  /** `labelText` is the source's `label` (a reserved word here). */
  datatype DataLine = DataLine(labelText: string)

  /** `labelWidth`: the label's length. */
  function LabelWidth(line: DataLine): (w: nat)
    ensures w == |line.labelText|
  {
    |line.labelText|
  }

  function Spaces(n: nat): (s: string)
    ensures |s| == n && forall i | 0 <= i < n :: s[i] == ' '
  {
    seq(n, _ => ' ')
  }

  /** What `groupToOutput(w)` builds: the label, padded with spaces up to column w when it is
      shorter, then `" | "` and the contents. */
  function Grouped(line: DataLine, labelWidth: int, contents: string): (out: string)
    ensures var column := MaxInt(labelWidth, |line.labelText|);
            && |out| == column + 3 + |contents|
            && out[..|line.labelText|] == line.labelText
            && (forall i | |line.labelText| <= i < column :: out[i] == ' ')
            && out[column..] == " | " + contents
  {
    var column := MaxInt(labelWidth, |line.labelText|);
    var out := line.labelText + Spaces(column - |line.labelText|) + " | " + contents;
    assert out[column..] == " | " + contents;
    out
  }

  /** `groupToOutput(w)`: one space appended for each column from the label's length up to w. */
  method GroupToOutput(line: DataLine, labelWidth: int, contents: string) returns (out: string)
    ensures out == Grouped(line, labelWidth, contents)
  {
    out := line.labelText;
    var len := |line.labelText|;
    while len < labelWidth
      invariant |line.labelText| <= len <= MaxInt(labelWidth, |line.labelText|)
      invariant out == line.labelText + Spaces(len - |line.labelText|)
    {
      out := out + " ";
      len := len + 1;
      assert Spaces(len - |line.labelText|) == Spaces(len - 1 - |line.labelText|) + " ";
    }
    out := out + " | " + contents;
  }

  /** `toString()`: `label: contents`, or just the contents when the label is empty. */
  function ToString(line: DataLine, contents: string): (s: string)
    ensures line.labelText == "" ==> s == contents
    ensures line.labelText != "" ==> |s| == |line.labelText| + 2 + |contents|
    ensures line.labelText != "" ==> s[..|line.labelText|] == line.labelText && s[|line.labelText|..] == ": " + contents
  {
    if line.labelText != "" then line.labelText + ": " + contents else contents
  }

  /** A width at or below the label's length adds no padding. */
  lemma NoPaddingWhenNarrow(line: DataLine, w: int, contents: string)
    requires w <= |line.labelText|
    ensures Grouped(line, w, contents) == line.labelText + " | " + contents
  {
    var out := Grouped(line, w, contents);
    assert out == out[..|line.labelText|] + out[|line.labelText|..];
  }

  /** Lines grouped to a width no label exceeds put their separators in the same column. */
  lemma SeparatorsAlign(a: DataLine, b: DataLine, w: int, ca: string, cb: string)
    requires |a.labelText| <= w && |b.labelText| <= w
    ensures Grouped(a, w, ca)[w..w + 3] == Grouped(b, w, cb)[w..w + 3] == " | "
  {
    var oa := Grouped(a, w, ca);
    var ob := Grouped(b, w, cb);
    assert oa[w..w + 3] == oa[w..][..3];
    assert ob[w..w + 3] == ob[w..][..3];
  }
}

=== FILE: data_line_array_list.dfy ===
/** DataLineArrayList: an array list of nullable data lines that keeps `labelWidth`, a column
    wide enough for the labels it has seen. `labelWidth` is only ever raised: `add` and `set`
    take the maximum with the new line's width, and the recomputation after `set`, `addAll` and
    `removeRange` starts from the current value rather than from 0. */
module DataLineArrayList {

  import opened Optional
  import opened Numeric
  import opened Jvm
  import opened DataLine

  datatype LineList = LineList(elements: seq<Option<DataLine>>, labelWidth: int)

  /** The list after an operation, and the operation's result or the exception it raised. An
      exception can leave the list changed (see `AddAt`). */
  datatype After<T> = After(list: LineList, outcome: Outcome<T>)

  /** Every non-null line fits in the column. */
  predicate Covers(l: LineList) {
    forall i | 0 <= i < |l.elements| :: l.elements[i].Some? ==> LabelWidth(l.elements[i].value) <= l.labelWidth
  }

  /** The no-argument constructor. */
  function Empty(): (l: LineList)
    ensures l.elements == [] && l.labelWidth == 0 && Covers(l)
  {
    LineList([], 0)
  }

  /** The capacity constructor; a negative capacity raises. */
  function WithCapacity(initialCapacity: int): (r: Outcome<LineList>)
    ensures initialCapacity < 0 <==> r == Raised(IllegalArgument)
    ensures r.Done? ==> r.value == Empty()
  {
    if initialCapacity < 0 then Raised(IllegalArgument) else Done(Empty())
  }

  /** The collection constructor: the elements are copied, but `labelWidth` stays 0. */
  function FromCollection(c: seq<Option<DataLine>>): (l: LineList)
    ensures l.elements == c && l.labelWidth == 0
  {
    LineList(c, 0)
  }

  /** `findLabelWidth`: the current width raised to every non-null line's width, in order. */
  function FindLabelWidth(elements: seq<Option<DataLine>>, current: int): (w: int)
    ensures w >= current
    ensures forall i | 0 <= i < |elements| :: elements[i].Some? ==> LabelWidth(elements[i].value) <= w
    ensures w == current || exists i | 0 <= i < |elements| :: elements[i].Some? && w == LabelWidth(elements[i].value)
    decreases |elements|
  {
    if elements == [] then current
    else
      var next := if elements[0].Some? then MaxInt(LabelWidth(elements[0].value), current) else current;
      var w := FindLabelWidth(elements[1..], next);
      assert forall i | 1 <= i < |elements| :: elements[i] == elements[1..][i - 1];
      w
  }

  /** `safeAdd`: the width raised to a non-null incoming line's width. */
  function SafeAdd(width: int, incoming: Option<DataLine>): (w: int)
    ensures w >= width
    ensures incoming.Some? ==> w >= LabelWidth(incoming.value) && (w == width || w == LabelWidth(incoming.value))
    ensures incoming.None? ==> w == width
  {
    if incoming.Some? then MaxInt(LabelWidth(incoming.value), width) else width
  }

  /** `safeRemove`: when the outgoing line was as wide as the column, recompute over the list. */
  function SafeRemove(elements: seq<Option<DataLine>>, width: int, outgoing: Option<DataLine>): (w: int)
    ensures w >= width
    ensures outgoing.Some? && LabelWidth(outgoing.value) == width ==> w == FindLabelWidth(elements, width)
    ensures !(outgoing.Some? && LabelWidth(outgoing.value) == width) ==> w == width
  {
    if outgoing.Some? && LabelWidth(outgoing.value) == width then FindLabelWidth(elements, width) else width
  }

  /** `set(index, element)`: a bad index raises before anything changes; otherwise the slot is
      replaced, the width kept wide enough for the new line, and the old line returned. */
  function Set(l: LineList, index: int, element: Option<DataLine>): (r: After<Option<DataLine>>)
    ensures !(0 <= index < |l.elements|) <==> r == After(l, Raised(IndexOutOfBounds))
    ensures 0 <= index < |l.elements| ==>
              r.outcome == Done(l.elements[index]) && r.list.elements == l.elements[index := element]
    ensures r.list.labelWidth >= l.labelWidth
    ensures r.outcome.Done? && element.Some? ==> r.list.labelWidth >= LabelWidth(element.value)
    ensures Covers(l) ==> Covers(r.list)
  {
    if !(0 <= index < |l.elements|) then After(l, Raised(IndexOutOfBounds))
    else
      var outgoing := l.elements[index];
      var elements := l.elements[index := element];
      var width := SafeAdd(SafeRemove(elements, l.labelWidth, outgoing), element);
      After(LineList(elements, width), Done(outgoing))
  }

  /** `add(element)`: appended, with the width raised for it. */
  function Add(l: LineList, element: Option<DataLine>): (r: After<bool>)
    ensures r.outcome == Done(true) && r.list.elements == l.elements + [element]
    ensures r.list.labelWidth == SafeAdd(l.labelWidth, element)
    ensures Covers(l) ==> Covers(r.list)
  {
    After(LineList(l.elements + [element], SafeAdd(l.labelWidth, element)), Done(true))
  }

  /** `add(index, element)`: the width is raised first, so a bad index raises after the width
      has already taken the new line into account. */
  function AddAt(l: LineList, index: int, element: Option<DataLine>): (r: After<()>)
    ensures r.list.labelWidth == SafeAdd(l.labelWidth, element)
    ensures !(0 <= index <= |l.elements|) ==> r.outcome == Raised(IndexOutOfBounds) && r.list.elements == l.elements
    ensures 0 <= index <= |l.elements| ==>
              r.outcome.Done? && r.list.elements == l.elements[..index] + [element] + l.elements[index..]
    ensures Covers(l) ==> Covers(r.list)
  {
    var width := SafeAdd(l.labelWidth, element);
    if !(0 <= index <= |l.elements|) then After(LineList(l.elements, width), Raised(IndexOutOfBounds))
    else
      var elements := l.elements[..index] + [element] + l.elements[index..];
      assert forall i | 0 <= i < |elements| :: elements[i] == element || elements[i] in l.elements;
      After(LineList(elements, width), Done(()))
  }

  /** `addAll(elements)`: appended, then the width recomputed; true when anything was added. */
  function AddAll(l: LineList, xs: seq<Option<DataLine>>): (r: After<bool>)
    ensures r.outcome == Done(|xs| > 0) && r.list.elements == l.elements + xs
    ensures r.list.labelWidth >= l.labelWidth && Covers(r.list)
  {
    var elements := l.elements + xs;
    After(LineList(elements, FindLabelWidth(elements, l.labelWidth)), Done(|xs| > 0))
  }

  /** `addAll(index, elements)`: a bad index raises before anything changes. */
  function AddAllAt(l: LineList, index: int, xs: seq<Option<DataLine>>): (r: After<bool>)
    ensures !(0 <= index <= |l.elements|) <==> r == After(l, Raised(IndexOutOfBounds))
    ensures 0 <= index <= |l.elements| ==>
              r.outcome == Done(|xs| > 0) && r.list.elements == l.elements[..index] + xs + l.elements[index..]
              && Covers(r.list)
    ensures r.list.labelWidth >= l.labelWidth
  {
    if !(0 <= index <= |l.elements|) then After(l, Raised(IndexOutOfBounds))
    else
      var elements := l.elements[..index] + xs + l.elements[index..];
      After(LineList(elements, FindLabelWidth(elements, l.labelWidth)), Done(|xs| > 0))
  }

  /** `removeRange(from, to)`: the lines in [from, to) removed, then the width recomputed; a
      range outside the list raises before anything changes. */
  function RemoveRange(l: LineList, from: int, to: int): (r: After<()>)
    ensures !(0 <= from <= to <= |l.elements|) <==> r == After(l, Raised(IndexOutOfBounds))
    ensures 0 <= from <= to <= |l.elements| ==>
              r.outcome.Done? && r.list.elements == l.elements[..from] + l.elements[to..] && Covers(r.list)
    ensures r.list.labelWidth >= l.labelWidth
  {
    if !(0 <= from <= to <= |l.elements|) then After(l, Raised(IndexOutOfBounds))
    else
      var elements := l.elements[..from] + l.elements[to..];
      After(LineList(elements, FindLabelWidth(elements, l.labelWidth)), Done(()))
  }

  /** A call on the list. */
  datatype Op =
    | SetOp(index: int, element: Option<DataLine>)
    | AddOp(element: Option<DataLine>)
    | AddAtOp(index: int, element: Option<DataLine>)
    | AddAllOp(xs: seq<Option<DataLine>>)
    | AddAllAtOp(index: int, xs: seq<Option<DataLine>>)
    | RemoveRangeOp(from: int, to: int)

  /** One call; an exception ends nothing here, the list is simply what the call left. */
  function Perform(l: LineList, op: Op): (r: LineList)
    ensures r.labelWidth >= l.labelWidth
    ensures Covers(l) ==> Covers(r)
  {
    match op
    case SetOp(i, e) => Set(l, i, e).list
    case AddOp(e) => Add(l, e).list
    case AddAtOp(i, e) => AddAt(l, i, e).list
    case AddAllOp(xs) => AddAll(l, xs).list
    case AddAllAtOp(i, xs) => AddAllAt(l, i, xs).list
    case RemoveRangeOp(f, t) => RemoveRange(l, f, t).list
  }

  function Run(l: LineList, ops: seq<Op>): LineList
    decreases |ops|
  {
    if ops == [] then l else Run(Perform(l, ops[0]), ops[1..])
  }

  /** Over any series of calls the width never decreases, and a list that starts covered (every
      list built without a collection) stays covered. */
  lemma {:induction false} RunsKeepTheColumn(l: LineList, ops: seq<Op>)
    ensures Run(l, ops).labelWidth >= l.labelWidth
    ensures Covers(l) ==> Covers(Run(l, ops))
    decreases |ops|
  {
    if ops != [] {
      RunsKeepTheColumn(Perform(l, ops[0]), ops[1..]);
    }
  }

  lemma DefaultListsStayCovered(initialCapacity: int, ops: seq<Op>)
    ensures Covers(Run(Empty(), ops))
    ensures WithCapacity(initialCapacity).Done? ==> Covers(Run(WithCapacity(initialCapacity).value, ops))
  {
    RunsKeepTheColumn(Empty(), ops);
  }

  /** The collection constructor does not look at its lines: built from one wide line, the list
      reports width 0 and is not covered. */
  lemma CollectionConstructorLeavesZero()
    ensures var l := FromCollection([Some(DataLine("speed"))]);
            l.labelWidth == 0 && !Covers(l)
  {
    var l := FromCollection([Some(DataLine("speed"))]);
    assert LabelWidth(l.elements[0].value) == 5;
  }

  /** Replacing the widest line by a narrower one keeps the old width: the recomputation takes
      the maximum with the current value, so it can only raise it. */
  lemma ReplacingTheWidestKeepsTheWidth()
    ensures var l := Add(Add(Empty(), Some(DataLine("abcdef"))).list, Some(DataLine("ab"))).list;
            l.labelWidth == 6 && Set(l, 0, Some(DataLine("x"))).list.labelWidth == 6
  {
  }

  /** `add(index, element)` with a bad index raises, but the width has already grown. */
  lemma BadInsertStillWidens()
    ensures var r := AddAt(Empty(), 5, Some(DataLine("abc")));
            r.outcome == Raised(IndexOutOfBounds) && r.list.elements == [] && r.list.labelWidth == 3
  {
  }
}

=== FILE: enhanced_boolean_supplier.dfy ===
/** EnhancedBooleanSupplier: debounced edge detection and toggling over a boolean input. The
    input's current value and the clock (`System.nanoTime`) are parameters of `Update`; the
    debounce times are in nanoseconds, as Kotlin `Long`s. */
module EnhancedBooleanSupplier {

  import opened Numeric

  datatype BooleanSupplier = BooleanSupplier(
    previous: bool,
    current: bool,
    toggleTrue: bool,
    toggleFalse: bool,
    timeMarker: Int64,
    risingDebounce: Int64,
    fallingDebounce: Int64)
  {
    /** `get()`: the debounced value. */
    function Get(): bool { current }

    /** `whenTrue`: a rising edge was the last accepted edge (or the state started that way). */
    predicate WhenTrue() { current && !previous }

    /** `whenFalse`: a falling edge was the last accepted edge. */
    predicate WhenFalse() { !current && previous }
  }

  /** A new supplier: every flag starts at the input's first reading, the time marker at 0. */
  function New(initial: bool, risingDebounce: Int64, fallingDebounce: Int64): (s: BooleanSupplier)
    ensures s.previous == initial && s.current == initial && s.toggleTrue == initial && s.toggleFalse == initial
    ensures s.timeMarker == 0 && s.risingDebounce == risingDebounce && s.fallingDebounce == fallingDebounce
    ensures !s.WhenTrue() && !s.WhenFalse()
  {
    BooleanSupplier(initial, initial, initial, initial, 0, risingDebounce, fallingDebounce)
  }

  /** `time - timeMarker` on `Long`s, which wraps. */
  function Elapsed(s: BooleanSupplier, time: Int64): Int64 {
    WrapInt64(time - s.timeMarker)
  }

  /** The rising edge `update` accepts: low, the input high, and the rising debounce passed. */
  predicate RisingAccepted(s: BooleanSupplier, input: bool, time: Int64) {
    !s.current && input && Elapsed(s, time) > s.risingDebounce
  }

  /** The falling edge `update` accepts: high, the input low, and the falling debounce passed. */
  predicate FallingAccepted(s: BooleanSupplier, input: bool, time: Int64) {
    s.current && !input && Elapsed(s, time) > s.fallingDebounce
  }

  /** `update()`: an accepted rising edge sets current, clears previous, marks the time and
      flips `toggleTrue`; an accepted falling edge does the mirror image and flips
      `toggleFalse`; otherwise nothing changes. */
  function Update(s: BooleanSupplier, input: bool, time: Int64): (r: BooleanSupplier)
    ensures r.risingDebounce == s.risingDebounce && r.fallingDebounce == s.fallingDebounce
    ensures RisingAccepted(s, input, time) ==>
              r == s.(previous := false, current := true, timeMarker := time, toggleTrue := !s.toggleTrue)
    ensures FallingAccepted(s, input, time) ==>
              r == s.(previous := true, current := false, timeMarker := time, toggleFalse := !s.toggleFalse)
    ensures !RisingAccepted(s, input, time) && !FallingAccepted(s, input, time) ==> r == s
    ensures r.current != s.current <==> RisingAccepted(s, input, time) || FallingAccepted(s, input, time)
  {
    if RisingAccepted(s, input, time) then
      BooleanSupplier(false, true, !s.toggleTrue, s.toggleFalse, time, s.risingDebounce, s.fallingDebounce)
    else if FallingAccepted(s, input, time) then
      BooleanSupplier(true, false, s.toggleTrue, !s.toggleFalse, time, s.risingDebounce, s.fallingDebounce)
    else s
  }

  /** The seconds-to-nanoseconds conversion of the debounce constructors (`(x * 1E9).toLong()`). */
  function Nanoseconds(seconds: real): (n: Int64)
    ensures 0.0 <= seconds * 1000000000.0 <= Int64Max as real ==> 0 <= n && n as real <= seconds * 1000000000.0 < n as real + 1.0
  {
    ToInt64(seconds * 1000000000.0)
  }

  /** `debounce(d)`: a new supplier, reading the input afresh, with both debounces d seconds. */
  function Debounce(s: BooleanSupplier, seconds: real, initial: bool): (r: BooleanSupplier)
    ensures r == New(initial, Nanoseconds(seconds), Nanoseconds(seconds))
  {
    New(initial, Nanoseconds(seconds), Nanoseconds(seconds))
  }

  /** `debounce(rising, falling)`. */
  function DebounceEach(s: BooleanSupplier, rising: real, falling: real, initial: bool): (r: BooleanSupplier)
    ensures r == New(initial, Nanoseconds(rising), Nanoseconds(falling))
  {
    New(initial, Nanoseconds(rising), Nanoseconds(falling))
  }

  /** `debounceRisingEdge(d)`: the falling debounce is the receiver's. */
  function DebounceRisingEdge(s: BooleanSupplier, seconds: real, initial: bool): (r: BooleanSupplier)
    ensures r == New(initial, Nanoseconds(seconds), s.fallingDebounce)
  {
    New(initial, Nanoseconds(seconds), s.fallingDebounce)
  }

  /** `debounceFallingEdge(d)`: the rising debounce is the receiver's. */
  function DebounceFallingEdge(s: BooleanSupplier, seconds: real, initial: bool): (r: BooleanSupplier)
    ensures r == New(initial, s.risingDebounce, Nanoseconds(seconds))
  {
    New(initial, s.risingDebounce, Nanoseconds(seconds))
  }

  /** One and a half seconds of debounce is 1.5e9 nanoseconds. */
  lemma DebounceInNanoseconds(s: BooleanSupplier, initial: bool)
    ensures Debounce(s, 1.5, initial).risingDebounce == 1500000000
    ensures DebounceRisingEdge(s, 0.25, initial).fallingDebounce == s.fallingDebounce
    ensures DebounceFallingEdge(s, 0.25, initial).risingDebounce == s.risingDebounce
  {
    assert Nanoseconds(1.5) == 1500000000 by {
      assert 1.5 * 1000000000.0 == 1500000000.0;
    }
  }

  /** An input equal to the debounced value changes nothing. */
  lemma SteadyInputChangesNothing(s: BooleanSupplier, time: Int64)
    ensures Update(s, s.current, time) == s
  {
  }

  /** `whenTrue` and `whenFalse` are never both true. */
  lemma EdgesExclusive(s: BooleanSupplier)
    ensures !(s.WhenTrue() && s.WhenFalse())
  {
  }

  /** A sample of the input: its value and the clock reading at the update. */
  datatype Sample = Sample(input: bool, time: Int64)

  /** A series of updates, in order. */
  function Run(s: BooleanSupplier, samples: seq<Sample>): (r: BooleanSupplier)
    ensures r.risingDebounce == s.risingDebounce && r.fallingDebounce == s.fallingDebounce
    decreases |samples|
  {
    if samples == [] then s else Run(Update(s, samples[0].input, samples[0].time), samples[1..])
  }

  /** The number of rising and falling edges accepted over a series of updates. */
  function RisingEdges(s: BooleanSupplier, samples: seq<Sample>): nat
    decreases |samples|
  {
    if samples == [] then 0
    else
      (if RisingAccepted(s, samples[0].input, samples[0].time) then 1 else 0)
      + RisingEdges(Update(s, samples[0].input, samples[0].time), samples[1..])
  }

  function FallingEdges(s: BooleanSupplier, samples: seq<Sample>): nat
    decreases |samples|
  {
    if samples == [] then 0
    else
      (if FallingAccepted(s, samples[0].input, samples[0].time) then 1 else 0)
      + FallingEdges(Update(s, samples[0].input, samples[0].time), samples[1..])
  }

  predicate Odd(n: nat) { n % 2 == 1 }

  /** Toggle parity: `toggleTrue` has flipped once per accepted rising edge and `toggleFalse`
      once per accepted falling edge; the edges alternate, so the debounced value is the start
      value flipped once per edge. */
  lemma TogglesCountEdges(s: BooleanSupplier, samples: seq<Sample>)
    ensures var r := Run(s, samples);
            && (r.toggleTrue <==> (s.toggleTrue != Odd(RisingEdges(s, samples))))
            && (r.toggleFalse <==> (s.toggleFalse != Odd(FallingEdges(s, samples))))
            && (r.current <==> (s.current != Odd(RisingEdges(s, samples) + FallingEdges(s, samples))))
            && (s.current ==> FallingEdges(s, samples) - 1 <= RisingEdges(s, samples) <= FallingEdges(s, samples))
            && (!s.current ==> RisingEdges(s, samples) - 1 <= FallingEdges(s, samples) <= RisingEdges(s, samples))
  {
    ToggleTrueCountsRisingEdges(s, samples);
    ToggleFalseCountsFallingEdges(s, samples);
    EdgesAlternate(s, samples);
  }

  lemma {:induction false} ToggleTrueCountsRisingEdges(s: BooleanSupplier, samples: seq<Sample>)
    ensures Run(s, samples).toggleTrue <==> (s.toggleTrue != Odd(RisingEdges(s, samples)))
    decreases |samples|
  {
    if samples != [] {
      ToggleTrueCountsRisingEdges(Update(s, samples[0].input, samples[0].time), samples[1..]);
    }
  }

  lemma {:induction false} ToggleFalseCountsFallingEdges(s: BooleanSupplier, samples: seq<Sample>)
    ensures Run(s, samples).toggleFalse <==> (s.toggleFalse != Odd(FallingEdges(s, samples)))
    decreases |samples|
  {
    if samples != [] {
      ToggleFalseCountsFallingEdges(Update(s, samples[0].input, samples[0].time), samples[1..]);
    }
  }

  /** Accepted edges alternate, starting with the one away from the start value. */
  lemma {:induction false} EdgesAlternate(s: BooleanSupplier, samples: seq<Sample>)
    ensures Run(s, samples).current <==> (s.current != Odd(RisingEdges(s, samples) + FallingEdges(s, samples)))
    ensures s.current ==> FallingEdges(s, samples) - 1 <= RisingEdges(s, samples) <= FallingEdges(s, samples)
    ensures !s.current ==> RisingEdges(s, samples) - 1 <= FallingEdges(s, samples) <= RisingEdges(s, samples)
    decreases |samples|
  {
    if samples != [] {
      EdgesAlternate(Update(s, samples[0].input, samples[0].time), samples[1..]);
    }
  }

  /** Updates that accept no falling edge never end a `whenTrue`: only an accepted edge writes
      `previous`. */
  predicate NoFallingEdge(s: BooleanSupplier, samples: seq<Sample>)
    decreases |samples|
  {
    samples == [] ||
    (!FallingAccepted(s, samples[0].input, samples[0].time)
     && NoFallingEdge(Update(s, samples[0].input, samples[0].time), samples[1..]))
  }

  lemma {:induction false} WhenTrueLastsUntilFallingEdge(s: BooleanSupplier, samples: seq<Sample>)
    requires s.WhenTrue() && NoFallingEdge(s, samples)
    ensures Run(s, samples).WhenTrue()
    ensures Run(s, samples) == s
    decreases |samples|
  {
    if samples != [] {
      var next := Update(s, samples[0].input, samples[0].time);
      assert next == s;
      WhenTrueLastsUntilFallingEdge(next, samples[1..]);
    }
  }

  /** A press held for longer than the rising debounce from a fresh, released supplier at time
      0 is accepted once; the release inside the falling debounce is not. */
  lemma PressAndBounce()
    ensures var s := New(false, 100, 100);
            var pressed := Update(s, true, 150);
            pressed.WhenTrue() && pressed.toggleTrue && pressed.timeMarker == 150
            && Update(pressed, false, 200) == pressed
            && Update(pressed, false, 300).WhenFalse()
  {
  }
}

=== FILE: enhanced_number_supplier.dfy ===
/** EnhancedNumberSupplier: a number supplier with a modifier and a deadzone on each side of 0.
    The wrapped supplier's current reading is a parameter of `Get`; the modifier is kept as a
    function on reals (the reading after `toDouble`). */
module EnhancedNumberSupplier {

  datatype NumberSupplier = NumberSupplier(modifier: real -> real, lowerDeadzone: real, upperDeadzone: real) {
    /** The deadzones straddle 0, as every `apply*` constructor leaves them. */
    predicate Valid() { lowerDeadzone <= 0.0 <= upperDeadzone }
  }

  /** The constructor with the default modifier and deadzones (0, 0). */
  function New(): (s: NumberSupplier)
    ensures s.lowerDeadzone == 0.0 && s.upperDeadzone == 0.0 && s.Valid()
    ensures forall x :: s.modifier(x) == x
  {
    NumberSupplier(x => x, 0.0, 0.0)
  }

  /** The constructor with a modifier and the default deadzones. */
  function WithModifier(modifier: real -> real): (s: NumberSupplier)
    ensures s.modifier == modifier && s.lowerDeadzone == 0.0 && s.upperDeadzone == 0.0
  {
    NumberSupplier(modifier, 0.0, 0.0)
  }

  /** `get`: the modified reading, or 0 when it is a negative value at or above the lower
      deadzone or a positive value at or below the upper one. */
  function Get(s: NumberSupplier, reading: real): (r: real)
    ensures r == 0.0 || r == s.modifier(reading)
    ensures s.Valid() ==> (r == 0.0 <==> s.lowerDeadzone <= s.modifier(reading) <= s.upperDeadzone)
    ensures s.Valid() && (s.modifier(reading) < s.lowerDeadzone || s.upperDeadzone < s.modifier(reading)) ==> r == s.modifier(reading)
  {
    var result := s.modifier(reading);
    if result < 0.0 && result >= s.lowerDeadzone then 0.0
    else if result > 0.0 && result <= s.upperDeadzone then 0.0
    else result
  }

  /** `coerceAtLeast(0.0)` and `coerceAtMost(0.0)`. */
  function AtLeastZero(x: real): (r: real)
    ensures r >= 0.0 && (x >= 0.0 ==> r == x) && (x < 0.0 ==> r == 0.0)
  {
    if x < 0.0 then 0.0 else x
  }

  function AtMostZero(x: real): (r: real)
    ensures r <= 0.0 && (x <= 0.0 ==> r == x) && (x > 0.0 ==> r == 0.0)
  {
    if x > 0.0 then 0.0 else x
  }

  /** `applyDeadzone(d)`: a symmetric deadzone of max(d, 0) on both sides. */
  function ApplyDeadzone(s: NumberSupplier, deadzone: real): (r: NumberSupplier)
    ensures r.modifier == s.modifier && r.Valid()
    ensures r.upperDeadzone == AtLeastZero(deadzone) && r.lowerDeadzone == -r.upperDeadzone
  {
    NumberSupplier(s.modifier, -AtLeastZero(deadzone), AtLeastZero(deadzone))
  }

  /** `applyDeadzone(lower, upper)`: both sides, each forced onto its side of 0. */
  function ApplyDeadzones(s: NumberSupplier, lower: real, upper: real): (r: NumberSupplier)
    ensures r.modifier == s.modifier && r.Valid()
    ensures r.lowerDeadzone == AtMostZero(lower) && r.upperDeadzone == AtLeastZero(upper)
  {
    NumberSupplier(s.modifier, AtMostZero(lower), AtLeastZero(upper))
  }

  /** `applyLowerDeadzone`: a new lower deadzone; the upper one is kept. */
  function ApplyLowerDeadzone(s: NumberSupplier, lower: real): (r: NumberSupplier)
    ensures r.modifier == s.modifier && r.upperDeadzone == s.upperDeadzone
    ensures r.lowerDeadzone == AtMostZero(lower)
    ensures s.Valid() ==> r.Valid()
  {
    NumberSupplier(s.modifier, AtMostZero(lower), s.upperDeadzone)
  }

  /** `applyUpperDeadzone`: a new upper deadzone; the lower one is kept. */
  function ApplyUpperDeadzone(s: NumberSupplier, upper: real): (r: NumberSupplier)
    ensures r.modifier == s.modifier && r.lowerDeadzone == s.lowerDeadzone
    ensures r.upperDeadzone == AtLeastZero(upper)
    ensures s.Valid() ==> r.Valid()
  {
    NumberSupplier(s.modifier, s.lowerDeadzone, AtLeastZero(upper))
  }

  /** With the default deadzones `get` is the modified reading, unchanged. */
  lemma DefaultDeadzonesAreIdentity(modifier: real -> real, reading: real)
    ensures Get(WithModifier(modifier), reading) == modifier(reading)
    ensures Get(New(), reading) == reading
  {
  }

  /** A symmetric deadzone d >= 0 maps exactly the readings with |r| <= d to 0 and leaves the
      others unchanged; a negative d acts like 0. */
  lemma SymmetricDeadzone(s: NumberSupplier, d: real, reading: real)
    ensures var r := s.modifier(reading);
            var g := Get(ApplyDeadzone(s, d), reading);
            (d >= 0.0 ==> (g == 0.0 <==> -d <= r <= d))
            && (d >= 0.0 && (r < -d || d < r) ==> g == r)
            && (d < 0.0 ==> g == Get(ApplyDeadzone(s, 0.0), reading) == r)
  {
  }

  /** Each one-sided constructor touches only its own side: a reading on the other side of 0
      gets the same result before and after. */
  lemma OneSidedDeadzonesKeepTheOtherSide(s: NumberSupplier, lower: real, upper: real, reading: real)
    ensures s.modifier(reading) >= 0.0 ==> Get(ApplyLowerDeadzone(s, lower), reading) == Get(s, reading)
    ensures s.modifier(reading) <= 0.0 ==> Get(ApplyUpperDeadzone(s, upper), reading) == Get(s, reading)
  {
  }

  /** A lower deadzone given with the wrong sign is coerced to 0 and silences nothing below 0. */
  lemma WrongSignedDeadzonesAreIgnored(s: NumberSupplier, lower: real, upper: real, reading: real)
    requires lower > 0.0 && upper < 0.0
    ensures var r := s.modifier(reading);
            r != 0.0 ==> Get(ApplyDeadzones(s, lower, upper), reading) == r
  {
  }
}

=== FILE: hardware_device.dfy ===
/** The actuator handle that the caching wrappers decorate: an SDK device object
    (`HardwareDevice`, `DcMotorSimple`, `DcMotor`, `DcMotorEx`, `Servo`, `CRServo`).

    Its behaviour lives outside the library, so it is modelled abstractly: a reference
    identity, the values its getters report, and the log of every setter call it has
    received, in order. How the physical device reacts to a write is not modelled: the
    readings are whatever the handle reports. */
module HardwareDevice {

  import opened Numeric

  /** `DcMotorSimple.Direction` and `Servo.Direction`, both FORWARD / REVERSE. */
  datatype Direction = Forward | Reverse

  datatype RunMode = RunWithoutEncoder | RunUsingEncoder | RunToPosition | StopAndResetEncoder

  datatype ZeroPowerBehavior = Unknown | Brake | Float

  datatype AngleUnit = Degrees | Radians

  datatype CurrentUnit = Amps | Milliamps

  datatype MotorControlAlgorithm = LegacyPid | Pidf

  datatype PIDCoefficients = PIDCoefficients(p: real, i: real, d: real)

  datatype PIDFCoefficients = PIDFCoefficients(p: real, i: real, d: real, f: real, algorithm: MotorControlAlgorithm)

  /** An SDK object the library only passes along (a manufacturer, a controller, a motor
      configuration type), identified by reference. */
  datatype Ref = Ref(id: nat)

  /** A reading that depends on a unit argument. */
  datatype PerAngleUnit = PerAngleUnit(degrees: real, radians: real) {
    function At(unit: AngleUnit): real {
      match unit
      case Degrees => degrees
      case Radians => radians
    }
  }

  datatype PerCurrentUnit = PerCurrentUnit(amps: real, milliamps: real) {
    function At(unit: CurrentUnit): real {
      match unit
      case Amps => amps
      case Milliamps => milliamps
    }
  }

  /** A reading that depends on a run-mode argument. */
  datatype PerRunMode<T> = PerRunMode(withoutEncoder: T, usingEncoder: T, toPosition: T, stopAndReset: T) {
    function At(mode: RunMode): T {
      match mode
      case RunWithoutEncoder => withoutEncoder
      case RunUsingEncoder => usingEncoder
      case RunToPosition => toPosition
      case StopAndResetEncoder => stopAndReset
    }
  }

  /** Everything the handle's getters report. */
  datatype Readings = Readings(
    manufacturer: Ref,
    deviceName: string,
    connectionInfo: string,
    version: Int32,
    power: real,
    direction: Direction,
    motorType: Ref,
    controller: Ref,
    portNumber: Int32,
    zeroPowerBehavior: ZeroPowerBehavior,
    powerFloat: bool,
    targetPosition: Int32,
    busy: bool,
    currentPosition: Int32,
    mode: RunMode,
    motorEnabled: bool,
    velocity: real,
    velocityIn: PerAngleUnit,
    pid: PerRunMode<PIDCoefficients>,
    pidf: PerRunMode<PIDFCoefficients>,
    targetPositionTolerance: Int32,
    current: PerCurrentUnit,
    currentAlert: PerCurrentUnit,
    overCurrent: bool,
    position: real)

  /** One getter of the SDK interfaces, with its arguments. */
  datatype Query =
    // HardwareDevice
    | GetManufacturer | GetDeviceName | GetConnectionInfo | GetVersion
    // DcMotorSimple, Servo
    | GetPower | GetDirection
    // DcMotor, Servo, CRServo
    | GetMotorType | GetController | GetPortNumber | GetZeroPowerBehavior | GetPowerFloat
    | GetTargetPosition | IsBusy | GetCurrentPosition | GetMode
    // DcMotorEx
    | IsMotorEnabled | GetVelocity | GetVelocityIn(angleUnit: AngleUnit)
    | GetPIDCoefficients(mode: RunMode) | GetPIDFCoefficients(mode: RunMode)
    | GetTargetPositionTolerance | GetCurrent(currentUnit: CurrentUnit)
    | GetCurrentAlert(currentUnit: CurrentUnit) | IsOverCurrent
    // Servo
    | GetPosition

  /** The value a getter returns. */
  datatype Value =
    | Text(text: string)
    | Whole(whole: int)
    | Fraction(fraction: real)
    | Flag(flag: bool)
    | Object(ref: Ref)
    | DirectionValue(direction: Direction)
    | ZeroPowerBehaviorValue(behavior: ZeroPowerBehavior)
    | ModeValue(mode: RunMode)
    | PIDValue(pid: PIDCoefficients)
    | PIDFValue(pidf: PIDFCoefficients)

  /** What the handle answers to a getter. */
  function Answer(r: Readings, q: Query): Value {
    match q
    case GetManufacturer => Object(r.manufacturer)
    case GetDeviceName => Text(r.deviceName)
    case GetConnectionInfo => Text(r.connectionInfo)
    case GetVersion => Whole(r.version)
    case GetPower => Fraction(r.power)
    case GetDirection => DirectionValue(r.direction)
    case GetMotorType => Object(r.motorType)
    case GetController => Object(r.controller)
    case GetPortNumber => Whole(r.portNumber)
    case GetZeroPowerBehavior => ZeroPowerBehaviorValue(r.zeroPowerBehavior)
    case GetPowerFloat => Flag(r.powerFloat)
    case GetTargetPosition => Whole(r.targetPosition)
    case IsBusy => Flag(r.busy)
    case GetCurrentPosition => Whole(r.currentPosition)
    case GetMode => ModeValue(r.mode)
    case IsMotorEnabled => Flag(r.motorEnabled)
    case GetVelocity => Fraction(r.velocity)
    case GetVelocityIn(u) => Fraction(r.velocityIn.At(u))
    case GetPIDCoefficients(m) => PIDValue(r.pid.At(m))
    case GetPIDFCoefficients(m) => PIDFValue(r.pidf.At(m))
    case GetTargetPositionTolerance => Whole(r.targetPositionTolerance)
    case GetCurrent(u) => Fraction(r.current.At(u))
    case GetCurrentAlert(u) => Fraction(r.currentAlert.At(u))
    case IsOverCurrent => Flag(r.overCurrent)
    case GetPosition => Fraction(r.position)
  }

  /** One setter call of the SDK interfaces, with its arguments. */
  datatype Call =
    // HardwareDevice
    | ResetDeviceConfigurationForOpMode | Close
    // DcMotorSimple, Servo
    | SetPower(power: real) | SetDirection(direction: Direction)
    // DcMotor
    | SetMotorType(motorType: Ref) | SetZeroPowerBehavior(behavior: ZeroPowerBehavior) | SetPowerFloat
    | SetTargetPosition(target: Int32) | SetMode(mode: RunMode)
    // DcMotorEx
    | SetMotorEnable | SetMotorDisable
    | SetVelocity(angularRate: real) | SetVelocityIn(angularRate: real, angleUnit: AngleUnit)
    | SetPIDCoefficients(mode: RunMode, pid: PIDCoefficients)
    | SetPIDFCoefficients(mode: RunMode, pidf: PIDFCoefficients)
    | SetVelocityPIDFCoefficients(p: real, i: real, d: real, f: real)
    | SetPositionPIDFCoefficients(p: real)
    | SetTargetPositionTolerance(tolerance: Int32)
    | SetCurrentAlert(current: real, currentUnit: CurrentUnit)
    // Servo
    | SetPosition(position: real) | ScaleRange(min: real, max: real)

  /** A handle: its identity as a reference, what it reports, and what it has been told. */
  datatype Handle = Handle(id: nat, readings: Readings, log: seq<Call>)

  /** The handle receives one setter call. */
  function Receive(h: Handle, c: Call): (r: Handle)
    ensures r.id == h.id && r.readings == h.readings
    ensures r.log == h.log + [c]
  {
    h.(log := h.log + [c])
  }
}

=== FILE: jvm.dfy ===
/** The JVM exceptions the collections can raise, and the outcome of an operation that may
    raise one. */
module Jvm {

  datatype Fault = DivisionByZero | IndexOutOfBounds | NegativeArraySize | IllegalArgument

  datatype Outcome<T> = Done(value: T) | Raised(fault: Fault)
}

=== FILE: limited_queue.dfy ===
/** LimitedQueue: a fixed-capacity ring buffer of nullable slots. `offer` writes at the end of
    the live window and, when full, overwrites the oldest element; `poll` takes from the start.
    The JVM's exceptions (division by zero, a bad array index, a negative array size) are
    modelled as a `Raised` outcome. */
module LimitedQueue {

  import opened Optional
  import opened Jvm

  /** `array` (here `slots`), `currentLen` and `startIndex`; the capacity is the array's length. */
  datatype Queue<T> = Queue(slots: seq<Option<T>>, currentLen: int, startIndex: int)

  /** Index arithmetic of the ring: `i % capacity` for the indices the queue ever forms. */
  function Wrap(i: int, capacity: int): (r: int)
    requires 0 < capacity && 0 <= i < 2 * capacity
    ensures 0 <= r < capacity
    ensures r == i % capacity
  {
    if i < capacity then
      assert i == capacity * 0 + i;
      i
    else
      assert i == capacity * 1 + (i - capacity);
      i - capacity
  }

  /** How far slot i lies after the start of the window. */
  function Offset(i: int, start: int, capacity: int): int {
    if i >= start then i - start else i - start + capacity
  }

  /** The ring invariant: the length and start are in range, and a slot holds an element
      exactly when it lies in the live window. */
  predicate Valid<T>(q: Queue<T>) {
    var capacity := |q.slots|;
    && 0 <= q.currentLen <= capacity
    && (capacity == 0 ==> q.startIndex == 0)
    && (capacity > 0 ==> 0 <= q.startIndex < capacity)
    && forall i | 0 <= i < capacity :: q.slots[i].Some? <==> Offset(i, q.startIndex, capacity) < q.currentLen
  }

  lemma OffsetOfWrap(start: int, k: int, capacity: int)
    requires 0 <= start < capacity && 0 <= k < capacity
    ensures Offset(Wrap(start + k, capacity), start, capacity) == k
  {
  }

  /** The queue's elements, oldest first. */
  function Contents<T>(q: Queue<T>): (xs: seq<T>)
    requires Valid(q)
    ensures |xs| == q.currentLen
    ensures forall k | 0 <= k < |xs| :: q.slots[Wrap(q.startIndex + k, |q.slots|)] == Some(xs[k])
  {
    var capacity := |q.slots|;
    seq(q.currentLen, k requires 0 <= k < q.currentLen =>
      OffsetOfWrap(q.startIndex, k, capacity);
      q.slots[Wrap(q.startIndex + k, capacity)].value)
  }

  /** The constructor: `capacity` null slots, empty, starting at 0; a negative capacity raises. */
  function New<T>(capacity: int): (r: Outcome<Queue<T>>)
    ensures capacity < 0 <==> r == Raised(NegativeArraySize)
    ensures r.Done? ==> Valid(r.value) && |r.value.slots| == capacity && Contents(r.value) == []
    ensures r.Done? ==> r.value.startIndex == 0 && r.value.currentLen == 0
  {
    if capacity < 0 then Raised(NegativeArraySize)
    else Done(Queue(seq(capacity, _ => None), 0, 0))
  }

  /** `size`. */
  function Size<T>(q: Queue<T>): (n: int)
    requires Valid(q)
    ensures n == |Contents(q)| && 0 <= n <= |q.slots|
  {
    q.currentLen
  }

  /** `offer(t)`: a null is refused; otherwise t goes at the end of the window, and when the
      queue was full the start moves past the overwritten oldest slot. With no slots the index
      arithmetic divides by zero. */
  function Offer<T>(q: Queue<T>, t: Option<T>): (r: Outcome<(Queue<T>, bool)>)
    requires Valid(q)
    ensures t.None? ==> r == Done((q, false))
    ensures t.Some? && |q.slots| == 0 ==> r == Raised(DivisionByZero)
    ensures t.Some? && |q.slots| > 0 ==> r.Done? && r.value.1
    ensures r.Done? ==> |r.value.0.slots| == |q.slots|
  {
    if t.None? then Done((q, false))
    else if |q.slots| == 0 then Raised(DivisionByZero)
    else
      var capacity := |q.slots|;
      var end := Wrap(q.startIndex + q.currentLen, capacity);
      var slots := q.slots[end := t];
      if q.currentLen + 1 > capacity then
        Done((Queue(slots, capacity, Wrap(q.startIndex + 1, capacity)), true))
      else
        Done((Queue(slots, q.currentLen + 1, q.startIndex), true))
  }

  /** `poll()`: the start slot's content (null on an empty queue), the slot cleared, the length
      decremented but not below 0, and the start advanced even when the queue was empty. */
  function Poll<T>(q: Queue<T>): (r: Outcome<(Queue<T>, Option<T>)>)
    requires Valid(q)
    ensures |q.slots| == 0 <==> r == Raised(IndexOutOfBounds)
    ensures r.Done? ==> |r.value.0.slots| == |q.slots| && r.value.1 == q.slots[q.startIndex]
  {
    if |q.slots| == 0 then Raised(IndexOutOfBounds)
    else
      var capacity := |q.slots|;
      var result := q.slots[q.startIndex];
      var len := if q.currentLen - 1 < 0 then 0 else q.currentLen - 1;
      Done((Queue(q.slots[q.startIndex := None], len, Wrap(q.startIndex + 1, capacity)), result))
  }

  /** `peek()`: the start slot's content, nothing changed. */
  function Peek<T>(q: Queue<T>): (r: Outcome<Option<T>>)
    requires Valid(q)
    ensures |q.slots| == 0 <==> r == Raised(IndexOutOfBounds)
    ensures r.Done? ==> r.value == q.slots[q.startIndex]
  {
    if |q.slots| == 0 then Raised(IndexOutOfBounds) else Done(q.slots[q.startIndex])
  }

  /** The reference bounded FIFO: append, dropping the oldest element when already full. */
  function FifoOffer<T>(xs: seq<T>, x: T, capacity: nat): (ys: seq<T>)
    requires 0 < capacity && |xs| <= capacity
    ensures 0 < |ys| <= capacity && ys[|ys| - 1] == x
  {
    if |xs| < capacity then xs + [x] else xs[1..] + [x]
  }

  /** The reference removal: the oldest element, if any. */
  function FifoPoll<T>(xs: seq<T>): (r: (seq<T>, Option<T>))
    ensures xs == [] ==> r == ([], None)
    ensures xs != [] ==> r == (xs[1..], Some(xs[0]))
  {
    if xs == [] then ([], None) else (xs[1..], Some(xs[0]))
  }

  /** `offer` keeps the ring invariant and acts on the contents as the reference FIFO. */
  lemma OfferIsFifo<T>(q: Queue<T>, x: T)
    requires Valid(q) && |q.slots| > 0
    ensures var r := Offer(q, Some(x));
            Valid(r.value.0) && Contents(r.value.0) == FifoOffer(Contents(q), x, |q.slots|)
  {
    var capacity := |q.slots|;
    var start := q.startIndex;
    var end := Wrap(start + q.currentLen, capacity);
    var q' := Offer(q, Some(x)).value.0;
    if q.currentLen < capacity {
      OfferIntoSpace(q, x);
    } else {
      OfferWhenFull(q, x);
    }
  }

  lemma OfferIntoSpace<T>(q: Queue<T>, x: T)
    requires Valid(q) && 0 <= q.currentLen < |q.slots|
    ensures var q' := Offer(q, Some(x)).value.0;
            Valid(q') && Contents(q') == Contents(q) + [x]
  {
    OfferIntoSpaceValid(q, x);
    OfferIntoSpaceContents(q, x);
  }

  /** Filling the slot just past the window extends the window by one. */
  lemma OfferIntoSpaceValid<T>(q: Queue<T>, x: T)
    requires Valid(q) && 0 <= q.currentLen < |q.slots|
    ensures Valid(Offer(q, Some(x)).value.0)
  {
    var capacity := |q.slots|;
    var end := Wrap(q.startIndex + q.currentLen, capacity);
    OffsetOfWrap(q.startIndex, q.currentLen, capacity);
    assert Offset(end, q.startIndex, capacity) == q.currentLen;
  }

  lemma OfferIntoSpaceContents<T>(q: Queue<T>, x: T)
    requires Valid(q) && 0 <= q.currentLen < |q.slots|
    requires Valid(Offer(q, Some(x)).value.0)
    ensures Contents(Offer(q, Some(x)).value.0) == Contents(q) + [x]
  {
    var capacity := |q.slots|;
    var start := q.startIndex;
    var end := Wrap(start + q.currentLen, capacity);
    var q' := Offer(q, Some(x)).value.0;
    var ys := Contents(q) + [x];
    assert |Contents(q')| == |ys|;
    forall k | 0 <= k < |ys| ensures Contents(q')[k] == ys[k] {
      OffsetOfWrap(start, k, capacity);
      if k < q.currentLen {
        OffsetOfWrap(start, q.currentLen, capacity);
        assert Wrap(start + k, capacity) != end;
      }
    }
  }

  lemma OfferWhenFull<T>(q: Queue<T>, x: T)
    requires Valid(q) && 0 < q.currentLen == |q.slots|
    ensures var q' := Offer(q, Some(x)).value.0;
            Valid(q') && Contents(q') == Contents(q)[1..] + [x]
  {
    OfferWhenFullValid(q, x);
    OfferWhenFullContents(q, x);
  }

  /** Overwriting the oldest slot of a full ring and advancing the start keeps it full. */
  lemma OfferWhenFullValid<T>(q: Queue<T>, x: T)
    requires Valid(q) && 0 < q.currentLen == |q.slots|
    ensures Valid(Offer(q, Some(x)).value.0)
  {
    var capacity := |q.slots|;
    var start := q.startIndex;
    assert Wrap(start + q.currentLen, capacity) == start;
    var q' := Offer(q, Some(x)).value.0;
    var start' := Wrap(start + 1, capacity);
    assert q'.startIndex == start' && q'.currentLen == capacity;
    forall i | 0 <= i < capacity ensures q'.slots[i].Some? <==> Offset(i, start', capacity) < capacity {
      assert Offset(i, start, capacity) < capacity;
    }
  }

  lemma OfferWhenFullContents<T>(q: Queue<T>, x: T)
    requires Valid(q) && 0 < q.currentLen == |q.slots|
    requires Valid(Offer(q, Some(x)).value.0)
    ensures Contents(Offer(q, Some(x)).value.0) == Contents(q)[1..] + [x]
  {
    var capacity := |q.slots|;
    var start := q.startIndex;
    assert Wrap(start + q.currentLen, capacity) == start;
    var q' := Offer(q, Some(x)).value.0;
    var start' := Wrap(start + 1, capacity);
    assert q'.startIndex == start' && q'.currentLen == capacity;
    var ys := Contents(q)[1..] + [x];
    forall k | 0 <= k < capacity ensures Contents(q')[k] == ys[k] {
      if k < capacity - 1 {
        assert Wrap(start' + k, capacity) == Wrap(start + (k + 1), capacity);
        OffsetOfWrap(start, k + 1, capacity);
      } else {
        assert Wrap(start' + k, capacity) == start;
      }
    }
  }

  /** `poll` keeps the ring invariant, returns the oldest element (null when empty) and removes
      it, as the reference FIFO does; `peek` returns the same element and changes nothing. */
  lemma PollIsFifo<T>(q: Queue<T>)
    requires Valid(q) && |q.slots| > 0
    ensures var r := Poll(q).value;
            Valid(r.0) && (Contents(r.0), r.1) == FifoPoll(Contents(q))
    ensures Peek(q) == Done(Poll(q).value.1)
  {
    if q.currentLen == 0 {
      PollEmpty(q);
    } else {
      PollNonEmpty(q);
    }
  }

  lemma PollEmpty<T>(q: Queue<T>)
    requires Valid(q) && |q.slots| > 0 && q.currentLen == 0
    ensures var r := Poll(q).value;
            Valid(r.0) && Contents(r.0) == [] && r.1 == None
  {
    var capacity := |q.slots|;
    var start := q.startIndex;
    assert Offset(start, start, capacity) == 0;
    var q' := Poll(q).value.0;
    forall i | 0 <= i < capacity ensures q'.slots[i].None? {
      assert Offset(i, start, capacity) >= 0;
    }
  }

  lemma PollNonEmpty<T>(q: Queue<T>)
    requires Valid(q) && |q.slots| > 0 && q.currentLen > 0
    ensures var r := Poll(q).value;
            Valid(r.0) && Contents(r.0) == Contents(q)[1..] && r.1 == Some(Contents(q)[0])
  {
    PollNonEmptyValid(q);
    PollNonEmptyContents(q);
    OffsetOfWrap(q.startIndex, 0, |q.slots|);
  }

  /** Clearing the start slot and advancing the start keeps the ring invariant. */
  lemma PollNonEmptyValid<T>(q: Queue<T>)
    requires Valid(q) && |q.slots| > 0 && q.currentLen > 0
    ensures Valid(Poll(q).value.0)
  {
    var capacity := |q.slots|;
    var start := q.startIndex;
    var q' := Poll(q).value.0;
    var start' := Wrap(start + 1, capacity);
    forall i | 0 <= i < capacity ensures q'.slots[i].Some? <==> Offset(i, start', capacity) < q'.currentLen {
      if i != start {
        assert Offset(i, start', capacity) == Offset(i, start, capacity) - 1;
      }
    }
  }

  lemma PollNonEmptyContents<T>(q: Queue<T>)
    requires Valid(q) && |q.slots| > 0 && q.currentLen > 0
    requires Valid(Poll(q).value.0)
    ensures Contents(Poll(q).value.0) == Contents(q)[1..]
  {
    var capacity := |q.slots|;
    var start := q.startIndex;
    var q' := Poll(q).value.0;
    var start' := Wrap(start + 1, capacity);
    var ys := Contents(q)[1..];
    forall k | 0 <= k < |ys| ensures Contents(q')[k] == ys[k] {
      assert Wrap(start' + k, capacity) == Wrap(start + (k + 1), capacity);
      OffsetOfWrap(start, k + 1, capacity);
    }
  }

  /** A queue operation. */
  datatype Op<T> = OfferOp(element: T) | PollOp

  /** Runs operations on a queue with at least one slot; each result is dropped. */
  function RunQueue<T>(q: Queue<T>, ops: seq<Op<T>>): (r: Queue<T>)
    requires Valid(q) && |q.slots| > 0
    ensures Valid(r) && |r.slots| == |q.slots|
    decreases |ops|
  {
    if ops == [] then q
    else
      match ops[0]
      case OfferOp(x) =>
        OfferIsFifo(q, x);
        RunQueue(Offer(q, Some(x)).value.0, ops[1..])
      case PollOp =>
        PollIsFifo(q);
        RunQueue(Poll(q).value.0, ops[1..])
  }

  /** The same operations on the reference FIFO. */
  function RunFifo<T>(xs: seq<T>, ops: seq<Op<T>>, capacity: nat): (ys: seq<T>)
    requires 0 < capacity && |xs| <= capacity
    ensures |ys| <= capacity
    decreases |ops|
  {
    if ops == [] then xs
    else
      match ops[0]
      case OfferOp(x) => RunFifo(FifoOffer(xs, x, capacity), ops[1..], capacity)
      case PollOp => RunFifo(FifoPoll(xs).0, ops[1..], capacity)
  }

  /** Any series of offers and polls leaves the queue holding what the bounded FIFO that drops
      its oldest element on overflow holds. */
  lemma {:induction false} QueueIsBoundedFifo<T>(q: Queue<T>, ops: seq<Op<T>>)
    requires Valid(q) && |q.slots| > 0
    ensures Contents(RunQueue(q, ops)) == RunFifo(Contents(q), ops, |q.slots|)
    decreases |ops|
  {
    if ops != [] {
      match ops[0]
      case OfferOp(x) =>
        OfferIsFifo(q, x);
        QueueIsBoundedFifo(Offer(q, Some(x)).value.0, ops[1..]);
      case PollOp =>
        PollIsFifo(q);
        QueueIsBoundedFifo(Poll(q).value.0, ops[1..]);
    }
  }

  /** Offering null refuses and changes nothing; on a queue with no slots every non-null offer
      and every poll and peek raises. */
  lemma RefusalsAndFaults<T>(q: Queue<T>, x: T)
    requires Valid(q)
    ensures Offer(q, None) == Done((q, false))
    ensures |q.slots| == 0 ==> Offer(q, Some(x)).Raised? && Poll(q).Raised? && Peek(q).Raised?
  {
  }

  /** A queue of two: offering 1, 2, 3 keeps 2 and 3, and polling then yields 2. */
  lemma DropsOldest()
    ensures var q0 := New<int>(2).value;
            var q := RunQueue(q0, [OfferOp(1), OfferOp(2), OfferOp(3)]);
            Contents(q) == [2, 3] && Poll(q).value.1 == Some(2)
  {
    var q0 := New<int>(2).value;
    var ops := [OfferOp(1), OfferOp(2), OfferOp(3)];
    QueueIsBoundedFifo(q0, ops);
    assert ops[1..] == [OfferOp(2), OfferOp(3)];
    assert ops[1..][1..] == [OfferOp(3)];
    assert [OfferOp(3)][1..] == [];
    assert RunFifo([], ops, 2) == RunFifo([1], ops[1..], 2) == RunFifo([1, 2], [OfferOp(3)], 2) == [2, 3];
    var q := RunQueue(q0, ops);
    PollIsFifo(q);
  }
}

=== FILE: motor_controller_group.dfy ===
/** MotorControllerGroup: several motor-like actuators driven as one. The group keeps its own
    direction, tolerance, enabled flag and stored power; a write that passes the group's
    hysteresis is handed to every member's own power setter, and a change of direction
    toggles every member's direction. */
module MotorControllerGroup {

  import opened Numeric
  import opened Calcified
  import CM = CalcifiedMotor
  import CS = CalcifiedContinuousServo

  const DefaultCachingTolerance: real := 0.005

  /** A member: a hub motor or a continuous servo (groups of groups are not modelled). */
  datatype Member = MotorMember(motor: CM.Motor) | ServoMember(servo: CS.ContinuousServo) {
    function Direction(): Direction {
      match this
      case MotorMember(m) => m.direction
      case ServoMember(s) => s.direction
    }

    /** The member's stored power: the corrected value it last sent to the hub. */
    function Field(): real {
      match this
      case MotorMember(m) => m.field
      case ServoMember(s) => s.field
    }

    function Tolerance(): real {
      match this
      case MotorMember(m) => m.cachingTolerance
      case ServoMember(s) => s.cachingTolerance
    }

    function Enabled(): bool {
      match this
      case MotorMember(m) => m.enabled
      case ServoMember(s) => s.enabled
    }
  }

  /** `it.power = value` on one member: the member's own setter. */
  function SetMemberPower(m: Member, value: real, limits: ApiLimits): (r: Member)
    requires limits.Valid()
    ensures r.MotorMember? == m.MotorMember?
    ensures r.Direction() == m.Direction() && r.Tolerance() == m.Tolerance() && r.Enabled() == m.Enabled()
    ensures m.Enabled() && PowerWriteNeeded(m.Field(), CorrectedPower(value, m.Direction()), m.Tolerance()) ==>
              r.Field() == CorrectedPower(value, m.Direction())
    ensures !PowerWriteNeeded(m.Field(), CorrectedPower(value, m.Direction()), m.Tolerance()) ==> r == m
    ensures m.MotorMember? && PowerWriteNeeded(m.Field(), CorrectedPower(value, m.Direction()), m.Tolerance()) ==>
              r.Field() == CorrectedPower(value, m.Direction())
    ensures m.ServoMember? && !m.Enabled() ==> r == m
  {
    match m
    case MotorMember(x) => MotorMember(CM.SetPower(x, value, limits))
    case ServoMember(x) => ServoMember(CS.SetPower(x, value, limits))
  }

  /** `it.direction = it.direction.toggled` on one member; nothing is sent. */
  function ToggleMember(m: Member): (r: Member)
    ensures r.MotorMember? == m.MotorMember?
    ensures r.Direction() == m.Direction().Toggled()
    ensures r.Field() == m.Field() && r.Tolerance() == m.Tolerance() && r.Enabled() == m.Enabled()
  {
    match m
    case MotorMember(x) => MotorMember(x.(direction := x.direction.Toggled()))
    case ServoMember(x) => ServoMember(x.(direction := x.direction.Toggled()))
  }

  lemma ToggleMemberTwice(m: Member)
    ensures ToggleMember(ToggleMember(m)) == m
  {
  }

  /** Every member's setter, in order, with the same value. */
  function SetAll(ms: seq<Member>, value: real, limits: ApiLimits): (r: seq<Member>)
    requires limits.Valid()
    ensures |r| == |ms| && forall i | 0 <= i < |ms| :: r[i] == SetMemberPower(ms[i], value, limits)
  {
    if ms == [] then [] else [SetMemberPower(ms[0], value, limits)] + SetAll(ms[1..], value, limits)
  }

  /** Every member's direction toggled. */
  function ToggleAll(ms: seq<Member>): (r: seq<Member>)
    ensures |r| == |ms| && forall i | 0 <= i < |ms| :: r[i] == ToggleMember(ms[i])
  {
    if ms == [] then [] else [ToggleMember(ms[0])] + ToggleAll(ms[1..])
  }

  datatype Group = Group(members: seq<Member>, direction: Direction, cachingTolerance: real, enabled: bool, field: real)

  /** A new group: forward, tolerance 0.005, enabled, at rest; the members are as given. */
  function New(members: seq<Member>): (g: Group)
    ensures g.members == members && g.direction == Forward && g.cachingTolerance == 0.005
    ensures g.enabled && g.field == 0.0 && Power(g) == 0.0
  {
    Group(members, Forward, DefaultCachingTolerance, true, 0.0)
  }

  /** The `power` getter: the stored value in the user's frame, or 0 while disabled. */
  function Power(g: Group): (p: real)
    ensures !g.enabled ==> p == 0.0
    ensures g.enabled && g.direction.Forward? ==> p == g.field
    ensures g.enabled && g.direction.Reverse? ==> p == -g.field
  {
    if g.enabled then g.field * g.direction.Multiplier() else 0.0
  }

  /** The `direction` setter: on a change, every member's direction is toggled once and the
      new direction stored; setting the current direction does nothing. */
  function SetDirection(g: Group, d: Direction): (r: Group)
    ensures r.direction == d
    ensures d == g.direction ==> r == g
    ensures d != g.direction ==> r == g.(direction := d, members := ToggleAll(g.members))
  {
    if g.direction != d then g.(direction := d, members := ToggleAll(g.members)) else g
  }

  /** The `power` setter as written: nothing at all while disabled; otherwise the request is
      clamped and signed with the group's direction, and when the hysteresis rule fires that
      signed value is handed to every member and stored. */
  function SetPowerAsWritten(g: Group, value: real, limits: ApiLimits): (r: Group)
    requires limits.Valid()
    ensures !g.enabled ==> r == g
    ensures var c := CorrectedPower(value, g.direction);
            g.enabled && PowerWriteNeeded(g.field, c, g.cachingTolerance) ==>
              r == g.(field := c, members := SetAll(g.members, c, limits))
    ensures !PowerWriteNeeded(g.field, CorrectedPower(value, g.direction), g.cachingTolerance) ==> r == g
    ensures -1.0 <= g.field <= 1.0 ==> -1.0 <= r.field <= 1.0
  {
    if !g.enabled then g
    else
      var c := CorrectedPower(value, g.direction);
      if PowerWriteNeeded(g.field, c, g.cachingTolerance) then g.(field := c, members := SetAll(g.members, c, limits))
      else g
  }

  /** The `power` setter as evidently intended: the same decision and the same stored value,
      but the members are handed the clamped request in the user's frame, so that their own
      (toggled) directions apply the group's direction exactly once. */
  function SetPower(g: Group, value: real, limits: ApiLimits): (r: Group)
    requires limits.Valid()
    ensures !g.enabled ==> r == g
    ensures var c := CorrectedPower(value, g.direction);
            g.enabled && PowerWriteNeeded(g.field, c, g.cachingTolerance) ==>
              r == g.(field := c, members := SetAll(g.members, Clamp(value, -1.0, 1.0), limits))
    ensures !PowerWriteNeeded(g.field, CorrectedPower(value, g.direction), g.cachingTolerance) ==> r == g
    ensures -1.0 <= g.field <= 1.0 ==> -1.0 <= r.field <= 1.0
    ensures |r.members| == |g.members|
  {
    if !g.enabled then g
    else
      var c := CorrectedPower(value, g.direction);
      if PowerWriteNeeded(g.field, c, g.cachingTolerance) then
        g.(field := c, members := SetAll(g.members, Clamp(value, -1.0, 1.0), limits))
      else g
  }

  /** Two changes of direction restore every member; setting the same direction twice is one change. */
  lemma TwoChangesRestoreMembers(g: Group, d: Direction)
    ensures SetDirection(SetDirection(g, d), g.direction) == g
    ensures SetDirection(SetDirection(g, d), d) == SetDirection(g, d)
  {
    if d != g.direction {
      var ms := ToggleAll(g.members);
      forall i | 0 <= i < |g.members| ensures ToggleAll(ms)[i] == g.members[i] {
        ToggleMemberTwice(g.members[i]);
      }
      assert ToggleAll(ms) == g.members;
    }
  }

  /** The members are "in step" with the group: each is enabled, points the group's way, has
      the group's tolerance, and holds the group's stored power. */
  predicate InStep(g: Group) {
    forall i | 0 <= i < |g.members| ::
      && g.members[i].Enabled()
      && g.members[i].Direction() == g.direction
      && g.members[i].Tolerance() == g.cachingTolerance
      && g.members[i].Field() == g.field
  }

  /** A group of fresh hub motors and continuous servos starts in step. */
  lemma FreshMembersStartInStep(ports: seq<int>, frame: real, servos: bool)
    ensures InStep(New(seq(|ports|, i requires 0 <= i < |ports| =>
                           if servos then ServoMember(CS.New(ports[i], frame)) else MotorMember(CM.New(ports[i])))))
  {
  }

  /** With the intended setter, the group behaves as one actuator: every operation keeps the
      members in step, so every member's hub-side value is the group's signed value, and
      reversing the group reverses every member. */
  lemma IntendedSetterKeepsInStep(g: Group, value: real, limits: ApiLimits, d: Direction)
    requires limits.Valid() && InStep(g)
    ensures InStep(SetPower(g, value, limits))
    ensures InStep(SetDirection(g, d))
  {
    var c := CorrectedPower(value, g.direction);
    var v := Clamp(value, -1.0, 1.0);
    if g.enabled && PowerWriteNeeded(g.field, c, g.cachingTolerance) {
      var r := SetPower(g, value, limits);
      forall i | 0 <= i < |g.members|
        ensures r.members[i].Field() == c
      {
        assert CorrectedPower(v, g.members[i].Direction()) == c;
      }
    }
  }

  /** The finding: with the setter as written, a one-motor group writes the same hub command
      whichever its direction, because the group's sign and the member's toggled sign cancel;
      the intended setter writes opposite values. */
  lemma GroupDirectionCancelsAsWritten(port: int, limits: ApiLimits)
    requires limits.Valid()
    ensures var g := New([MotorMember(CM.New(port))]);
            var forward := SetPowerAsWritten(g, 0.5, limits);
            var reversed := SetPowerAsWritten(SetDirection(g, Reverse), 0.5, limits);
            forward.members[0].Field() == 0.5 && reversed.members[0].Field() == 0.5
            && forward.members[0].motor.log == reversed.members[0].motor.log
    ensures var g := New([MotorMember(CM.New(port))]);
            SetPower(g, 0.5, limits).members[0].Field() == 0.5
            && SetPower(SetDirection(g, Reverse), 0.5, limits).members[0].Field() == -0.5
  {
  }
}

=== FILE: numeric.dfy ===
/** Small numeric helpers shared by every module: the absolute value and clamping of the
    JVM's `double` (modelled as `real`), and the JVM's narrowing conversions and 64-bit
    wrap-around written out explicitly. */
module Numeric {

  const Int32Min: int := -0x8000_0000
  const Int32Max: int := 0x7fff_ffff
  const Int64Min: int := -0x8000_0000_0000_0000
  const Int64Max: int := 0x7fff_ffff_ffff_ffff

  /** A Java `int`. */
  type Int32 = x: int | Int32Min <= x <= Int32Max

  /** A Java/Kotlin `long`. */
  type Int64 = x: int | Int64Min <= x <= Int64Max

  /** `Math.abs` / `kotlin.math.abs` on a double. */
  function Abs(x: real): (r: real)
    ensures r >= 0.0
    ensures r == x || r == -x
  {
    if x < 0.0 then -x else x
  }

  /** Kotlin's `coerceIn(lo, hi)` on doubles. */
  function Clamp(x: real, lo: real, hi: real): (r: real)
    requires lo <= hi
    ensures lo <= r <= hi
    ensures lo <= x <= hi ==> r == x
    ensures x < lo ==> r == lo
    ensures hi < x ==> r == hi
  {
    if x < lo then lo else if hi < x then hi else x
  }

  /** Kotlin's `coerceIn(lo, hi)` on integers. */
  function ClampInt(x: int, lo: int, hi: int): (r: int)
    requires lo <= hi
    ensures lo <= r <= hi
    ensures lo <= x <= hi ==> r == x
    ensures x < lo ==> r == lo
    ensures hi < x ==> r == hi
  {
    if x < lo then lo else if hi < x then hi else x
  }

  function MaxInt(a: int, b: int): (r: int)
    ensures r >= a && r >= b
    ensures r == a || r == b
  {
    if a < b then b else a
  }

  /** Rounding toward zero, the rounding of every JVM double-to-integer conversion. */
  function TruncateTowardZero(x: real): (r: int)
    ensures 0.0 <= x ==> 0 <= r && r as real <= x < r as real + 1.0
    ensures x < 0.0 ==> r <= 0 && r as real - 1.0 < x <= r as real
  {
    if 0.0 <= x then x.Floor else -((-x).Floor)
  }

  /** Kotlin's `Double.toInt()`: truncates toward zero and saturates at the `int` range. */
  function ToInt32(x: real): (r: Int32)
    ensures Int32Min as real <= x <= Int32Max as real ==> r == TruncateTowardZero(x)
    ensures x < Int32Min as real ==> r == Int32Min
    ensures Int32Max as real < x ==> r == Int32Max
  {
    ClampInt(TruncateTowardZero(x), Int32Min, Int32Max)
  }

  /** Kotlin's `Double.toLong()`: truncates toward zero and saturates at the `long` range. */
  function ToInt64(x: real): (r: Int64)
    ensures Int64Min as real <= x <= Int64Max as real ==> r == TruncateTowardZero(x)
    ensures x < Int64Min as real ==> r == Int64Min
    ensures Int64Max as real < x ==> r == Int64Max
  {
    ClampInt(TruncateTowardZero(x), Int64Min, Int64Max)
  }

  /** Two's-complement wrap-around of a 64-bit result, as `long` arithmetic does on overflow. */
  function WrapInt64(x: int): (r: Int64)
    ensures (r - x) % 0x1_0000_0000_0000_0000 == 0
    ensures Int64Min <= x <= Int64Max ==> r == x
  {
    (x - Int64Min) % 0x1_0000_0000_0000_0000 + Int64Min
  }
}

=== FILE: optional.dfy ===
/** The optional value used for the JVM's `null` and for the `Double.NaN` "never written"
    sentinel of the servo caches. */
module Optional {

  datatype Option<+T> = None | Some(value: T) {

    /** The value, or `default` when there is none. */
    function GetOr(default: T): (r: T)
      ensures Some? ==> r == value
      ensures None? ==> r == default
    {
      match this
      case Some(v) => v
      case None => default
    }
  }
}

=== FILE: sequences.dfy ===
/** Generic facts about sequence concatenation, stated once so that proofs about long
    histories of calls need not rediscover them for every element type. */
module Sequences {

  lemma AppendAssociates<T>(a: seq<T>, b: seq<T>, c: seq<T>)
    ensures (a + b) + c == a + (b + c)
  {
  }

  lemma SplitAt<T>(s: seq<T>, n: int)
    requires 0 <= n <= |s|
    ensures s == s[..n] + s[n..]
  {
  }

  /** A history extended twice: what was added since `a` is what `b` added, then what `c` added. */
  lemma SuffixSplits<T>(a: seq<T>, b: seq<T>, c: seq<T>)
    requires |a| <= |b| <= |c| && b[..|a|] == a && c[..|b|] == b
    ensures c[|a|..] == b[|a|..] + c[|b|..]
  {
    assert c[..|b|][|a|..] == b[|a|..];
    assert c[|a|..] == c[|a|..|b|] + c[|b|..];
  }

  /** What was appended is what follows the old prefix. */
  lemma AppendedSuffix<T>(a: seq<T>, b: seq<T>)
    ensures (a + b)[|a|..] == b
  {
  }
}
